=== FILE: README.md ===
# Cashless dashboard core, modelled in Dafny

This project models the logic core of the cashless events admin dashboard. That dashboard is a React front end where an organiser manages events, currencies, staff, stands, menu items, client balances, top-ups and transactions. The framework is stripped away. What remains are the parts that compute:

- **The dynamic table.** It keeps a local mirror of its rows and applies add/edit/remove transactions keyed by an id field. In server mode it reads and writes paging state in a keyed store.
- **The two keyed stores.** These are the pagination slice and the filter slice.
- **The cache reconcilers of the API hooks.** Each mutation's success handler is modelled as a function, or a method where the source loops, from the old cached lists to the new ones. The guards that refuse a delete before any request are results with a refusal message.
- **The form state machines.** These are the stand wizard (information → staff → items) and the event wizard (information → currencies), with their selection rules and validity checks.
- **The derived views.** These are the stands table cells, the list dialog rows, the filter option lists and the items chart pivot.
- **The routing guards.** These are the authentication redirect and the event tab selection.
- **The string utilities.** These are `singularize` and `toTitleCase`.

Records are maps from field name to a small `Value` type. A missing field is `None`, which stands for `undefined`. A spread `{...a, ...b}` is the map union `a + b`, and `a || b` is `Js.OrElse`. Cached query data that may be absent is an `Option<seq<Record>>`. The query client's cache is a sequence of `(key, data)` entries. State that the source updates in place is a class: the table mirror, the two stores, the form wizards and the selection states. Loops in the source are methods with loop invariants, each proved against a function that specifies it.

## Model

| member | source | states |
|---|---|---|
| DynamicTable.Flat | src/components/dynamic-table/dynamic-table.tsx:171-185 | The rows an add inserts: the single row, or the array's rows in order |
| DynamicTable.SpliceStart | src/components/dynamic-table/dynamic-table.tsx:172-181 | `splice`'s insertion point: a negative index counts from the end and is clamped to 0, and a large one is clamped to the length |
| DynamicTable.Added | src/components/dynamic-table/dynamic-table.tsx:171-185 | Without an index the items are appended in order. With one, they sit contiguously at the splice point, earlier rows stay before them, later rows follow in order, and the length grows by the item count |
| DynamicTable.AppendIsInsertAtEnd | src/components/dynamic-table/dynamic-table.tsx:172-185 | Adding without an index is the same as inserting at the current length |
| DynamicTable.PatchFor | src/components/dynamic-table/dynamic-table.tsx:119-128 | The patch applied to a row is the first patch carrying the row's id, and there is none when no patch carries it |
| DynamicTable.Edited | src/components/dynamic-table/dynamic-table.tsx:116-141 | Length and order are kept. A matched row becomes the row merged with its first patch, with patch fields winning. Unmatched rows are unchanged. With no id field set, nothing changes |
| DynamicTable.EditKeepsIds | src/components/dynamic-table/dynamic-table.tsx:116-141 | An edit never changes the id a row carries |
| DynamicTable.EditOneIsEditMany | src/components/dynamic-table/dynamic-table.tsx:119-136 | Editing with one row gives the same rows as editing with an array holding only that row |
| DynamicTable.Removed | src/components/dynamic-table/dynamic-table.tsx:143-169 | A row survives iff no entry names its id: a bare string is compared directly and an object by its id field. With no id field set, nothing changes |
| DynamicTable.RemoveKeepsOrder | src/components/dynamic-table/dynamic-table.tsx:143-169 | Removal distributes over concatenation, so survivors keep their order |
| DynamicTable.RemoveOfAbsentKeepsAll | src/components/dynamic-table/dynamic-table.tsx:146-157 | A remove whose entries name no row keeps every row |
| DynamicTable.PagesOfTen | src/components/dynamic-table/dynamic-table.tsx:238-242 | The least page count whose pages of ten hold all rows |
| DynamicTable.Resolved | src/components/dynamic-table/dynamic-table.tsx:280-296 | Page index and count come from the store entry's `page`/`pages` only in server mode with the key present, and from local state otherwise |
| DynamicTable.PageWrite | src/components/dynamic-table/dynamic-table.tsx:314-346 | Every navigation write sets the page and a page size of 10 and nothing else |
| DynamicTable.CheckLastPage | src/components/dynamic-table/dynamic-table.tsx:298-304 | False while loading or with a missing page field. Otherwise true iff no page follows the current one |
| DynamicTable.CheckFirstPage | src/components/dynamic-table/dynamic-table.tsx:306-312 | False while loading or with no page index. True only on page 0 or 1, so one step back reaches page 0 |
| DynamicTable.NextTarget | src/components/dynamic-table/dynamic-table.tsx:314-329 | No write outside server mode or without a key. "Last" writes pages-1 when that is not negative. "Next" writes page+1 with no clamp, a missing page counting as 0 |
| DynamicTable.PreviousTarget | src/components/dynamic-table/dynamic-table.tsx:331-346 | "Previous" writes page-1 and "first" writes 0. There is no write on page 0 or outside server mode |
| DynamicTable.NextPageTarget | src/components/dynamic-table/dynamic-table.tsx:364-378 | The next/last button writes only in server mode, and only as `nextPaginationPage` would |
| DynamicTable.PrevPageTarget | src/components/dynamic-table/dynamic-table.tsx:348-362 | The previous/first button writes only in server mode, and only as `previousPaginationPage` would |
| DynamicTable.NextPageClamps | src/components/dynamic-table/dynamic-table.tsx:314-329 | In server mode "next" moves one page forward, stops on the last page, and does nothing with no pages |
| DynamicTable.LastPageJumps | src/components/dynamic-table/dynamic-table.tsx:364-378 | In server mode "last" goes to the final page whenever there is one |
| DynamicTable.PrevPageSteps | src/components/dynamic-table/dynamic-table.tsx:331-346 | In server mode "previous" moves one page back and does nothing on page 0 |
| DynamicTable.FirstPageJumps | src/components/dynamic-table/dynamic-table.tsx:348-362 | "First" goes to page 0 from any other recorded page |
| DynamicTable.Table.constructor | src/components/dynamic-table/dynamic-table.tsx:234-242 | A table starts with no rows, on page 0 of 0 |
| DynamicTable.Table.OnTableData | src/components/dynamic-table/dynamic-table.tsx:234-236 | A new snapshot replaces the mirror wholesale |
| DynamicTable.Table.SyncPageCount | src/components/dynamic-table/dynamic-table.tsx:238-242 | Outside server mode the page count becomes ceil(rows/10) |
| DynamicTable.Table.Add | src/components/dynamic-table/dynamic-table.tsx:171-185 | The mirror becomes `Added` of the old rows |
| DynamicTable.Table.Edit | src/components/dynamic-table/dynamic-table.tsx:116-141 | The mirror becomes `Edited` of the old rows |
| DynamicTable.Table.Remove | src/components/dynamic-table/dynamic-table.tsx:143-169 | The mirror becomes `Removed` of the old rows |
| DynamicTable.Table.ApplyTransaction | src/components/dynamic-table/dynamic-table.tsx:187-197 | A missing kind adds, only an add uses the index, and edit and remove dispatch to their updaters |
| DynamicTable.Table.NextPaginationPage | src/components/dynamic-table/dynamic-table.tsx:314-329 | The store changes only at this table's key, by the `NextTarget` write |
| DynamicTable.Table.PreviousPaginationPage | src/components/dynamic-table/dynamic-table.tsx:331-346 | The store changes only at this table's key, by the `PreviousTarget` write |
| DynamicTable.Table.NextPage | src/components/dynamic-table/dynamic-table.tsx:364-378 | While loading nothing changes. Otherwise the store takes the `NextPageTarget` write |
| DynamicTable.Table.PrevPage | src/components/dynamic-table/dynamic-table.tsx:348-362 | While loading nothing changes. Otherwise the store takes the `PrevPageTarget` write |
| PaginationSlice.WithPagination | src/store/slices/paginationSlice.ts:32-44 | The entry for the id is the old entry, or `{}`, with exactly `info`'s fields overridden. Every other key is unchanged |
| PaginationSlice.SetPaginationIdempotent | src/store/slices/paginationSlice.ts:32-44 | Writing the same fields twice equals writing them once |
| PaginationSlice.RemoveUndoesSet | src/store/slices/paginationSlice.ts:20-44 | Removing a key just written leaves the map as removing it from the old map would |
| PaginationSlice.PaginationStore.constructor | src/store/slices/paginationSlice.ts:19 | The store starts empty |
| PaginationSlice.PaginationStore.SetPagination | src/store/slices/paginationSlice.ts:32-44 | The map becomes `WithPagination` of the old map |
| PaginationSlice.PaginationStore.RemovePagination | src/store/slices/paginationSlice.ts:20-31 | Removing an absent id changes nothing. Removing a present id deletes only that key |
| FilterSlice.WithFilter | src/store/slices/filterSlice.ts:26-34 | The record for the key is replaced wholesale, with no merge, and other keys are unchanged |
| FilterSlice.SetFilterOverwrites | src/store/slices/filterSlice.ts:26-34 | A later write on a key discards the earlier record entirely |
| FilterSlice.RemoveUndoesSetFilter | src/store/slices/filterSlice.ts:14-34 | Removing a key just set equals removing it from the old map |
| FilterSlice.FilterStore.constructor | src/store/slices/filterSlice.ts:13 | The store starts empty |
| FilterSlice.FilterStore.SetFilter | src/store/slices/filterSlice.ts:26-34 | The map becomes `WithFilter` of the old map |
| FilterSlice.FilterStore.RemoveFilter | src/store/slices/filterSlice.ts:14-25 | Removing an absent key changes nothing. Removing a present key deletes only that key |
| Cache.FirstWith | src/services/api/useStaffApi.ts:105-120 | `findIndex`: the first index whose field equals the value, or none when no row has it |
| Cache.IndexBy | src/services/api/useMenuItemsApi.ts:97-103 | The reduce into an object: its keys are exactly the rows' keys, and each key holds a row with that key |
| Cache.IndexByLastWins | src/services/api/useMenuItemsApi.ts:97-103 | The row kept under a key is the last row with that key |
| Cache.UpdateFirst | src/services/api/useStaffApi.ts:105-120 | Only the first row with the value is merged with the patch. Length and the other rows are kept, and with no such row the data is unchanged |
| Cache.UpdateFirstFields | src/services/api/useStaffApi.ts:114-117 | The patched row takes every field the patch names and keeps every other field |
| Cache.Prepended | src/services/api/useStandsApi.ts:71-77 | The new row comes first, then every cached row in order |
| Cache.Without | src/services/api/useStandsApi.ts:120-128 | Exactly the rows whose field differs from the value survive, in order |
| Cache.WithoutConcat | src/services/api/useStandsApi.ts:120-128 | Filtering distributes over concatenation, so the order is kept |
| Cache.WithoutIdempotent | src/services/api/useStandsApi.ts:120-128 | Filtering twice equals filtering once |
| Cache.SpliceOut | src/services/api/useBalancesApi.ts:69-83 | `splice(k, 1)` on a copy: one fewer row, the rows before `k` unchanged, and the rows after it shifted down |
| Cache.FoundIn | src/services/api/useBalancesApi.ts:69-83 | The row a splice pass takes from one query is the row at the first index holding the value (`findIndex`), in a query under the prefix. None iff the query does not match or holds no such row |
| Cache.SplicedEntry | src/services/api/useBalancesApi.ts:69-83 | A query under the prefix that holds the value becomes `SpliceOut` at the first index with it: that row leaves and the others keep their order. Every other query is unchanged |
| Cache.SplicedTakesOne | src/services/api/useBalancesApi.ts:69-83 | A splice takes out exactly the found row: the length drops by one only when a row was found |
| Cache.LastFoundIsLastHit | src/services/api/useBalancesApi.ts:67-83 | The captured balance is the hit of the last query that has one, and there is none only when no query has a hit |
| Cache.FirstHit | src/services/api/useClientsApi.ts:104-123 | The index of the first query holding the balance, with none before it |
| Cache.SpliceFirstPass | src/services/api/useClientsApi.ts:104-123 | Only the first query with a hit loses its row. Every other query is unchanged |
| Cache.FilteredEntry | src/services/api/useClientsApi.ts:97-102 | A query under the prefix keeps exactly the rows whose field differs. Other queries are unchanged |
| Cache.FilterPass | src/services/api/useClientsApi.ts:97-102 | Every query under the prefix is filtered, and the query keys are kept |
| Cache.SplicePass | src/services/api/useBalancesApi.ts:69-83 | Every query under the prefix loses its found row, and the query keys are kept |
| StandLists.SoleHolder | src/services/api/useStaffApi.ts:61-71 | Finds the first stand whose list is exactly `[id]`, as `stands.find` does. There is none iff no stand has that list |
| StandLists.FirstSoleIndex | src/services/api/useStaffApi.ts:61-71 | The index of the first stand whose list is exactly `[id]`, and none iff there is no such stand |
| StandLists.StrippedAll | src/services/api/useStaffApi.ts:153-157 | No stand lists the id afterwards. Every other entry and field is kept |
| StandLists.StripFromStands | src/services/api/useMenuItemsApi.ts:206-221 | The stands loop: unchanged when no stand lists the id, otherwise every stand is stripped of it |
| StandLists.GuardKeepsStandsNonEmpty | src/services/api/useStaffApi.ts:61-71 | When the guard let a delete through, no stand that had entries is left with none |
| StandLists.RenamedAll | src/services/api/useMenuItemsApi.ts:170-181 | Each stand has the first occurrence of the old name replaced by the new one, and nothing else changes |
| StandLists.RenameLists | src/services/api/useMenuItemsApi.ts:170-181 | A stand that listed the old name lists the new one at the same position, with every other entry kept |
| StandLists.RenameRoundTripOne | src/services/api/useMenuItemsApi.ts:170-181 | Renaming a stand to an unused name and back restores it |
| StandLists.RenameRoundTrip | src/services/api/useMenuItemsApi.ts:158-185 | Renaming to a name no stand uses and back restores every stand |
| StandLists.RenameInStands | src/services/api/useMenuItemsApi.ts:158-185 | The stands loop: unchanged when no stand lists the old name, otherwise every stand is renamed |
| MenuItemsApi.RemoveGuard | src/services/api/useMenuItemsApi.ts:65-78 | Proceeds iff no stand's items are exactly `[itemName]`. A refusal names the first such stand |
| MenuItemsApi.NewItems | src/services/api/useMenuItemsApi.ts:118-129 | Each appended item is the posted record of a listed name with `eventId` set, and every listed name whose record's `itemName` is not cached is appended |
| MenuItemsApi.NewItemsOrder | src/services/api/useMenuItemsApi.ts:118-129 | The appended items' names are exactly the listed names not yet cached, in listed order |
| MenuItemsApi.CachedNames | src/services/api/useMenuItemsApi.ts:99 | The `itemName` of every cached item, and nothing else |
| MenuItemsApi.MergedCached | src/services/api/useMenuItemsApi.ts:104-117 | A cached item whose name was posted takes the posted fields at its position. Others are untouched |
| MenuItemsApi.PostedNamesInMap | src/services/api/useMenuItemsApi.ts:97-103 | Every distinct posted name has its record in the map |
| MenuItemsApi.Created | src/services/api/useMenuItemsApi.ts:94-129 | The cached prefix is `MergedCached`. The suffix holds one item per distinct posted name not yet cached, in first-posted order: the last record posted under that name, with the event id |
| MenuItemsApi.NewItemsAreNew | src/services/api/useMenuItemsApi.ts:118-129 | Appended items carry names no cached item has, each name at most once |
| MenuItemsApi.NewName | src/services/api/useMenuItemsApi.ts:158-169 | `updateBody.itemName || itemName`: the new name when it is non-empty, the old one otherwise |
| MenuItemsApi.OnEditSuccess | src/services/api/useMenuItemsApi.ts:143-185 | The first item with the old name is merged. Stands are renamed only when the name changes and some stand lists it |
| MenuItemsApi.OnRemoveSuccess | src/services/api/useMenuItemsApi.ts:198-223 | The item leaves the menu. No stand lists its name afterwards, and stands are untouched if none did |
| StaffApi.RemoveTarget | src/services/api/useStaffApi.ts:59 | The query's member id when non-empty, otherwise the hook's |
| StaffApi.RemoveGuard | src/services/api/useStaffApi.ts:57-71 | Proceeds iff no stand's members are exactly `[id]` for the target. A refusal names the first such stand |
| StaffApi.OnCreateSuccess | src/services/api/useStaffApi.ts:84-91 | `{...variables, ...response}` comes first, with response fields winning, then the old list |
| StaffApi.OnEditSuccess | src/services/api/useStaffApi.ts:104-120 | The first member with the hook's id keeps its other fields and takes every field of the variables. Every other member is unchanged, and so is the list if there is no match |
| StaffApi.OnRemoveSuccess | src/services/api/useStaffApi.ts:133-161 | The member leaves the staff list and every stand's members. Stands are untouched if none listed it |
| StandsApi.OnCreateSuccess | src/services/api/useStandsApi.ts:70-77 | The posted stand comes first, then the old list |
| StandsApi.OnEditSuccess | src/services/api/useStandsApi.ts:90-106 | The first stand with the original name keeps its other fields and takes every field of the variables, so it is named by the variables' name if given and the old one otherwise. Every other stand is unchanged |
| StandsApi.EditRenames | src/services/api/useStandsApi.ts:95-105 | A rename takes effect: the edited stand carries the new name |
| StandsApi.RemoveTarget | src/services/api/useStandsApi.ts:124 | The variables' stand name when non-empty, otherwise the hook's |
| StandsApi.OnRemoveSuccess | src/services/api/useStandsApi.ts:119-128 | Every stand with the target name is dropped, and the rest keep their order |
| StandsApi.RemoveUndoesCreate | src/services/api/useStandsApi.ts:70-128 | Deleting a just-created stand by name equals deleting that name from the old cache |
| EventsApi.Posted | src/services/api/useEventsApi.ts:42-52 | The request data, inactive, carrying the server's event id |
| EventsApi.OnCreateSuccess | src/services/api/useEventsApi.ts:139-143 | `{...variables, ...response}` comes first, with response fields winning and fields only in the variables kept, then the old list |
| EventsApi.UpdateTarget | src/services/api/useEventsApi.ts:100 | The variables' event id when non-empty, otherwise the hook's, and none when neither is |
| EventsApi.OnChangeStatusSuccess | src/services/api/useEventsApi.ts:98-126 | With no target, nothing changes. Otherwise the matching list entry is merged, with the list unchanged if absent, and the single-event cache is merged only if present |
| EventsApi.OnEditSuccess | src/services/api/useEventsApi.ts:156-184 | With a target, the first listed event with its id is merged with the edited fields and the single-event cache is merged if present. With no target nothing changes. It equals the status-change update |
| EventsApi.DroppedPrefixes | src/services/api/useEventsApi.ts:207-233 | The nine per-event query keys, from events to transactions |
| EventsApi.OnRemoveSuccess | src/services/api/useEventsApi.ts:197-233 | With no id, nothing changes. Otherwise the event leaves the list and every query under a dropped key is forgotten |
| EventsApi.RemoveKeepsOtherQueries | src/services/api/useEventsApi.ts:207-233 | A query survives iff it is under none of the event's nine keys |
| BalancesApi.PaginationKey | src/services/api/useBalancesApi.ts:33-36 | `pageId || ""` |
| BalancesApi.OnGet | src/services/api/useBalancesApi.ts:28-36 | The response paging is written under the page key, and other keys are unchanged |
| BalancesApi.RemoveGuard | src/services/api/useBalancesApi.ts:42-47 | A fidelity-card balance is refused and every other one proceeds |
| BalancesApi.OnRemoveSuccess | src/services/api/useBalancesApi.ts:65-94 | The balance lists are spliced: each loses the first balance with that `balanceId`, and the rest keep their order. Top-ups with the captured balance's scan id are filtered out, only when one was captured |
| BalancesApi.SpliceBalances | src/services/api/useBalancesApi.ts:67-83 | The loop equals `SplicePass`, and its captured balance equals `LastFound` |
| BalancesApi.RemoveDropsTopUps | src/services/api/useBalancesApi.ts:85-94 | After a delete that captured a balance, no top-up of the event carries its scan id |
| BalancesApi.RemoveOfUnknownBalance | src/services/api/useBalancesApi.ts:65-94 | When no list held the balance, every cache is unchanged |
| ClientsApi.OnGet | src/services/api/useClientsApi.ts:32-38 | Paging is written only when a page key is given |
| ClientsApi.OnEditSuccess | src/services/api/useClientsApi.ts:62-82 | In every client list, the client with the edited id takes the new fields, and a list without it is unchanged |
| ClientsApi.OnRemoveSuccess | src/services/api/useClientsApi.ts:95-139 | The client is filtered from every client list and at most one balance list is spliced. Top-ups and transactions with the balance's scan id are filtered only if a balance was found |
| ClientsApi.SpliceFirstBalance | src/services/api/useClientsApi.ts:104-123 | The loop equals `SpliceFirstPass`, and its captured balance is the first hit's row |
| ClientsApi.RemoveTouchesOneBalanceList | src/services/api/useClientsApi.ts:104-123 | At most one balance list changes, and only one that held the balance |
| ClientsApi.RemoveDropsClient | src/services/api/useClientsApi.ts:97-102 | No client list holds the deleted client afterwards |
| CurrenciesApi.PostTarget | src/services/api/useCurrenciesApi.ts:36 | The post's own event id when non-empty, otherwise the hook's |
| CurrenciesApi.IdsByName | src/services/api/useCurrenciesApi.ts:54-62 | The response indexed by currency name: exactly the returned names, each with a returned id |
| CurrenciesApi.IdsByNameLastWins | src/services/api/useCurrenciesApi.ts:54-62 | A name returned twice keeps the id of its last occurrence |
| CurrenciesApi.WithIds | src/services/api/useCurrenciesApi.ts:62-70 | Same length and order. A currency named in the response gets its id, and the others keep theirs |
| CurrenciesApi.AssignIds | src/services/api/useCurrenciesApi.ts:64-70 | The `forEach` loop equals `WithIds` |
| CurrenciesApi.OnUpdateSuccess | src/services/api/useCurrenciesApi.ts:47-95 | An array post becomes the cache with ids assigned. A single post is merged into the cached currency with its id, with the cache unchanged if absent |
| CurrenciesApi.WithIdsIdempotent | src/services/api/useCurrenciesApi.ts:62-70 | Assigning ids twice equals assigning them once |
| CurrenciesApi.PostedCurrenciesGetIds | src/services/api/useCurrenciesApi.ts:54-74 | A posted currency whose name the response returns carries the id of that name's last response entry |
| StandForm.FirstMember | src/components/forms/stand-form/stand-form.tsx:69 | The staff record found for the stand's first member id: a record with that id and none earlier |
| StandForm.InitialType | src/components/forms/stand-form/stand-form.tsx:63-74 | A new stand is Bartender, and so is a stand with items. Otherwise Door iff the first member has class 3 |
| StandForm.Tabs | src/components/forms/stand-form/stand-form.tsx:128-171 | Info and staff always; items iff the stand is a Bartender |
| StandForm.Commit | src/components/forms/stand-form/stand-form.tsx:107-126 | Only the current step's part of the state takes what its view holds |
| StandForm.AfterClick | src/components/forms/stand-form/stand-form.tsx:128-165 | A click never changes the stand type. It changes at most the current step's part of the state, only when the view is valid, and only to what the view holds |
| StandForm.SavedStand | src/components/forms/stand-form/stand-form.tsx:205-217 | Cashier/Door: no items and the submitted members. Bartender: the submitted items and the stored members. The information fields are kept |
| StandForm.RequestFor | src/components/forms/stand-form/stand-form.tsx:219-223 | An existing stand is edited and a new one is created |
| StandForm.AfterSubmit | src/components/forms/stand-form/stand-form.tsx:181-226 | An invalid step changes nothing. The type and the stored menu selection never change. The info and members change only on their own step, to the view's value. A request carries the stand built from the stored info and members and the submitted values, as an edit iff editing |
| StandForm.Form.constructor | src/components/forms/stand-form/stand-form.tsx:59-83 | Opens on the info step with the stand's lists and the initial type |
| StandForm.Form.CommitView | src/components/forms/stand-form/stand-form.tsx:107-126 | The state becomes `Commit` of the old state |
| StandForm.Form.ClickTab | src/components/forms/stand-form/stand-form.tsx:128-165 | No-op on the current tab or an invalid step; otherwise the view is committed and the step moves |
| StandForm.Form.Submit | src/components/forms/stand-form/stand-form.tsx:181-226 | Nothing if invalid. Info → staff, staff → items for a Bartender or save otherwise, items → save |
| StandForm.Form.ChangeStandType | src/components/forms/stand-form/stand-form.tsx:245-249 | The new type is set and both selections are cleared |
| StandForm.ClickMovesOnlyWhenValid | src/components/forms/stand-form/stand-form.tsx:134-163 | A click stays put iff the target is current or the view is invalid |
| StandForm.SubmitOrder | src/components/forms/stand-form/stand-form.tsx:182-203 | Submitting never skips a step, and reaches items only for a Bartender coming from staff |
| StandForm.BartenderWizard | src/components/forms/stand-form/stand-form.tsx:181-226 | Three valid submits save a Bartender stand with step one's information, step two's members and step three's items |
| StandForm.CashierOrDoorWizard | src/components/forms/stand-form/stand-form.tsx:181-226 | Two valid submits save a Cashier/Door stand with the submitted members and no items |
| StandMembers.UserClassFor | src/components/forms/stand-form/stand-members.tsx:75-87 | Cashier 2, Bartender 1, Door 3 |
| StandMembers.TakenIds | src/components/forms/stand-form/stand-members.tsx:65-73 | Exactly the ids held by stands other than the one named |
| StandMembers.EligibleStaff | src/components/forms/stand-form/stand-members.tsx:62-94 | Empty unless both lists are loaded. Otherwise exactly the members of the type's class that no other stand holds, in staff order |
| StandMembers.OwnMembersStayEligible | src/components/forms/stand-form/stand-members.tsx:65-90 | The edited stand's own members, of the right class and held by no other stand, stay eligible |
| StandMembers.MemberIds | src/components/forms/stand-form/stand-members.tsx:153 | The members' ids, in order |
| StandMembers.Shown | src/components/forms/stand-form/stand-members.tsx:159-162 | The members whose lower-cased name contains the search text, in order, or all of them for an empty search |
| StandMembers.EmptySearchShowsAll | src/components/forms/stand-form/stand-members.tsx:159-162 | An empty search shows every eligible member |
| StandMembers.Selection.constructor | src/components/forms/stand-form/stand-members.tsx:44-46 | The selection starts as the stand's members |
| StandMembers.Selection.IsValid | src/components/forms/stand-form/stand-members.tsx:103-105 | Valid iff at least one member is selected |
| StandMembers.Selection.Members | src/components/forms/stand-form/stand-members.tsx:100-102 | The selected ids |
| StandMembers.Selection.Toggle | src/components/forms/stand-form/stand-members.tsx:176-183 | A checked id leaves (every occurrence) and an unchecked one is appended |
| StandMembers.Selection.SelectAll | src/components/forms/stand-form/stand-members.tsx:153 | The selection becomes the eligible ids, in order |
| StandItems.ItemNames | src/components/forms/stand-form/stand-items.tsx:112 | The menu's item names, in order |
| StandItems.Shown | src/components/forms/stand-form/stand-items.tsx:118-121 | Items whose lower-cased name contains the search text, in menu order; no menu shows none |
| StandItems.Selection.constructor | src/components/forms/stand-form/stand-items.tsx:42 | The selection starts as the stand's items |
| StandItems.Selection.IsValid | src/components/forms/stand-form/stand-items.tsx:62-64 | Valid iff non-empty |
| StandItems.Selection.Toggle | src/components/forms/stand-form/stand-items.tsx:135-142 | A selected name leaves and an unselected one is appended |
| StandItems.Selection.SelectAll | src/components/forms/stand-form/stand-items.tsx:112 | The selection becomes every menu item name, in menu order |
| StandFormInfo.LowerOriginal | src/components/forms/stand-form/stand-form-info.tsx:97-101 | The lower-cased original name, or "" for a new stand |
| StandFormInfo.TakenNames | src/components/forms/stand-form/stand-form-info.tsx:103-109 | The lower-cased names of the stands whose lower-cased name differs from the original |
| StandFormInfo.IsValid | src/components/forms/stand-form/stand-form-info.tsx:96-125 | False iff the lower-cased new name is taken, otherwise the form's own validity |
| StandFormInfo.DuplicateNameRefused | src/components/forms/stand-form/stand-form-info.tsx:103-122 | A name equal, ignoring case, to another stand's name is refused |
| StandFormInfo.OwnNameAccepted | src/components/forms/stand-form/stand-form-info.tsx:97-108 | Keeping the edited stand's own name, in any case, is not refused |
| StandFormInfo.GetStandInfo | src/components/forms/stand-form/stand-form-info.tsx:88-94 | Only `standName` is replaced, and every other field is kept |
| StandFormInfo.OnSubmit | src/components/forms/stand-form/stand-form-info.tsx:77-82 | The form values override the current information, and other fields are kept |
| StandFormInfo.SubmitNameIsGetStandInfo | src/components/forms/stand-form/stand-form-info.tsx:77-94 | Submitting only a name agrees with `getStandInfo` |
| EventCurrenciesInfo.Slot | src/components/forms/event-form/event-currencies-info.tsx:106-116 | Quick price k when the list is long enough, otherwise 0 |
| EventCurrenciesInfo.SetAction | src/components/forms/event-form/event-currencies-info.tsx:115 | Sets exactly action k for k in 1..4, and leaves the row alone otherwise |
| EventCurrenciesInfo.RowOf | src/components/forms/event-form/event-currencies-info.tsx:101-117 | The four actions are the quick-price slots, and `isDefault` holds iff the index is 0 |
| EventCurrenciesInfo.LoadRows | src/components/forms/event-form/event-currencies-info.tsx:94-122 | Nothing to load gives none. Otherwise there is one row per currency, in order |
| EventCurrenciesInfo.CurrencyOf | src/components/forms/event-form/event-currencies-info.tsx:131-145 | Quick prices are [action1..action4]. Company, id and event id are "". The currency is default iff the index is 0 |
| EventCurrenciesInfo.GetValues | src/components/forms/event-form/event-currencies-info.tsx:124-149 | One currency per row, same length and order |
| EventCurrenciesInfo.Padded | src/components/forms/event-form/event-currencies-info.tsx:106-116 | The first four prices, padded with zeros |
| EventCurrenciesInfo.LoadThenGetValues | src/components/forms/event-form/event-currencies-info.tsx:99-145 | Loading a currency and reading it back gives its first four prices, padded |
| EventCurrenciesInfo.Names | src/components/forms/event-form/event-currencies-info.tsx:165-167 | The rows' currency names, in order |
| EventCurrenciesInfo.IsValidIffNamesDistinct | src/components/forms/event-form/event-currencies-info.tsx:163-180 | Valid iff the form is valid and no two rows share a name |
| EventForm.StrOr | src/components/forms/event-form/event-form.tsx:137 | The field's string when non-empty, otherwise the fallback |
| EventForm.Numbers | src/components/forms/event-form/event-form.tsx:138-141 | Exactly the four price fields that hold numbers |
| EventForm.NormalizedEvent | src/components/forms/event-form/event-form.tsx:134-143 | The id, name, prices, start date (or now) and description, with "" for a missing name or description |
| EventForm.NonZero | src/components/forms/event-form/event-form.tsx:159-161 | The non-zero prices, in order |
| EventForm.NonZeroKeepsPrices | src/components/forms/event-form/event-form.tsx:159-161 | Prices with no zero are kept as they are |
| EventForm.KeptId | src/components/forms/event-form/event-form.tsx:153-155 | The original id at the same index, only when editing, otherwise "" |
| EventForm.NormalizedCurrency | src/components/forms/event-form/event-form.tsx:150-163 | The event's company and id, the kept currency id, non-zero prices, and `isDefault` iff the index is 0 |
| EventForm.NormalizeCurrencies | src/components/forms/event-form/event-form.tsx:145-164 | The loop gives one normalised currency per form currency, in order |
| EventForm.Normalized | src/components/forms/event-form/event-form.tsx:145-164 | Same length, and each element is the normalised currency at its index |
| EventForm.OnlyFirstIsDefault | src/components/forms/event-form/event-form.tsx:157 | Exactly the first normalised currency is the default one |
| EventForm.AfterClick | src/components/forms/event-form/event-form.tsx:205-224 | No-op on the current tab or an invalid step. Otherwise it commits the view and switches |
| EventForm.AfterSubmit | src/components/forms/event-form/event-form.tsx:124-186 | An invalid step changes nothing. The event id changes only on a create's save, to the id the server returns. The info step merges the view's values and moves to currencies. A request is made iff the currencies step submits, and it saves the normalised event and currencies, as an edit iff editing |
| EventForm.Form.constructor | src/components/forms/event-form/event-form.tsx:57-62 | Opens on info with the event or an empty one, and the currencies or one empty currency |
| EventForm.Form.ClickTab | src/components/forms/event-form/event-form.tsx:205-224 | The state becomes `AfterClick` of the old state |
| EventForm.Form.Submit | src/components/forms/event-form/event-form.tsx:124-186 | Nothing if invalid. Info → currencies. Currencies → save, as an edit iff the event has an id, and a create keeps the returned id |
| EventForm.Form.CloseDialog | src/components/forms/event-form/event-form.tsx:188-191 | The step returns to info |
| EventForm.TwoStepSave | src/components/forms/event-form/event-form.tsx:124-186 | Two valid submits save the event with the first step's values and the normalised currencies, edit iff editing. A create then holds the returned id |
| EventForm.InvalidStepBlocks | src/components/forms/event-form/event-form.tsx:124-127 | An invalid step never moves and never saves |
| StandsColumns.StandTypeCell | src/data/views-data/headers/standsColumns.tsx:21-34 | Bartender iff it has items. With no items: "" iff the first member is unknown, Door iff the member has class 3, otherwise Cashier |
| StandsColumns.RowOf | src/data/views-data/headers/standsColumns.tsx:21-61 | View Staff is disabled iff there are no members, and View Menu iff there are no items |
| StandsColumns.BartenderIffMenuEnabled | src/data/views-data/headers/standsColumns.tsx:22-61 | A row says Bartender iff its View Menu button is enabled |
| StandsColumns.ClassifiedRowHasStaff | src/data/views-data/headers/standsColumns.tsx:26-45 | A Cashier or Door row has members, so its View Staff button is enabled |
| StandsColumns.CellAgreesWithForm | src/data/views-data/headers/standsColumns.tsx:21-34 | A non-empty cell names the type the stand form opens with, and an empty cell means the form opens as Cashier |
| StandsView.StaffItems | src/views/StandsView.tsx:66-79 | One row per stand member, in order. A known id shows a matching record's name and email, and an unknown one an empty row |
| StandsView.StaffItemIsLastRecord | src/views/StandsView.tsx:66-79 | A member is shown with the last staff record carrying that id |
| StandsView.DefaultCurrency | src/views/StandsView.tsx:81-83 | The first default currency's name, and none when no currency is default |
| StandsView.MenuItemsOf | src/views/StandsView.tsx:93-102 | Each row is a listed item on the menu, with its price text |
| StandsView.MenuTitlesAreFilter | src/views/StandsView.tsx:93-102 | The titles are exactly the stand's items on the menu, in stand order |
| StandsView.MenuItems | src/views/StandsView.tsx:85-102 | The stand's items on the menu, in order, each valued "price currency" with the default currency |
| StandsView.ListItems | src/views/StandsView.tsx:60-106 | Staff rows, menu rows, or nothing for an unknown list type |
| FilterFields.Names | src/data/views-data/filters/transactions-filters.ts:14-52 | The fields' names, in order |
| FilterFields.ClassOptions | src/data/views-data/filters/transactions-filters.ts:42-50 | Options only from members of the class, each labelled with the name and valued by the field |
| FilterFields.MemberOptions | src/data/views-data/filters/top-ups-filters.ts:15-24 | One option per member, in order |
| FilterFields.ClassOptionsAreFiltered | src/data/views-data/filters/balances-filters.ts:26-33 | The class options are the options of the class's members, in staff order |
| Lists.Distinct | src/data/views-data/filters/transactions-filters.ts:12 | `new Set(s)` in insertion order: exactly the values of `s`, without repeats, each placed by its first appearance |
| Lists.DistinctAfterOrder | src/data/views-data/filters/transactions-filters.ts:12 | The values a `Set` collects come out in the order they first appear |
| Lists.FilterKeepsOrder | src/services/api/useMenuItemsApi.ts:118-128 | Filtering a list in first-appearance order keeps that order |
| FilterFields.SameOptionsValues | src/data/views-data/filters/transactions-filters.ts:19-31 | Options built from some values submit exactly those values, in order |
| FilterFields.SameOptions | src/data/views-data/filters/transactions-filters.ts:19-31 | One option per value, with label and value both that value |
| FilterFields.FieldValues | src/data/views-data/filters/transactions-filters.ts:12 | Each row's field, in order |
| TransactionsFilters.Fields | src/data/views-data/filters/transactions-filters.ts:9-53 | Fields itemName, itemCategory, scanId and memberId. Categories are the menu's categories, without repeats, in order of first appearance. "Sold by" offers only class 1 members, valued by id |
| BalancesFilters.Fields | src/data/views-data/filters/balances-filters.ts:8-46 | Fields ticketId, scanId, createdBy and isFidelityCard. "Created by" offers only class 2 members, labelled and valued by name. Fidelity is True/"true" and False/"false" |
| TopUpsFilters.Fields | src/data/views-data/filters/top-ups-filters.ts:10-40 | Fields memberId (class 2 members, valued by id), a plain scanId input, and one currency option per currency |
| ItemsChart.Rest | src/components/graphics/items-chart.tsx:33 | The row's fields other than bartender, total and totalSold, in order |
| ItemsChart.Keys | src/components/graphics/items-chart.tsx:35 | The item names of the fields, in order |
| ItemsChart.AddEntry | src/components/graphics/items-chart.tsx:36-47 | Only cell [item][bartender] changes, by the count, and it is created at 0 if missing |
| ItemsChart.Grouped | src/components/graphics/items-chart.tsx:30-49 | Every bartender in a row of the grid has an analytics row of its own |
| ItemsChart.ItemOrder | src/components/graphics/items-chart.tsx:51 | No item name appears twice in the chart's row order |
| ItemsChart.Label | src/components/graphics/items-chart.tsx:52 | The row label has no underscore and neither starts nor ends with whitespace |
| ItemsChart.AddCountsEffect | src/components/graphics/items-chart.tsx:35-48 | One bartender's fields add their totals to that bartender's cells, and nothing else changes |
| ItemsChart.GroupedCells | src/components/graphics/items-chart.tsx:30-49 | An item is in the grid iff sold. A bartender is in its row iff it reported the item. Each cell is the sum over that bartender's rows |
| ItemsChart.ItemOrderKeys | src/components/graphics/items-chart.tsx:51 | The row order has no repeats and lists exactly the grid's items |
| ItemsChart.AddField | src/components/graphics/items-chart.tsx:36-47 | One step of the inner loop equals `AddEntry`, and the key order grows by a new item only |
| ItemsChart.AddFields | src/components/graphics/items-chart.tsx:35-48 | The inner loop adds one bartender's fields |
| ItemsChart.GroupItems | src/components/graphics/items-chart.tsx:30-49 | The two loops give the grouped grid and its keys in insertion order |
| ItemsChart.ChartRow | src/components/graphics/items-chart.tsx:51-54 | The row holds the bartenders' cells with `item` set to the label, and a bartender named "item" overrides it |
| ItemsChart.Rows | src/components/graphics/items-chart.tsx:51-54 | One row per item, in key order |
| ItemsChart.ChartData | src/components/graphics/items-chart.tsx:29-55 | `chartData` gives the rows of the grouped grid |
| ItemsChart.ChartRowCells | src/components/graphics/items-chart.tsx:29-55 | A chart row holds, for each bartender that reported the item, that bartender's summed count |
| AuthProvider.RedirectTarget | src/providers/auth-provider.tsx:9-11 | No admin or no token gives /login. Signed in on /login gives /events. Otherwise there is no redirect |
| AuthProvider.RedirectSettles | src/providers/auth-provider.tsx:9-11 | Following a signed-in redirect causes no further redirect. The target is /login iff signed out |
| EventTabsProvider.LastComponent | src/providers/event-tabs-provider.tsx:35 | The text after the last "/": a suffix without "/" preceded by "/", or the whole path |
| EventTabsProvider.LastComponentOfJoin | src/providers/event-tabs-provider.tsx:35 | Whatever precedes the last "/" does not matter |
| EventTabsProvider.EventIdOf | src/providers/event-tabs-provider.tsx:34 | The event id param, or "" |
| EventTabsProvider.SelectedTab | src/providers/event-tabs-provider.tsx:33-39 | The last component, unless it is empty or the event id, in which case "overview" |
| EventTabsProvider.Redirect | src/providers/event-tabs-provider.tsx:100-102 | A redirect to /events/{id}/overview iff the last component is empty or the event id |
| EventTabsProvider.ShownTabIsLastComponent | src/providers/event-tabs-provider.tsx:33-39 | Whenever the tabs are shown, the tab is the last path component |
| EventTabsProvider.RedirectSettles | src/providers/event-tabs-provider.tsx:100-102 | Following the redirect shows the overview tab without another redirect |
| EventTabsProvider.TabFromPath | src/providers/event-tabs-provider.tsx:33-39 | `/events/{id}/{tab}` selects `tab` |
| Singularize.EarliestMatch | src/utils/singularize.ts:11-15 | The first position where the rest of the word is a listed ending, with none before it |
| Singularize.Singularize | src/utils/singularize.ts:1-16 | The prefix is kept and the matched ending is replaced by its mapped value. A word without a match is unchanged |
| Singularize.SingularizeLongestEnding | src/utils/singularize.ts:1-16 | The replaced ending is the longest listed one the word ends with, and a word with no ending is unchanged |
| Singularize.SingularizeExamples | src/utils/singularize.ts:1-16 | Categories→Category, Balances→Balance, Stands→Stand, and Staff is unchanged |
| TitleCase.Run | src/utils/toTitleCase.ts:14-20 | The greedy run of a character class: every char in it is in the class, and the next one is not |
| TitleCase.LowerUppersLowerAt | src/utils/toTitleCase.ts:14 | Matches `([a-z])([A-Z]+[a-z])` at the position |
| TitleCase.UppersUpperLowerLowerAt | src/utils/toTitleCase.ts:15 | Matches `([A-Z]+)([A-Z][a-z][a-z])` with backtracking |
| TitleCase.LowersUppersOrDigitsAt | src/utils/toTitleCase.ts:16 | Matches `([a-z]+)([A-Z0-9]+)` |
| TitleCase.UppersUpperNotSAt | src/utils/toTitleCase.ts:17 | Matches `([A-Z]+)([A-Z][a-rt-z][a-z]*)` |
| TitleCase.DigitUpperLowersAt | src/utils/toTitleCase.ts:18 | Matches `([0-9])([A-Z][a-z]+)` |
| TitleCase.UppersDigitsAt | src/utils/toTitleCase.ts:19 | Matches `([A-Z]{2,})([0-9]{2,})` |
| TitleCase.DigitsUppersAt | src/utils/toTitleCase.ts:20 | Matches `([0-9]{2,})([A-Z]{2,})` |
| TitleCase.MatchAt | src/utils/toTitleCase.ts:12-20 | A rule's match at a position, if any, fits inside the string |
| TitleCase.Collapse | src/utils/toTitleCase.ts:8 | Every run of underscores becomes one space, so no "_" is left |
| TitleCase.Capitalize | src/utils/toTitleCase.ts:9-11 | A leading lower-case letter is upper-cased, and nothing else changes |
| TitleCase.TrimStart | src/utils/toTitleCase.ts:21 | Leading whitespace is removed |
| TitleCase.TrimEnd | src/utils/toTitleCase.ts:21 | Trailing whitespace is removed |
| TitleCase.Trim | src/utils/toTitleCase.ts:21 | The result neither starts nor ends with whitespace, and is a slice of the input |
| TitleCase.ToTitleCase | src/utils/toTitleCase.ts:1-28 | A non-string input gives null, and a string gives the trimmed rewrite |
| TitleCase.ScanSpaced | src/utils/toTitleCase.ts:12-20 | A global replacement only inserts spaces between the two groups of each match |
| TitleCase.ApplyAllOnlyInserts | src/utils/toTitleCase.ts:12-20 | The chain of rules only inserts spaces and keeps the first character |
| TitleCase.TitleCaseNoUnderscore | src/utils/toTitleCase.ts:8-21 | The result contains no underscore |
| TitleCase.TitleCaseCapitalizes | src/utils/toTitleCase.ts:9-21 | An input starting with a lower-case letter yields its capital first |
| TitleCase.TitleCaseTrimmed | src/utils/toTitleCase.ts:21 | The result is trimmed |

## Left out

- Rendering, dialogs, toasts, the `flashVisibleRows` animation and chart drawing are left out. The model keeps the values these are computed from.
- The react-query client calls (`setQueryData`, `setQueriesData`, `invalidateQueries`, `removeQueries`) are left out. Only the updaters passed to them and the set of keys they forget are modelled. Invalidations, such as the one after deleting every balance of an event, only trigger refetches and are not modelled.
- HTTP requests and their errors are not modelled. Server responses are parameters of the success handlers.
- The tanstack table engine, and the local page cursor it moves with `firstPage`/`nextPage`/..., are not visible in this code and are left out. `NextPage`/`PrevPage` model only the store writes.
- DynamicTable.NextTarget: requires the store entry for the key, and for "last" also its `pages` field. `DynamicTable.NextPageTarget`, `DynamicTable.Table.NextPaginationPage` and `DynamicTable.Table.NextPage` require the same. Without the entry, `nextPaginationPage` throws. With the entry but no `pages`, "last" computes `undefined - 1` and writes a `NaN` page. Neither case is modelled.
- Numbers are unbounded integers. `Number(...)` parsing, zod string-to-number transforms, `NaN`, floating-point prices and rates, and `toFixed`/`toLocaleString` formatting are left out. The chart's `Number(count)` is the count itself. `String(price)` on loading currencies is left out, and prices stay numbers.
- `toLocaleLowerCase` is modelled on ASCII letters only. `trim` removes the ASCII whitespace characters, no-break space, byte order mark and the line and paragraph separators. It does not remove the other Unicode space separators.
- Object key order: JavaScript lists integer-like keys first, in numeric order. `Object.keys(groupedItems)` and the order of `for...in` are modelled as insertion order, which differs for items named by a number.
- The `in` operator and object lookups also see names inherited from `Object.prototype`, such as "constructor". The model checks own keys only.
- Aliasing is not modelled. Updaters that mutate cached objects in place (`Object.assign`, `stand.menuItems = ...`, the `forEach` that writes `currencyId`) return fresh values here. Another holder of the same object would see the change in the source but not in the model.
- React batching and stale reads of just-set state inside a handler are left out. For example, the stand form's save reads the `staffMembers` stored by an earlier step. Each handler is modelled as reading the state committed before it.
- The event form's `create` response id is the `createdId` parameter of its submit. The currency post that is addressed to that id, and `props.onCancel`, are not modelled.
- The tabs provider's `useEffect` that pushes page properties to the authenticated layout is left out.
- `src/utils/excelParser.ts`, random colours and dates are not part of this model. The current time is a parameter of `EventForm.NormalizedEvent`.
- EventTabsProvider.RedirectSettles: proved only for an event id other than "overview". With the id "overview", the redirect target's last component is the id itself, so the page would redirect forever.
- StandsView.StaffItems: states the row for an id of one matching record. That it is the last such record is the separate lemma `StandsView.StaffItemIsLastRecord`.

=== FILE: auth_provider.dfy ===
/**
  * The authentication guard wrapped around every route: without a signed-in
  * admin and a token it sends the user to the login page, and it sends a
  * signed-in user away from the login page to the events list.
  */
module AuthProvider {
  import opened Js

  /** `to`: the route `<Navigate>` is rendered with; "" renders none. */
  function RedirectTarget(admin: Option<Record>, token: Option<string>, pathname: string): (to: string)
    ensures admin.None? ==> to == "/login"
    ensures !Truthy(OptStr(token)) ==> to == "/login"
    ensures admin.Some? && Truthy(OptStr(token)) && pathname == "/login" ==> to == "/events"
    ensures admin.Some? && Truthy(OptStr(token)) && pathname != "/login" ==> to == ""
  {
    if admin.None? || !(token.Some? && token.value != "") then "/login"
    else if pathname == "/login" then "/events"
    else ""
  }

  /** A signed-in user who follows the redirect is not redirected again; a signed-out one always lands on the login page. */
  lemma RedirectSettles(admin: Option<Record>, token: Option<string>, pathname: string)
    ensures var to := RedirectTarget(admin, token, pathname);
      to != "" && admin.Some? && Truthy(OptStr(token)) ==> RedirectTarget(admin, token, to) == ""
    ensures RedirectTarget(admin, token, pathname) == "/login" <==> admin.None? || !Truthy(OptStr(token))
  {
  }
}

=== FILE: balances_api.dfy ===
/**
  * The balances hook: where a page of balances records its paging state,
  * the guard that refuses deleting a fidelity-card balance, and the cache
  * updates after a delete, which take the balance out of the event's
  * balance lists and then drop its top-ups.
  */
module BalancesApi {
  import opened Js
  import opened Lists
  import opened Cache
  import opened PaginationSlice

  /** The store key a fetched page writes: `pageId || ""`. */
  function PaginationKey(pageId: Option<string>): (key: string)
    ensures pageId.Some? ==> key == pageId.value
    ensures pageId.None? ==> key == ""
  {
    match pageId
    case None => ""
    case Some(id) => id
  }

  /** `get`: the response's paging state is written to the store, under "" when the view gave no key. */
  method OnGet(store: PaginationStore, pageId: Option<string>, pagination: Record)
    modifies store
    ensures store.pagination == WithPagination(old(store.pagination), PaginationKey(pageId), pagination)
  {
    store.SetPagination(if pageId.Some? && pageId.value != "" then pageId.value else "", pagination);
  }

  const FidelityMessage := "Cannot delete client balance. This balance will be delete once the related client is deleted as well"

  /** `remove` refuses a fidelity-card balance before any request, and lets every other one through. */
  function RemoveGuard(isFidelityCard: bool): (r: Outcome)
    ensures r.Refused? <==> isFidelityCard
    ensures r.Refused? ==> r.message == FidelityMessage
  {
    if isFidelityCard then Refused(FidelityMessage) else Proceed
  }

  /** The state after `remove.onSuccess`: the query caches and the balance it captured, if any. */
  function Removed(queries: seq<Entry>, eventId: string, balanceId: Option<Value>): (r: (seq<Entry>, Option<Record>))
  {
    var spliced := SplicePass(queries, ["balances", eventId], "balanceId", balanceId);
    var found := LastFound(queries, ["balances", eventId], "balanceId", balanceId);
    match found
    case None => (spliced, None)
    case Some(b) => (FilterPass(spliced, ["topUps", eventId], "scanId", Get(b, "scanId")), found)
  }

  /**
    * `remove.onSuccess`: every balance list of the event loses its first row
    * with that `balanceId`; the balance captured is the one from the last list
    * that held it, and only when one was captured are the event's top-ups with
    * its `scanId` dropped.
    */
  method OnRemoveSuccess(queries: seq<Entry>, eventId: string, balanceId: Option<Value>)
    returns (r: seq<Entry>, foundBalance: Option<Record>)
    ensures (r, foundBalance) == Removed(queries, eventId, balanceId)
    ensures |r| == |queries|
    ensures foundBalance.Some? ==> HasField(foundBalance.value, "balanceId", balanceId)
  {
    r, foundBalance := SpliceBalances(queries, ["balances", eventId], balanceId);
    LastFoundIsLastHit(queries, ["balances", eventId], "balanceId", balanceId);
    if foundBalance.None? {
      return;
    }
    r := FilterPass(r, ["topUps", eventId], "scanId", Get(foundBalance.value, "scanId"));
  }

  /** The balance lists pass: every matching list is spliced, and the captured balance is overwritten by each hit. */
  method SpliceBalances(queries: seq<Entry>, prefix: QueryKey, balanceId: Option<Value>)
    returns (r: seq<Entry>, foundBalance: Option<Record>)
    ensures r == SplicePass(queries, prefix, "balanceId", balanceId)
    ensures foundBalance == LastFound(queries, prefix, "balanceId", balanceId)
  {
    ghost var spliced := SplicePass(queries, prefix, "balanceId", balanceId);
    r := [];
    foundBalance := None;
    var i := 0;
    while i < |queries|
      invariant 0 <= i <= |queries| && |r| == i
      invariant forall j :: 0 <= j < i ==> r[j] == spliced[j]
      invariant foundBalance == LastFound(queries[..i], prefix, "balanceId", balanceId)
    {
      LastFoundStep(queries, i, prefix, "balanceId", balanceId);
      var hit := FoundIn(queries[i], prefix, "balanceId", balanceId);
      if hit.Some? {
        foundBalance := hit;
      }
      var next := SplicedEntry(queries[i], prefix, "balanceId", balanceId);
      AgreeSnoc(r, spliced, next);
      r := r + [next];
      i := i + 1;
    }
    assert r == spliced;
    assert queries[..|queries|] == queries;
  }

  /** After a delete that captured a balance, no top-up of the event carries its scan id. */
  lemma RemoveDropsTopUps(queries: seq<Entry>, eventId: string, balanceId: Option<Value>, i: nat, x: Record)
    requires Removed(queries, eventId, balanceId).1.Some?
    requires i < |queries| && KeyMatches(["topUps", eventId], queries[i].key)
    requires x in RowsOf(Removed(queries, eventId, balanceId).0[i].data)
    ensures Get(x, "scanId") != Get(Removed(queries, eventId, balanceId).1.value, "scanId")
  {
  }

  /** When no cached list held the balance, every cache is left as it was. */
  lemma RemoveOfUnknownBalance(queries: seq<Entry>, eventId: string, balanceId: Option<Value>)
    requires forall i :: 0 <= i < |queries| ==> FoundIn(queries[i], ["balances", eventId], "balanceId", balanceId).None?
    ensures Removed(queries, eventId, balanceId) == (queries, None)
  {
    LastFoundIsLastHit(queries, ["balances", eventId], "balanceId", balanceId);
    assert SplicePass(queries, ["balances", eventId], "balanceId", balanceId) == queries;
  }
}

=== FILE: balances_filters.dfy ===
/** The filter panel of the balances view. */
module BalancesFilters {
  import opened Js
  import opened Lists
  import opened FilterFields

  /** The two options of the fidelity-card select. */
  const FidelityOptions: seq<SelectOption> := [SelectOption(Some(Str("True")), Some(Str("true"))), SelectOption(Some(Str("False")), Some(Str("false")))]

  /**
    * `balancesFilters({eventStaff})`: ticket-id and scan-id inputs, a select
    * of the members of class 2 by name, and the fidelity-card select.
    */
  function Fields(eventStaff: Option<seq<Record>>): (r: seq<Field>)
    ensures Names(r) == ["ticketId", "scanId", "createdBy", "isFidelityCard"]
    ensures r[0].fieldType == Input && r[0].placeholder == Some("Ticket id...")
    ensures r[1].fieldType == Input && r[1].placeholder == Some("Scan id...")
    ensures r[2].fieldType == Select
    ensures eventStaff.None? ==> r[2].options == None
    ensures eventStaff.Some? ==> r[2].options == Some(MemberOptions(Filter(eventStaff.value, (m: Record) => OfClass(m, 2)), "memberName"))
    ensures eventStaff.Some? ==> forall o :: o in r[2].options.value ==> o.caption == o.value
    ensures r[3].fieldType == Select && r[3].options == Some(FidelityOptions)
  {
    var createdBy := match eventStaff
      case None => None
      case Some(s) => Some(ClassOptions(s, 2, "memberName"));
    var fields := [
      Field("Ticket Id", "ticketId", Input, Some("Ticket id..."), None),
      Field("Scan Id", "scanId", Input, Some("Scan id..."), None),
      Field("Created by", "createdBy", Select, None, createdBy),
      Field("Fidelity Card", "isFidelityCard", Select, None, Some(FidelityOptions))
    ];
    assert Names(fields) == ["ticketId", "scanId", "createdBy", "isFidelityCard"];
    if eventStaff.Some? then ClassOptionsAreFiltered(eventStaff.value, 2, "memberName"); fields else fields
  }
}

=== FILE: cache.dfy ===
/**
  * The cached-list shapes every data hook's updaters share: a cache entry
  * may be missing (`oldData || []`), a row is found by strict equality on one
  * field, patched by spreading the new fields over it, or dropped by filtering.
  * A query cache is a list of entries, in cache order, each with its key.
  */
module Cache {
  import opened Js
  import opened Lists

  /** A mutation that may refuse before any request is sent. */
  datatype Outcome = Proceed | Refused(message: string)

  /** `data || []`. */
  function RowsOf(data: Option<seq<Record>>): seq<Record>
  {
    match data
    case None => []
    case Some(rows) => rows
  }

  /** Whether field `f` of the row is strictly equal to `v` (an absent field is `undefined`). */
  predicate HasField(row: Record, f: string, v: Option<Value>)
  {
    Get(row, f) == v
  }

  /** `rows.findIndex((e) => e[f] === v)`, with `None` for -1. */
  function FirstWith(rows: seq<Record>, f: string, v: Option<Value>): (r: Option<nat>)
    ensures r.Some? ==> r.value < |rows| && HasField(rows[r.value], f, v)
    ensures r.Some? ==> forall j :: 0 <= j < r.value ==> !HasField(rows[j], f, v)
    ensures r.None? ==> forall j :: 0 <= j < |rows| ==> !HasField(rows[j], f, v)
  {
    if rows == [] then None
    else if HasField(rows[0], f, v) then Some(0)
    else match FirstWith(rows[1..], f, v)
      case None => None
      case Some(i) => Some(i + 1)
  }

  /** The object key a row is stored under when indexed by field `f`: the field's value, as a string. */
  function KeyOf(row: Record, f: string): string
  {
    Text(Get(row, f))
  }

  /** `rows.reduce((acc, val) => ({...acc, [val[f]]: val}), {})`: every row under its key, the last row with a key winning. */
  function IndexBy(rows: seq<Record>, f: string): (m: map<string, Record>)
    ensures m.Keys == set v | v in rows :: KeyOf(v, f)
    ensures forall n :: n in m ==> m[n] in rows && KeyOf(m[n], f) == n
    decreases |rows|
  {
    if rows == [] then map[]
    else
      var init := rows[..|rows| - 1];
      var last := rows[|rows| - 1];
      assert rows == init + [last];
      IndexBy(init, f)[KeyOf(last, f) := last]
  }

  /** The row kept under a key is the last one with that key. */
  lemma {:induction false} IndexByLastWins(rows: seq<Record>, f: string, i: nat)
    requires i < |rows|
    requires forall j :: i < j < |rows| ==> KeyOf(rows[j], f) != KeyOf(rows[i], f)
    ensures KeyOf(rows[i], f) in IndexBy(rows, f)
    ensures IndexBy(rows, f)[KeyOf(rows[i], f)] == rows[i]
    decreases |rows|
  {
    if i < |rows| - 1 {
      IndexByLastWins(rows[..|rows| - 1], f, i);
    }
  }

  /**
    * The updater shape `tmp[index] = {...tmp[index], ...patch}`: the first row
    * whose `f` is `v` gets the patch; with no such row the cache is returned
    * as it was.
    */
  function UpdateFirst(data: Option<seq<Record>>, f: string, v: Option<Value>, patch: Record): (r: Option<seq<Record>>)
    ensures FirstWith(RowsOf(data), f, v).None? ==> r == data
    ensures FirstWith(RowsOf(data), f, v).Some? ==>
      var k := FirstWith(RowsOf(data), f, v).value;
      r.Some? && |r.value| == |RowsOf(data)|
      && r.value[k] == Merge(RowsOf(data)[k], patch)
      && forall j :: 0 <= j < |r.value| && j != k ==> r.value[j] == RowsOf(data)[j]
  {
    var rows := RowsOf(data);
    match FirstWith(rows, f, v)
    case None => data
    case Some(k) => Some(rows[k := Merge(rows[k], patch)])
  }

  /** The patched row keeps every field the patch does not name and takes every one it does. */
  lemma UpdateFirstFields(data: Option<seq<Record>>, f: string, v: Option<Value>, patch: Record)
    requires FirstWith(RowsOf(data), f, v).Some?
    ensures var k := FirstWith(RowsOf(data), f, v).value;
      var row := UpdateFirst(data, f, v, patch).value[k];
      (forall g :: g in patch ==> row[g] == patch[g])
      && (forall g :: g in RowsOf(data)[k] && g !in patch ==> row[g] == RowsOf(data)[k][g])
  {
  }

  /** `[row, ...(data || [])]`: the new row first, every cached row after it in order. */
  function Prepended(data: Option<seq<Record>>, row: Record): (r: seq<Record>)
    ensures |r| == |RowsOf(data)| + 1
    ensures r[0] == row
    ensures forall i :: 0 <= i < |RowsOf(data)| ==> r[i + 1] == RowsOf(data)[i]
  {
    [row] + RowsOf(data)
  }

  /** `(data || []).filter((e) => e[f] !== v)`. */
  function Without(rows: seq<Record>, f: string, v: Option<Value>): (r: seq<Record>)
    ensures |r| <= |rows|
    ensures forall x :: x in r <==> x in rows && !HasField(x, f, v)
  {
    Filter(rows, (x: Record) => !HasField(x, f, v))
  }

  /** Filtering keeps the survivors' order: it distributes over concatenation. */
  lemma WithoutConcat(a: seq<Record>, b: seq<Record>, f: string, v: Option<Value>)
    ensures Without(a + b, f, v) == Without(a, f, v) + Without(b, f, v)
  {
    FilterConcat(a, b, (x: Record) => !HasField(x, f, v));
  }

  /** Filtering twice by the same field and value is filtering once. */
  lemma WithoutIdempotent(rows: seq<Record>, f: string, v: Option<Value>)
    ensures Without(Without(rows, f, v), f, v) == Without(rows, f, v)
  {
    FilterKeepsAll(Without(rows, f, v), (x: Record) => !HasField(x, f, v));
  }

  /** `tmp.splice(k, 1)` on a copy: the row at `k` is taken out, the rest close up. */
  function SpliceOut(rows: seq<Record>, k: nat): (r: seq<Record>)
    requires k < |rows|
    ensures |r| == |rows| - 1
    ensures forall j :: 0 <= j < k ==> r[j] == rows[j]
    ensures forall j :: k <= j < |r| ==> r[j] == rows[j + 1]
  {
    rows[..k] + rows[k + 1..]
  }

  /** A query key; every part is a string here. */
  type QueryKey = seq<string>

  /** One cached query: its key and its data (`undefined` when never set). */
  datatype Entry = Entry(key: QueryKey, data: Option<seq<Record>>)

  /** Whether a query filter `{ queryKey: prefix }` matches a key: it matches every key that starts with it. */
  predicate KeyMatches(prefix: QueryKey, key: QueryKey)
  {
    |prefix| <= |key| && key[..|prefix|] == prefix
  }

  /**
    * The row a splice pass would take out of one cached query: in a matching
    * query, the first row with `f` equal to `v` (`findIndex`).
    */
  function FoundIn(e: Entry, prefix: QueryKey, f: string, v: Option<Value>): (r: Option<Record>)
    ensures r.Some? ==> KeyMatches(prefix, e.key) && r.value in RowsOf(e.data) && HasField(r.value, f, v)
    ensures r.None? && KeyMatches(prefix, e.key) ==> forall x :: x in RowsOf(e.data) ==> !HasField(x, f, v)
    ensures r.Some? ==> FirstWith(RowsOf(e.data), f, v).Some?
                        && r.value == RowsOf(e.data)[FirstWith(RowsOf(e.data), f, v).value]
  {
    if !KeyMatches(prefix, e.key) then None
    else match FirstWith(RowsOf(e.data), f, v)
      case None => None
      case Some(k) => Some(RowsOf(e.data)[k])
  }

  /**
    * One cached query after a splice pass: the found row, the first with the
    * value, is taken out, and the other rows keep their order.
    */
  function SplicedEntry(e: Entry, prefix: QueryKey, f: string, v: Option<Value>): (r: Entry)
    ensures r.key == e.key
    ensures FoundIn(e, prefix, f, v).None? ==> r == e
    ensures FoundIn(e, prefix, f, v).Some? ==>
              r.data == Some(SpliceOut(RowsOf(e.data), FirstWith(RowsOf(e.data), f, v).value))
  {
    if !KeyMatches(prefix, e.key) then e
    else match FirstWith(RowsOf(e.data), f, v)
      case None => e
      case Some(k) => Entry(e.key, Some(SpliceOut(RowsOf(e.data), k)))
  }

  /** A splice takes out exactly the found row: one fewer row, and the same rows otherwise. */
  lemma SplicedTakesOne(e: Entry, prefix: QueryKey, f: string, v: Option<Value>)
    requires FoundIn(e, prefix, f, v).Some?
    ensures SplicedEntry(e, prefix, f, v).data.Some?
    ensures multiset(SplicedEntry(e, prefix, f, v).data.value) + multiset{FoundIn(e, prefix, f, v).value} == multiset(RowsOf(e.data))
  {
    var rows := RowsOf(e.data);
    var k := FirstWith(rows, f, v).value;
    assert rows == rows[..k] + [rows[k]] + rows[k + 1..];
  }

  /** The found row of the last matching query that holds one (a later query overwrites the captured row). */
  function LastFound(queries: seq<Entry>, prefix: QueryKey, f: string, v: Option<Value>): (r: Option<Record>)
    decreases |queries|
  {
    if queries == [] then None
    else
      var last := FoundIn(queries[|queries| - 1], prefix, f, v);
      if last.Some? then last else LastFound(queries[..|queries| - 1], prefix, f, v)
  }

  /** The last present element among the first `n` hits. */
  function LastSome(hs: seq<Option<Record>>, n: nat): Option<Record>
    requires n <= |hs|
  {
    if n == 0 then None
    else if hs[n - 1].Some? then hs[n - 1]
    else LastSome(hs, n - 1)
  }

  /**
    * Among the first `n` hits, the last present one is present at some
    * position with nothing present after it; there is none only when no
    * element is present.
    */
  lemma {:induction false} LastSomeIsLast(hs: seq<Option<Record>>, n: nat)
    requires n <= |hs|
    ensures LastSome(hs, n).None? <==> forall i :: 0 <= i < n ==> hs[i].None?
    ensures LastSome(hs, n).Some? ==>
      exists i :: 0 <= i < n && hs[i] == LastSome(hs, n) && forall j :: i < j < n ==> hs[j].None?
  {
    if n > 0 {
      LastSomeIsLast(hs, n - 1);
      if hs[n - 1].None? && LastSome(hs, n - 1).Some? {
        var i :| 0 <= i < n - 1 && hs[i] == LastSome(hs, n - 1) && forall j :: i < j < n - 1 ==> hs[j].None?;
        assert hs[i] == LastSome(hs, n);
      }
    }
  }

  /** The row each query's splice would find, query by query. */
  function Hits(queries: seq<Entry>, prefix: QueryKey, f: string, v: Option<Value>): (hs: seq<Option<Record>>)
    ensures |hs| == |queries|
    ensures forall i :: 0 <= i < |queries| ==> hs[i] == FoundIn(queries[i], prefix, f, v)
  {
    seq(|queries|, i requires 0 <= i < |queries| => FoundIn(queries[i], prefix, f, v))
  }

  /** The row captured from the first `n` queries is the last of their hits. */
  lemma {:induction false} LastFoundIsLastSome(queries: seq<Entry>, n: nat, prefix: QueryKey, f: string, v: Option<Value>)
    requires n <= |queries|
    ensures LastFound(queries[..n], prefix, f, v) == LastSome(Hits(queries, prefix, f, v), n)
  {
    if n > 0 {
      LastFoundIsLastSome(queries, n - 1, prefix, f, v);
      var q := queries[..n];
      assert q[..|q| - 1] == queries[..n - 1];
      assert q[|q| - 1] == queries[n - 1];
    }
  }

  /** The captured row is a hit of some query with no later hit; there is none only when no query has a hit. */
  lemma LastFoundIsLastHit(queries: seq<Entry>, prefix: QueryKey, f: string, v: Option<Value>)
    ensures LastFound(queries, prefix, f, v).None? <==> forall i :: 0 <= i < |queries| ==> FoundIn(queries[i], prefix, f, v).None?
    ensures LastFound(queries, prefix, f, v).Some? ==>
      exists i :: 0 <= i < |queries| && FoundIn(queries[i], prefix, f, v) == LastFound(queries, prefix, f, v)
        && forall j :: i < j < |queries| ==> FoundIn(queries[j], prefix, f, v).None?
  {
    LastSomeIsLast(Hits(queries, prefix, f, v), |queries|);
    LastFoundIsLastSome(queries, |queries|, prefix, f, v);
    assert queries[..|queries|] == queries;
  }

  /** One more query: its own hit, if any, replaces the one found so far. */
  lemma LastFoundStep(queries: seq<Entry>, i: nat, prefix: QueryKey, f: string, v: Option<Value>)
    requires i < |queries|
    ensures LastFound(queries[..i + 1], prefix, f, v)
            == if FoundIn(queries[i], prefix, f, v).Some? then FoundIn(queries[i], prefix, f, v) else LastFound(queries[..i], prefix, f, v)
  {
    var q := queries[..i + 1];
    assert q[..|q| - 1] == queries[..i];
    assert q[|q| - 1] == queries[i];
  }

  /** The index of the first query that has a hit. */
  function FirstHit(queries: seq<Entry>, prefix: QueryKey, f: string, v: Option<Value>): (r: Option<nat>)
    ensures r.Some? ==> r.value < |queries| && FoundIn(queries[r.value], prefix, f, v).Some?
    ensures r.Some? ==> forall j :: 0 <= j < r.value ==> FoundIn(queries[j], prefix, f, v).None?
    ensures r.None? ==> forall j :: 0 <= j < |queries| ==> FoundIn(queries[j], prefix, f, v).None?
  {
    if queries == [] then None
    else if FoundIn(queries[0], prefix, f, v).Some? then Some(0)
    else match FirstHit(queries[1..], prefix, f, v)
      case None => None
      case Some(i) => Some(i + 1)
  }

  /** A hit at `i` with none found before it is the first hit. */
  lemma FirstHitAt(queries: seq<Entry>, prefix: QueryKey, f: string, v: Option<Value>, i: nat)
    requires i < |queries| && FoundIn(queries[i], prefix, f, v).Some?
    requires FirstHit(queries, prefix, f, v).None? || FirstHit(queries, prefix, f, v).value >= i
    ensures FirstHit(queries, prefix, f, v) == Some(i)
  {
  }

  /** A splice pass that stops at the first hit: only that query loses a row. */
  function SpliceFirstPass(queries: seq<Entry>, prefix: QueryKey, f: string, v: Option<Value>): (r: seq<Entry>)
    ensures |r| == |queries|
    ensures forall j :: 0 <= j < |r| && FirstHit(queries, prefix, f, v) != Some(j) ==> r[j] == queries[j]
    ensures FirstHit(queries, prefix, f, v).Some? ==>
      var k := FirstHit(queries, prefix, f, v).value;
      r[k] == SplicedEntry(queries[k], prefix, f, v)
  {
    var hit := FirstHit(queries, prefix, f, v);
    seq(|queries|, j requires 0 <= j < |queries| => if hit == Some(j) then SplicedEntry(queries[j], prefix, f, v) else queries[j])
  }

  /** One cached query after a filter pass: a matching query keeps only the rows whose `f` is not `v`. */
  function FilteredEntry(e: Entry, prefix: QueryKey, f: string, v: Option<Value>): (r: Entry)
    ensures r.key == e.key
    ensures !KeyMatches(prefix, e.key) ==> r == e
    ensures KeyMatches(prefix, e.key) ==> r.data == Some(Without(RowsOf(e.data), f, v))
  {
    if KeyMatches(prefix, e.key) then Entry(e.key, Some(Without(RowsOf(e.data), f, v))) else e
  }

  /** `setQueriesData({ queryKey: prefix }, (d) => (d || []).filter((e) => e[f] !== v))`. */
  function FilterPass(queries: seq<Entry>, prefix: QueryKey, f: string, v: Option<Value>): (r: seq<Entry>)
    ensures |r| == |queries|
    ensures forall i :: 0 <= i < |r| ==> r[i] == FilteredEntry(queries[i], prefix, f, v)
    ensures forall i, x :: 0 <= i < |r| && KeyMatches(prefix, queries[i].key) && x in RowsOf(r[i].data) ==> !HasField(x, f, v)
  {
    seq(|queries|, i requires 0 <= i < |queries| => FilteredEntry(queries[i], prefix, f, v))
  }

  /** `setQueriesData({ queryKey: prefix }, ...)` with a splice updater: each matching query loses its found row. */
  function SplicePass(queries: seq<Entry>, prefix: QueryKey, f: string, v: Option<Value>): (r: seq<Entry>)
    ensures |r| == |queries|
    ensures forall i :: 0 <= i < |r| ==> r[i].key == queries[i].key
    ensures forall i :: 0 <= i < |r| && FoundIn(queries[i], prefix, f, v).None? ==> r[i] == queries[i]
    ensures forall i :: 0 <= i < |r| ==> r[i] == SplicedEntry(queries[i], prefix, f, v)
  {
    seq(|queries|, i requires 0 <= i < |queries| => SplicedEntry(queries[i], prefix, f, v))
  }
}

=== FILE: clients_api.dfy ===
/**
  * The clients hook: where a page of clients records its paging state, and
  * the cache updates after an edit or a delete. A delete takes the client
  * out of every client list, takes its balance out of the first balance
  * list that holds it, and then drops the top-ups and transactions made
  * with that balance's scan id.
  */
module ClientsApi {
  import opened Js
  import opened Lists
  import opened Cache
  import opened PaginationSlice

  /** `get`: the response's paging state is written to the store only when the view gave a key. */
  method OnGet(store: PaginationStore, pageId: Option<string>, pagination: Record)
    modifies store
    ensures (pageId.None? || pageId.value == "") ==> store.pagination == old(store.pagination)
    ensures pageId.Some? && pageId.value != "" ==> store.pagination == WithPagination(old(store.pagination), pageId.value, pagination)
  {
    if pageId.Some? && pageId.value != "" {
      store.SetPagination(pageId.value, pagination);
    }
  }

  /** `edit.onSuccess`: in every client list, the first client with the edited `clientId` takes the new fields. */
  function OnEditSuccess(queries: seq<Entry>, variables: Record): (r: seq<Entry>)
    ensures |r| == |queries|
    ensures forall i :: 0 <= i < |r| ==> r[i].key == queries[i].key
    ensures forall i :: 0 <= i < |r| && !KeyMatches(["clients"], queries[i].key) ==> r[i] == queries[i]
    ensures forall i :: 0 <= i < |r| && KeyMatches(["clients"], queries[i].key) ==>
              r[i].data == UpdateFirst(queries[i].data, "clientId", Get(variables, "clientId"), variables)
  {
    seq(|queries|, i requires 0 <= i < |queries| =>
      if KeyMatches(["clients"], queries[i].key)
      then Entry(queries[i].key, UpdateFirst(queries[i].data, "clientId", Get(variables, "clientId"), variables))
      else queries[i])
  }

  /** The state after `remove.onSuccess`: the query caches and the balance it captured, if any. */
  function Removed(queries: seq<Entry>, clientId: string, balanceId: string): (r: (seq<Entry>, Option<Record>))
  {
    var withoutClient := FilterPass(queries, ["clients"], "clientId", Some(Str(clientId)));
    var spliced := SpliceFirstPass(withoutClient, ["balances"], "balanceId", Some(Str(balanceId)));
    match FirstHit(withoutClient, ["balances"], "balanceId", Some(Str(balanceId)))
    case None => (spliced, None)
    case Some(k) =>
      var b := FoundIn(withoutClient[k], ["balances"], "balanceId", Some(Str(balanceId))).value;
      var scanId := Get(b, "scanId");
      (FilterPass(FilterPass(spliced, ["topUps"], "scanId", scanId), ["transactions"], "scanId", scanId), Some(b))
  }

  /**
    * `remove.onSuccess`: the client leaves every client list; the balance
    * lists are visited in cache order and only the first one holding the
    * balance loses it; when a balance was captured, the top-ups and
    * transactions with its scan id are dropped.
    */
  method OnRemoveSuccess(queries: seq<Entry>, clientId: string, balanceId: string)
    returns (r: seq<Entry>, clientBalance: Option<Record>)
    ensures (r, clientBalance) == Removed(queries, clientId, balanceId)
    ensures clientBalance.Some? ==> Get(clientBalance.value, "balanceId") == Some(Str(balanceId))
  {
    r := FilterPass(queries, ["clients"], "clientId", Some(Str(clientId)));
    r, clientBalance := SpliceFirstBalance(r, balanceId);
    if clientBalance.None? {
      return;
    }
    r := FilterPass(r, ["topUps"], "scanId", Get(clientBalance.value, "scanId"));
    r := FilterPass(r, ["transactions"], "scanId", Get(clientBalance.value, "scanId"));
  }

  /** The balance lists pass: once a balance is captured, later lists are returned untouched. */
  method SpliceFirstBalance(queries: seq<Entry>, balanceId: string) returns (r: seq<Entry>, clientBalance: Option<Record>)
    ensures r == SpliceFirstPass(queries, ["balances"], "balanceId", Some(Str(balanceId)))
    ensures FirstHit(queries, ["balances"], "balanceId", Some(Str(balanceId))).None? ==> clientBalance.None?
    ensures FirstHit(queries, ["balances"], "balanceId", Some(Str(balanceId))).Some? ==>
      clientBalance == FoundIn(queries[FirstHit(queries, ["balances"], "balanceId", Some(Str(balanceId))).value],
                               ["balances"], "balanceId", Some(Str(balanceId)))
  {
    var prefix: QueryKey := ["balances"];
    var id := Some(Str(balanceId));
    ghost var hit := FirstHit(queries, prefix, "balanceId", id);
    ghost var spliced := SpliceFirstPass(queries, prefix, "balanceId", id);
    r := [];
    clientBalance := None;
    var i := 0;
    while i < |queries|
      invariant 0 <= i <= |queries| && |r| == i
      invariant clientBalance.None? ==> hit.None? || hit.value >= i
      invariant clientBalance.Some? ==> hit.Some? && hit.value < i && clientBalance == FoundIn(queries[hit.value], prefix, "balanceId", id)
      invariant forall j :: 0 <= j < i ==> r[j] == spliced[j]
    {
      var next := queries[i];
      if clientBalance.None? {
        var found := FoundIn(queries[i], prefix, "balanceId", id);
        if found.Some? {
          FirstHitAt(queries, prefix, "balanceId", id, i);
          clientBalance := found;
          next := SplicedEntry(queries[i], prefix, "balanceId", id);
        }
      }
      assert next == spliced[i];
      AgreeSnoc(r, spliced, next);
      r := r + [next];
      i := i + 1;
    }
    assert r == spliced;
  }

  /** At most one balance list changes, and only when it held the balance. */
  lemma RemoveTouchesOneBalanceList(queries: seq<Entry>, clientId: string, balanceId: string, i: nat, j: nat)
    requires i < j < |queries|
    requires KeyMatches(["balances"], queries[i].key) && KeyMatches(["balances"], queries[j].key)
    ensures Removed(queries, clientId, balanceId).0[i] == FilterPass(queries, ["clients"], "clientId", Some(Str(clientId)))[i]
         || Removed(queries, clientId, balanceId).0[j] == FilterPass(queries, ["clients"], "clientId", Some(Str(clientId)))[j]
  {
    var w := FilterPass(queries, ["clients"], "clientId", Some(Str(clientId)));
    var hit := FirstHit(w, ["balances"], "balanceId", Some(Str(balanceId)));
    assert !KeyMatches(["clients"], queries[i].key) && !KeyMatches(["clients"], queries[j].key) by {
      assert queries[i].key[..1] == ["balances"] && queries[j].key[..1] == ["balances"];
    }
    assert !KeyMatches(["topUps"], queries[i].key) && !KeyMatches(["topUps"], queries[j].key) by {
      assert queries[i].key[..1] == ["balances"] && queries[j].key[..1] == ["balances"];
    }
    assert !KeyMatches(["transactions"], queries[i].key) && !KeyMatches(["transactions"], queries[j].key) by {
      assert queries[i].key[..1] == ["balances"] && queries[j].key[..1] == ["balances"];
    }
  }

  /** After a delete, no client list holds a client with the deleted id. */
  lemma RemoveDropsClient(queries: seq<Entry>, clientId: string, balanceId: string, i: nat, x: Record)
    requires i < |queries| && KeyMatches(["clients"], queries[i].key)
    requires x in RowsOf(Removed(queries, clientId, balanceId).0[i].data)
    ensures Get(x, "clientId") != Some(Str(clientId))
  {
    var w := FilterPass(queries, ["clients"], "clientId", Some(Str(clientId)));
    var hit := FirstHit(w, ["balances"], "balanceId", Some(Str(balanceId)));
    assert queries[i].key[..1] == ["clients"];
    assert w[i].key == queries[i].key;
    assert hit != Some(i);
    assert SpliceFirstPass(w, ["balances"], "balanceId", Some(Str(balanceId)))[i] == w[i];
    assert Removed(queries, clientId, balanceId).0[i] == w[i];
  }
}

=== FILE: currencies_api.dfy ===
/**
  * The currencies hook: which event a currencies post goes to, and how the
  * cached currency list of the event is rewritten once the post succeeds.
  * Posting the whole list replaces the cache with the posted list, each
  * currency the server just created carrying its new `currencyId`; posting
  * one currency merges it into the cached currency with the same id.
  */
module CurrenciesApi {
  import opened Js
  import opened Cache

  /** One element of the post response: a currency name and the id the server gave it. */
  datatype NewId = NewId(currency: string, currencyId: string)

  /** What was posted: the event's whole currency list or a single currency. */
  datatype Posted = AllCurrencies(list: seq<Record>) | OneCurrency(body: Record)

  /** The event a post goes to: the post's own `eventId` when truthy, otherwise the hook's. */
  function PostTarget(postEventId: Option<string>, eventId: string): (r: string)
    ensures postEventId.Some? && postEventId.value != "" ==> r == postEventId.value
    ensures (postEventId.None? || postEventId.value == "") ==> r == eventId
  {
    OrElse(postEventId, Some(eventId)).value
  }

  /** The name a posted currency is looked up by (`currency.currency in newIdsData`). */
  function NameOf(c: Record): string
  {
    Text(Get(c, "currency"))
  }

  /** `data.reduce((acc, val) => ({...acc, [val.currency]: val}), {})`, reduced to the ids. */
  function IdsByName(data: seq<NewId>): (m: map<string, string>)
    ensures m.Keys == set d | d in data :: d.currency
    ensures forall n :: n in m ==> NewId(n, m[n]) in data
    decreases |data|
  {
    if data == [] then map[]
    else
      var init := data[..|data| - 1];
      var last := data[|data| - 1];
      assert data == init + [last];
      IdsByName(init)[last.currency := last.currencyId]
  }

  /** A name that comes back more than once keeps the id of its last occurrence. */
  lemma {:induction false} IdsByNameLastWins(data: seq<NewId>, i: nat)
    requires i < |data|
    requires forall j :: i < j < |data| ==> data[j].currency != data[i].currency
    ensures data[i].currency in IdsByName(data)
    ensures IdsByName(data)[data[i].currency] == data[i].currencyId
    decreases |data|
  {
    if i < |data| - 1 {
      IdsByNameLastWins(data[..|data| - 1], i);
    }
  }

  /** The posted list with the returned id written into each currency the response names. */
  function WithIds(currencies: seq<Record>, ids: map<string, string>): (r: seq<Record>)
    ensures |r| == |currencies|
    ensures forall i :: 0 <= i < |r| && NameOf(currencies[i]) !in ids ==> r[i] == currencies[i]
    ensures forall i :: 0 <= i < |r| && NameOf(currencies[i]) in ids ==>
              r[i].Keys == currencies[i].Keys + {"currencyId"}
              && r[i]["currencyId"] == Str(ids[NameOf(currencies[i])])
              && forall g :: g in currencies[i] && g != "currencyId" ==> r[i][g] == currencies[i][g]
  {
    seq(|currencies|, i requires 0 <= i < |currencies| =>
      var c := currencies[i];
      if NameOf(c) in ids then c["currencyId" := Str(ids[NameOf(c)])] else c)
  }

  /** The `forEach` over the posted currencies. */
  method AssignIds(currencies: seq<Record>, ids: map<string, string>) returns (tmp: seq<Record>)
    ensures tmp == WithIds(currencies, ids)
  {
    tmp := currencies;
    var i := 0;
    while i < |tmp|
      invariant 0 <= i <= |tmp| == |currencies|
      invariant forall j :: 0 <= j < i ==> tmp[j] == WithIds(currencies, ids)[j]
      invariant forall j :: i <= j < |tmp| ==> tmp[j] == currencies[j]
    {
      var currency := tmp[i];
      if NameOf(currency) in ids {
        tmp := tmp[i := currency["currencyId" := Str(ids[NameOf(currency)])]];
      }
      i := i + 1;
    }
  }

  /** `update.onSuccess`: the new cached currency list of the event. */
  method OnUpdateSuccess(cached: Option<seq<Record>>, data: seq<NewId>, posted: Posted) returns (r: Option<seq<Record>>)
    ensures posted.AllCurrencies? ==> r == Some(WithIds(posted.list, IdsByName(data)))
    ensures posted.OneCurrency? ==> r == UpdateFirst(cached, "currencyId", Get(posted.body, "currencyId"), posted.body)
  {
    match posted
    case AllCurrencies(list) =>
      var newIdsData := IdsByName(data);
      var tmp := AssignIds(list, newIdsData);
      r := Some(tmp);
    case OneCurrency(currency) =>
      r := UpdateFirst(cached, "currencyId", Get(currency, "currencyId"), currency);
  }

  /** Writing the ids twice changes nothing more: the list keeps its names, so the second pass writes the same ids. */
  lemma WithIdsIdempotent(currencies: seq<Record>, ids: map<string, string>)
    ensures WithIds(WithIds(currencies, ids), ids) == WithIds(currencies, ids)
  {
    var once := WithIds(currencies, ids);
    var twice := WithIds(once, ids);
    forall i | 0 <= i < |currencies|
      ensures twice[i] == once[i]
    {
      assert Get(once[i], "currency") == Get(currencies[i], "currency");
      var n := NameOf(currencies[i]);
      if n in ids {
        assert twice[i] == once[i]["currencyId" := Str(ids[n])];
      }
    }
  }

  /**
    * After posting the whole list, each currency the response names holds
    * the id the response gave under that name, and the list keeps its
    * order and names.
    */
  lemma PostedCurrenciesGetIds(data: seq<NewId>, list: seq<Record>, i: nat)
    requires i < |list|
    ensures NameOf(WithIds(list, IdsByName(data))[i]) == NameOf(list[i])
    ensures (exists d :: d in data && d.currency == NameOf(list[i])) ==>
              exists d :: d in data && d.currency == NameOf(list[i])
                       && Get(WithIds(list, IdsByName(data))[i], "currencyId") == Some(Str(d.currencyId))
    ensures (forall d :: d in data ==> d.currency != NameOf(list[i])) ==> WithIds(list, IdsByName(data))[i] == list[i]
    ensures forall j :: 0 <= j < |data| && data[j].currency == NameOf(list[i])
                        && (forall k :: j < k < |data| ==> data[k].currency != data[j].currency) ==>
              Get(WithIds(list, IdsByName(data))[i], "currencyId") == Some(Str(data[j].currencyId))
  {
    PostedSomeId(data, list, i);
    PostedLastIds(data, list, i);
  }

  lemma PostedSomeId(data: seq<NewId>, list: seq<Record>, i: nat)
    requires i < |list|
    ensures NameOf(WithIds(list, IdsByName(data))[i]) == NameOf(list[i])
    ensures (exists d :: d in data && d.currency == NameOf(list[i])) ==>
              exists d :: d in data && d.currency == NameOf(list[i])
                       && Get(WithIds(list, IdsByName(data))[i], "currencyId") == Some(Str(d.currencyId))
    ensures (forall d :: d in data ==> d.currency != NameOf(list[i])) ==> WithIds(list, IdsByName(data))[i] == list[i]
  {
    var ids := IdsByName(data);
    var n := NameOf(list[i]);
    assert Get(WithIds(list, ids)[i], "currency") == Get(list[i], "currency");
    if exists d :: d in data && d.currency == n {
      var d :| d in data && d.currency == n;
      assert n in ids;
      assert NewId(n, ids[n]) in data;
    }
  }

  lemma PostedLastIds(data: seq<NewId>, list: seq<Record>, i: nat)
    requires i < |list|
    ensures forall j :: 0 <= j < |data| && data[j].currency == NameOf(list[i])
                        && (forall k :: j < k < |data| ==> data[k].currency != data[j].currency) ==>
              Get(WithIds(list, IdsByName(data))[i], "currencyId") == Some(Str(data[j].currencyId))
  {
    forall j | 0 <= j < |data| && data[j].currency == NameOf(list[i]) && (forall k :: j < k < |data| ==> data[k].currency != data[j].currency)
      ensures Get(WithIds(list, IdsByName(data))[i], "currencyId") == Some(Str(data[j].currencyId))
    {
      PostedLastId(data, list, i, j);
    }
  }

  lemma PostedLastId(data: seq<NewId>, list: seq<Record>, i: nat, j: nat)
    requires i < |list| && j < |data| && data[j].currency == NameOf(list[i])
    requires forall k :: j < k < |data| ==> data[k].currency != data[j].currency
    ensures Get(WithIds(list, IdsByName(data))[i], "currencyId") == Some(Str(data[j].currencyId))
  {
    IdsByNameLastWins(data, j);
    var ids := IdsByName(data);
    assert NameOf(list[i]) in ids && ids[NameOf(list[i])] == data[j].currencyId;
    assert WithIds(list, ids)[i]["currencyId"] == Str(data[j].currencyId);
  }
}

=== FILE: dynamic_table.dfy ===
/**
  * The data table's row mirror and its server-side paging controller.
  *
  * The table keeps its own copy of the rows, changed by add, edit and remove
  * transactions that identify rows by a configurable id field. In server mode
  * the page shown and the page count come from the pagination store entry
  * under the table's pagination key, and the navigation buttons write that
  * entry.
  */
module DynamicTable {
  import opened Js
  import opened Lists
  import opened PaginationSlice

  /** The `items` of an add or edit: an array, or a single row. */
  datatype Items = Many(rows: seq<Record>) | One(row: Record)

  /** An array entry of a remove: a bare id, or a row compared by its id field. */
  datatype RemoveEntry = BareId(id: string) | RowEntry(row: Record)

  /** The `items` of a remove: an array of entries, or a single row. */
  datatype RemoveItems = Entries(entries: seq<RemoveEntry>) | Single(row: Record)

  datatype TxKind = AddTx | EditTx | RemoveTx

  /** An `applyTransaction` call; `kind` may be left out. */
  datatype Transaction = Transaction(kind: Option<TxKind>, items: seq<Record>, addIndex: Option<int>)

  /** The rows an add inserts, in order. */
  function Flat(items: Items): (r: seq<Record>)
    ensures items.Many? ==> r == items.rows
    ensures items.One? ==> r == [items.row]
  {
    match items
    case Many(rows) => rows
    case One(row) => [row]
  }

  /** Where `splice(index, 0, ...)` inserts into an array of length `len`. */
  function SpliceStart(len: nat, index: int): (k: nat)
    ensures k <= len
    ensures 0 <= index <= len ==> k == index
    ensures index > len ==> k == len
    ensures index < 0 && index + len >= 0 ==> k == len + index
    ensures index + len < 0 ==> k == 0
  {
    if index < 0 then (if len + index < 0 then 0 else len + index)
    else if index > len then len
    else index
  }

  /** The rows after `onAdd`: spliced in at the index when one is given, appended otherwise. */
  function Added(rows: seq<Record>, items: Items, index: Option<int>): (r: seq<Record>)
    ensures |r| == |rows| + |Flat(items)|
    ensures index.None? ==> r[..|rows|] == rows && r[|rows|..] == Flat(items)
    ensures index.Some? ==>
      var k := SpliceStart(|rows|, index.value);
      r[..k] == rows[..k] && r[k..k + |Flat(items)|] == Flat(items) && r[k + |Flat(items)|..] == rows[k..]
  {
    match index
    case None => rows + Flat(items)
    case Some(i) =>
      var k := SpliceStart(|rows|, i);
      rows[..k] + Flat(items) + rows[k..]
  }

  /** Appending is inserting at the end. */
  lemma AppendIsInsertAtEnd(rows: seq<Record>, items: Items)
    ensures Added(rows, items, None) == Added(rows, items, Some(|rows|))
  {
    assert rows[|rows|..] == [];
    assert rows[..|rows|] == rows;
  }

  /** Two rows have the same id when their id fields are strictly equal (both absent counts as equal). */
  predicate SameId(a: Record, b: Record, rowId: string)
  {
    Get(a, rowId) == Get(b, rowId)
  }

  /** The first patch carrying the row's id, if any. */
  function PatchFor(row: Record, patches: seq<Record>, rowId: string): (r: Option<Record>)
    ensures r.None? ==> forall j :: 0 <= j < |patches| ==> !SameId(patches[j], row, rowId)
    ensures r.Some? ==> exists j :: 0 <= j < |patches| && r.value == patches[j] && SameId(patches[j], row, rowId)
                          && forall k :: 0 <= k < j ==> !SameId(patches[k], row, rowId)
  {
    match FindIndex(patches, (p: Record) => SameId(p, row, rowId))
    case None => None
    case Some(j) => Some(patches[j])
  }

  /** One row after an edit with an array of patches. */
  function EditedRow(row: Record, patches: seq<Record>, rowId: string): Record
  {
    match PatchFor(row, patches, rowId)
    case None => row
    case Some(p) => Merge(row, p)
  }

  /** The rows after `onEdit`. */
  function Edited(rows: seq<Record>, items: Items, rowId: string): (r: seq<Record>)
    ensures |r| == |rows|
    ensures rowId == "" ==> r == rows
    ensures rowId != "" && items.Many? ==>
      forall i :: 0 <= i < |rows| ==>
        (forall j :: 0 <= j < |items.rows| ==> !SameId(items.rows[j], rows[i], rowId)) ==> r[i] == rows[i]
    ensures rowId != "" && items.Many? ==>
      forall i, j ::
        (0 <= i < |rows| && 0 <= j < |items.rows| && SameId(items.rows[j], rows[i], rowId)
         && forall k :: 0 <= k < j ==> !SameId(items.rows[k], rows[i], rowId))
        ==> r[i] == Merge(rows[i], items.rows[j])
    ensures rowId != "" && items.One? ==>
      forall i :: 0 <= i < |rows| ==> r[i] == if SameId(rows[i], items.row, rowId) then Merge(rows[i], items.row) else rows[i]
  {
    if rowId == "" then rows
    else match items
      case Many(patches) => seq(|rows|, i requires 0 <= i < |rows| => EditedRow(rows[i], patches, rowId))
      case One(patch) => seq(|rows|, i requires 0 <= i < |rows| => if SameId(rows[i], patch, rowId) then Merge(rows[i], patch) else rows[i])
  }

  /** An edit never changes which id a row carries. */
  lemma EditKeepsIds(rows: seq<Record>, items: Items, rowId: string, i: nat)
    requires i < |rows|
    ensures |Edited(rows, items, rowId)| == |rows|
    ensures SameId(Edited(rows, items, rowId)[i], rows[i], rowId)
  {
    var r := Edited(rows, items, rowId);
    if rowId != "" {
      var row := rows[i];
      match items
      case Many(patches) =>
        match PatchFor(row, patches, rowId) {
          case None =>
          case Some(p) =>
            assert r[i] == Merge(row, p);
            assert SameId(p, row, rowId);
        }
      case One(p) =>
    }
  }

  /** Editing with one row is editing with an array holding only that row. */
  lemma EditOneIsEditMany(rows: seq<Record>, patch: Record, rowId: string)
    ensures Edited(rows, One(patch), rowId) == Edited(rows, Many([patch]), rowId)
  {
    var a := Edited(rows, One(patch), rowId);
    var b := Edited(rows, Many([patch]), rowId);
    forall i | 0 <= i < |rows|
      ensures a[i] == b[i]
    {
      if rowId != "" {
        if SameId(rows[i], patch, rowId) {
          assert SameId([patch][0], rows[i], rowId);
        }
      }
    }
  }

  /** Whether a remove entry names the row. */
  predicate Matches(row: Record, entry: RemoveEntry, rowId: string)
  {
    match entry
    case BareId(id) => Get(row, rowId) == Some(Str(id))
    case RowEntry(other) => SameId(row, other, rowId)
  }

  /** Whether a row survives a remove with an array of entries. */
  predicate Survives(row: Record, entries: seq<RemoveEntry>, rowId: string)
  {
    FindIndex(entries, (e: RemoveEntry) => Matches(row, e, rowId)).None?
  }

  /** Whether a row survives a remove of a single row. */
  predicate SurvivesSingle(row: Record, other: Record, rowId: string)
  {
    !SameId(row, other, rowId)
  }

  /** The rows after `onRemove`. */
  function Removed(rows: seq<Record>, items: RemoveItems, rowId: string): (r: seq<Record>)
    ensures |r| <= |rows|
    ensures rowId == "" ==> r == rows
    ensures rowId != "" && items.Entries? ==>
      forall x :: x in r <==> x in rows && forall e :: e in items.entries ==> !Matches(x, e, rowId)
    ensures rowId != "" && items.Single? ==>
      forall x :: x in r <==> x in rows && !SameId(x, items.row, rowId)
  {
    if rowId == "" then rows
    else match items
      case Entries(entries) => Filter(rows, (x: Record) => Survives(x, entries, rowId))
      case Single(other) => Filter(rows, (x: Record) => SurvivesSingle(x, other, rowId))
  }

  /** Survivors keep their order: removing from a concatenation removes from each part. */
  lemma RemoveKeepsOrder(a: seq<Record>, b: seq<Record>, items: RemoveItems, rowId: string)
    ensures Removed(a + b, items, rowId) == Removed(a, items, rowId) + Removed(b, items, rowId)
  {
    if rowId != "" {
      match items
      case Entries(entries) => FilterConcat(a, b, (x: Record) => Survives(x, entries, rowId));
      case Single(other) => FilterConcat(a, b, (x: Record) => SurvivesSingle(x, other, rowId));
    }
  }

  /** A remove with no id field set, or with no entry naming any row, keeps every row. */
  lemma RemoveOfAbsentKeepsAll(rows: seq<Record>, entries: seq<RemoveEntry>, rowId: string)
    requires forall x, e :: x in rows && e in entries ==> !Matches(x, e, rowId)
    ensures Removed(rows, Entries(entries), rowId) == rows
  {
    if rowId != "" {
      FilterKeepsAll(rows, (x: Record) => Survives(x, entries, rowId));
    }
  }

  /** `Math.ceil(n / 10)`. */
  function PagesOfTen(n: nat): (r: nat)
    ensures 10 * r >= n
    ensures r > 0 ==> 10 * (r - 1) < n
  {
    (n + 9) / 10
  }

  /** The page index and page count the pagination buttons see. */
  datatype PageView = PageView(index: Option<int>, count: Option<int>)

  /** Page index and count are read from the store only in server mode with a known key that has an entry. */
  predicate UsesStore(server: bool, key: string, m: map<string, Record>)
  {
    server && key != "" && key in m
  }

  function Resolved(server: bool, key: string, m: map<string, Record>, localIndex: nat, localCount: nat): (v: PageView)
    ensures UsesStore(server, key, m) ==> v == PageView(NumOf(m[key], "page"), NumOf(m[key], "pages"))
    ensures !UsesStore(server, key, m) ==> v == PageView(Some(localIndex), Some(localCount))
  {
    if UsesStore(server, key, m) then PageView(NumOf(m[key], "page"), NumOf(m[key], "pages"))
    else PageView(Some(localIndex), Some(localCount))
  }

  /** `checkLastPage`: not loading and on (or past) the last page; an absent field compares false. */
  function CheckLastPage(isLoading: bool, v: PageView): (r: bool)
    ensures r ==> !isLoading && v.index.Some? && v.count.Some?
    ensures !isLoading && v.index.Some? && v.count.Some? ==> (r <==> !(v.index.value + 1 < v.count.value))
  {
    !isLoading && v.index.Some? && v.count.Some? && v.index.value >= v.count.value - 1
  }

  /** `checkFirstPage`: not loading and on page 0 or 1. */
  function CheckFirstPage(isLoading: bool, v: PageView): (r: bool)
    ensures r ==> !isLoading && v.index.Some? && v.index.value - 1 <= 0
    ensures !isLoading && v.index.Some? && v.index.value >= 2 ==> !r
  {
    !isLoading && v.index.Some? && v.index.value <= 1
  }

  /** `page || 0`. */
  function PageOrZero(entry: Record): int
  {
    match NumOf(entry, "page")
    case Some(p) => p
    case None => 0
  }

  /** The fields every navigation writes. */
  function PageWrite(page: nat): (w: Record)
    ensures w.Keys == {"page", "pageSize"}
    ensures w["page"] == Num(page) && w["pageSize"] == Num(10)
  {
    map["page" := Num(page), "pageSize" := Num(10)]
  }

  /**
    * What `nextPaginationPage(last)` reads without failing: the entry itself,
    * and its page count when jumping to the last page.
    */
  predicate NextDefined(server: bool, key: string, m: map<string, Record>, last: bool)
  {
    server && key != "" ==> key in m && (last ==> NumOf(m[key], "pages").Some?)
  }

  /** The page `nextPaginationPage(last)` writes, or `None` when it returns without writing. */
  function NextTarget(server: bool, key: string, m: map<string, Record>, last: bool): (r: Option<nat>)
    requires NextDefined(server, key, m, last)
    ensures !server || key == "" ==> r.None?
    ensures server && key != "" && last ==> r == (if m[key]["pages"].n >= 1 then Some(m[key]["pages"].n - 1) else None)
    ensures server && key != "" && !last && PageOrZero(m[key]) >= -1 ==> r == Some(PageOrZero(m[key]) + 1)
  {
    if !server || key == "" then None
    else
      var newPage := if last then m[key]["pages"].n - 1 else PageOrZero(m[key]) + 1;
      if newPage < 0 then None else Some(newPage)
  }

  /** The page `previousPaginationPage(first)` writes, or `None` when it returns without writing. */
  function PreviousTarget(server: bool, key: string, m: map<string, Record>, first: bool): (r: Option<nat>)
    ensures !server || key == "" || key !in m ==> r.None?
    ensures server && key != "" && key in m && NumOf(m[key], "page") in {None, Some(0)} ==> r.None?
    ensures r.Some? && first ==> r.value == 0
    ensures r.Some? && !first ==> r.value == m[key]["page"].n - 1
  {
    if !server || key == "" then None
    else if key !in m || !Truthy(Get(m[key], "page")) || !m[key]["page"].Num? then None
    else
      var newPage := if first then 0 else m[key]["page"].n - 1;
      if newPage < 0 then None else Some(newPage)
  }

  /** The map after a navigation writes `target` (or does not write). */
  function AfterWrite(m: map<string, Record>, key: string, target: Option<nat>): map<string, Record>
  {
    match target
    case None => m
    case Some(p) => WithPagination(m, key, PageWrite(p))
  }

  /** What `nextPage(lastPage)` reads without failing. */
  predicate NextPageDefined(server: bool, key: string, m: map<string, Record>, isLoading: bool, lastPage: bool)
  {
    !isLoading ==> NextDefined(server, key, m, lastPage) && (server && key != "" ==> key in m)
  }

  /** The page `nextPage(lastPage)` writes to the store. */
  function NextPageTarget(server: bool, key: string, m: map<string, Record>, localIndex: nat, localCount: nat,
                          isLoading: bool, lastPage: bool): (r: Option<nat>)
    requires NextPageDefined(server, key, m, isLoading, lastPage)
    ensures isLoading || !server ==> r.None?
  {
    if isLoading then None
    else
      var last := lastPage || CheckLastPage(isLoading, Resolved(server, key, m, localIndex, localCount));
      assert last && !lastPage && server && key != "" ==> NumOf(m[key], "pages").Some?;
      NextTarget(server, key, m, last)
  }

  /** The page `prevPage(firstPage)` writes to the store. */
  function PrevPageTarget(server: bool, key: string, m: map<string, Record>, localIndex: nat, localCount: nat,
                          isLoading: bool, firstPage: bool): (r: Option<nat>)
    ensures isLoading || !server ==> r.None?
  {
    if isLoading then None
    else
      var first := firstPage || CheckFirstPage(isLoading, Resolved(server, key, m, localIndex, localCount));
      PreviousTarget(server, key, m, first)
  }

  /** In server mode, "next" moves one page forward, stops at the last page, and does nothing when there are no pages. */
  lemma NextPageClamps(key: string, m: map<string, Record>, localIndex: nat, localCount: nat, page: nat, pages: int)
    requires key != "" && key in m
    requires NumOf(m[key], "page") == Some(page) && NumOf(m[key], "pages") == Some(pages)
    ensures NextPageDefined(true, key, m, false, false)
    ensures pages <= 0 ==> NextPageTarget(true, key, m, localIndex, localCount, false, false).None?
    ensures pages > 0 ==> NextPageTarget(true, key, m, localIndex, localCount, false, false)
                            == Some(if page < pages - 1 then page + 1 else pages - 1)
  {
    var v := Resolved(true, key, m, localIndex, localCount);
    assert v == PageView(Some(page), Some(pages));
    if page >= pages - 1 {
      assert CheckLastPage(false, v);
    } else {
      assert !CheckLastPage(false, v);
      assert PageOrZero(m[key]) == page;
    }
  }

  /** In server mode, "last" goes to the final page whenever there is one. */
  lemma LastPageJumps(key: string, m: map<string, Record>, localIndex: nat, localCount: nat, pages: int)
    requires key != "" && key in m && NumOf(m[key], "pages") == Some(pages)
    ensures NextPageDefined(true, key, m, false, true)
    ensures NextPageTarget(true, key, m, localIndex, localCount, false, true) == if pages >= 1 then Some(pages - 1) else None
  {
  }

  /** In server mode, "previous" moves one page back and does nothing on page 0 or with no page recorded. */
  lemma PrevPageSteps(key: string, m: map<string, Record>, localIndex: nat, localCount: nat)
    requires key != "" && key in m
    ensures NumOf(m[key], "page") in {None, Some(0)} ==> PrevPageTarget(true, key, m, localIndex, localCount, false, false).None?
    ensures forall p: int :: p > 0 && NumOf(m[key], "page") == Some(p) ==>
              PrevPageTarget(true, key, m, localIndex, localCount, false, false) == Some(p - 1)
  {
    var v := Resolved(true, key, m, localIndex, localCount);
    if NumOf(m[key], "page").Some? {
      var p := m[key]["page"].n;
      if p == 1 {
        assert CheckFirstPage(false, v);
      } else if p > 1 {
        assert !CheckFirstPage(false, v);
      }
    }
  }

  /** "First" goes to page 0 whenever a non-zero page is recorded. */
  lemma FirstPageJumps(key: string, m: map<string, Record>, localIndex: nat, localCount: nat, p: int)
    requires key != "" && key in m && NumOf(m[key], "page") == Some(p) && p != 0
    ensures PrevPageTarget(true, key, m, localIndex, localCount, false, true) == Some(0)
  {
  }

  class Table {
    /** The id field rows are matched by; "" when the table has none. */
    const rowId: string
    const serverSidePagination: bool
    /** The store key of this table's paging record; "" when the table has none. */
    const paginationKey: string
    /** The rows the table shows. */
    var data: seq<Record>
    /** The local page cursor and page count used outside server mode. */
    var localPageIndex: nat
    var localPageCount: nat

    constructor (rowId: string, serverSidePagination: bool, paginationKey: string)
      ensures this.rowId == rowId && this.serverSidePagination == serverSidePagination
      ensures this.paginationKey == paginationKey
      ensures data == [] && localPageIndex == 0 && localPageCount == 0
    {
      this.rowId := rowId;
      this.serverSidePagination := serverSidePagination;
      this.paginationKey := paginationKey;
      data := [];
      localPageIndex := 0;
      localPageCount := 0;
    }

    /** A new `tableData` snapshot replaces the rows wholesale. */
    method OnTableData(tableData: seq<Record>)
      modifies this`data
      ensures data == tableData
    {
      data := tableData;
    }

    /** Outside server mode the page count follows the row count, ten rows a page. */
    method SyncPageCount()
      modifies this`localPageCount
      ensures !serverSidePagination ==> localPageCount == PagesOfTen(|data|)
      ensures serverSidePagination ==> localPageCount == old(localPageCount)
    {
      if serverSidePagination {
        return;
      }
      localPageCount := (|data| + 9) / 10;
    }

    method Add(items: Items, index: Option<int>)
      modifies this`data
      ensures data == Added(old(data), items, index)
    {
      if index.Some? {
        var k := SpliceStart(|data|, index.value);
        data := data[..k] + Flat(items) + data[k..];
      } else {
        data := data + Flat(items);
      }
    }

    method Edit(items: Items)
      modifies this`data
      ensures data == Edited(old(data), items, rowId)
    {
      data := Edited(data, items, rowId);
    }

    method Remove(items: RemoveItems)
      modifies this`data
      ensures data == Removed(old(data), items, rowId)
    {
      data := Removed(data, items, rowId);
    }

    /** Dispatches on the transaction kind; a missing kind adds, and only an add uses the index. */
    method ApplyTransaction(tx: Transaction)
      modifies this`data
      ensures tx.kind in {None, Some(AddTx)} ==> data == Added(old(data), Many(tx.items), tx.addIndex)
      ensures tx.kind == Some(EditTx) ==> data == Edited(old(data), Many(tx.items), rowId)
      ensures tx.kind == Some(RemoveTx) ==>
                data == Removed(old(data), Entries(seq(|tx.items|, i requires 0 <= i < |tx.items| => RowEntry(tx.items[i]))), rowId)
    {
      match tx.kind
      case None => Add(Many(tx.items), tx.addIndex);
      case Some(AddTx) => Add(Many(tx.items), tx.addIndex);
      case Some(EditTx) => Edit(Many(tx.items));
      case Some(RemoveTx) => Remove(Entries(seq(|tx.items|, i requires 0 <= i < |tx.items| => RowEntry(tx.items[i]))));
    }

    /** The page index and count shown, given the store's current map. */
    function View(m: map<string, Record>): PageView
      reads this
    {
      Resolved(serverSidePagination, paginationKey, m, localPageIndex, localPageCount)
    }

    method NextPaginationPage(store: PaginationStore, last: bool)
      requires NextDefined(serverSidePagination, paginationKey, store.pagination, last)
      modifies store
      ensures store.pagination == AfterWrite(old(store.pagination), paginationKey,
                                             NextTarget(serverSidePagination, paginationKey, old(store.pagination), last))
    {
      if !serverSidePagination || paginationKey == "" {
        return;
      }
      var entry := store.pagination[paginationKey];
      var newPage := if last then entry["pages"].n - 1 else PageOrZero(entry) + 1;
      if newPage < 0 {
        return;
      }
      store.SetPagination(paginationKey, PageWrite(newPage));
    }

    method PreviousPaginationPage(store: PaginationStore, first: bool)
      modifies store
      ensures store.pagination == AfterWrite(old(store.pagination), paginationKey,
                                             PreviousTarget(serverSidePagination, paginationKey, old(store.pagination), first))
    {
      if !serverSidePagination || paginationKey == "" {
        return;
      }
      if paginationKey !in store.pagination || !Truthy(Get(store.pagination[paginationKey], "page"))
        || !store.pagination[paginationKey]["page"].Num? {
        return;
      }
      var newPage := if first then 0 else store.pagination[paginationKey]["page"].n - 1;
      if newPage < 0 {
        return;
      }
      store.SetPagination(paginationKey, PageWrite(newPage));
    }

    /** The "next" and "last" buttons; the local cursor move is not modelled. */
    method NextPage(store: PaginationStore, isLoading: bool, lastPage: bool)
      requires NextPageDefined(serverSidePagination, paginationKey, store.pagination, isLoading, lastPage)
      modifies store
      ensures store.pagination == AfterWrite(old(store.pagination), paginationKey,
                NextPageTarget(serverSidePagination, paginationKey, old(store.pagination), localPageIndex, localPageCount, isLoading, lastPage))
    {
      if isLoading {
        return;
      }
      if lastPage || CheckLastPage(isLoading, View(store.pagination)) {
        NextPaginationPage(store, true);
      } else {
        NextPaginationPage(store, false);
      }
    }

    /** The "previous" and "first" buttons; the local cursor move is not modelled. */
    method PrevPage(store: PaginationStore, isLoading: bool, firstPage: bool)
      modifies store
      ensures store.pagination == AfterWrite(old(store.pagination), paginationKey,
                PrevPageTarget(serverSidePagination, paginationKey, old(store.pagination), localPageIndex, localPageCount, isLoading, firstPage))
    {
      if isLoading {
        return;
      }
      if firstPage || CheckFirstPage(isLoading, View(store.pagination)) {
        PreviousPaginationPage(store, true);
      } else {
        PreviousPaginationPage(store, false);
      }
    }
  }
}

=== FILE: event_currencies_info.dfy ===
/**
  * The currencies step of the event form. A currency's quick prices are
  * edited as four fixed fields (`action1` … `action4`); loading a currency
  * list fills those fields from the quick prices, and handing the step back
  * turns every row into a currency again, the first row being the default
  * one. The step refuses two currencies with the same name.
  */
module EventCurrenciesInfo {
  import opened Js
  import opened Lists

  /** A currency of an event. */
  datatype Currency = Currency(currency: string, rate: int, marketRate: int, quickPrices: seq<int>,
                               company: string, currencyId: string, eventId: string, isDefault: bool)

  /** One row of the currencies form. */
  datatype FormRow = FormRow(currency: string, rate: int, marketRate: int,
                             action1: int, action2: int, action3: int, action4: int, isDefault: bool)

  /** Quick price `k` (1-based) of a list, or 0 when the list is shorter. */
  function Slot(quickPrices: seq<int>, k: nat): (r: int)
    ensures 1 <= k <= |quickPrices| ==> r == quickPrices[k - 1]
    ensures k == 0 || k > |quickPrices| ==> r == 0
  {
    if 1 <= k <= |quickPrices| then quickPrices[k - 1] else 0
  }

  /** `currencyBody[`action${k}`] = price` for the four slots the form has. */
  function SetAction(row: FormRow, k: nat, price: int): (r: FormRow)
    ensures k == 1 ==> r == row.(action1 := price)
    ensures k == 2 ==> r == row.(action2 := price)
    ensures k == 3 ==> r == row.(action3 := price)
    ensures k == 4 ==> r == row.(action4 := price)
    ensures k == 0 || k > 4 ==> r == row
  {
    if k == 1 then row.(action1 := price)
    else if k == 2 then row.(action2 := price)
    else if k == 3 then row.(action3 := price)
    else if k == 4 then row.(action4 := price)
    else row
  }

  /** The row a currency loads into, at position `index`, once its first `j` quick prices are copied. */
  function PartialRow(e: Currency, index: nat, j: nat): FormRow
    requires j <= |e.quickPrices|
  {
    var p := e.quickPrices[..j];
    FormRow(e.currency, e.rate, e.marketRate, Slot(p, 1), Slot(p, 2), Slot(p, 3), Slot(p, 4), index == 0)
  }

  /** The form row for the currency at `index`: its quick prices fill the four slots, the rest are 0. */
  function RowOf(e: Currency, index: nat): (r: FormRow)
    ensures r.currency == e.currency && r.rate == e.rate && r.marketRate == e.marketRate
    ensures r.action1 == Slot(e.quickPrices, 1) && r.action2 == Slot(e.quickPrices, 2)
    ensures r.action3 == Slot(e.quickPrices, 3) && r.action4 == Slot(e.quickPrices, 4)
    ensures r.isDefault <==> index == 0
  {
    assert e.quickPrices[..|e.quickPrices|] == e.quickPrices;
    PartialRow(e, index, |e.quickPrices|)
  }

  /** The loading effect: one form row per currency, in order. `None` (nothing to load) leaves the form as it is. */
  method LoadRows(currencies: Option<seq<Currency>>) returns (rows: Option<seq<FormRow>>)
    ensures currencies.None? ==> rows.None?
    ensures currencies.Some? ==> rows.Some? && |rows.value| == |currencies.value|
    ensures currencies.Some? ==> forall i :: 0 <= i < |rows.value| ==> rows.value[i] == RowOf(currencies.value[i], i)
  {
    if currencies.None? {
      return None;
    }
    var cs := currencies.value;
    var formCurrencies: seq<FormRow> := [];
    for index := 0 to |cs|
      invariant |formCurrencies| == index
      invariant forall i :: 0 <= i < index ==> formCurrencies[i] == RowOf(cs[i], i)
    {
      var e := cs[index];
      var currencyBody := FormRow(e.currency, e.rate, e.marketRate, 0, 0, 0, 0, index == 0);
      for j := 0 to |e.quickPrices|
        invariant currencyBody == PartialRow(e, index, j)
      {
        assert e.quickPrices[..j + 1] == e.quickPrices[..j] + [e.quickPrices[j]];
        currencyBody := SetAction(currencyBody, j + 1, e.quickPrices[j]);
      }
      formCurrencies := formCurrencies + [currencyBody];
    }
    rows := Some(formCurrencies);
  }

  /** The currency a form row hands back at `index`. */
  function CurrencyOf(row: FormRow, index: nat): (r: Currency)
    ensures r.currency == row.currency && r.rate == row.rate && r.marketRate == row.marketRate
    ensures r.quickPrices == [row.action1, row.action2, row.action3, row.action4]
    ensures r.company == "" && r.currencyId == "" && r.eventId == ""
    ensures r.isDefault <==> index == 0
  {
    Currency(row.currency, row.rate, row.marketRate, [row.action1, row.action2, row.action3, row.action4], "", "", "", index == 0)
  }

  /** `getValues`: one currency per form row, same length and order. */
  method GetValues(rows: seq<FormRow>) returns (submitCurrencies: seq<Currency>)
    ensures |submitCurrencies| == |rows|
    ensures forall i :: 0 <= i < |rows| ==> submitCurrencies[i] == CurrencyOf(rows[i], i)
    ensures forall i :: 0 <= i < |rows| ==> (submitCurrencies[i].isDefault <==> i == 0)
  {
    submitCurrencies := [];
    for index := 0 to |rows|
      invariant |submitCurrencies| == index
      invariant forall i :: 0 <= i < index ==> submitCurrencies[i] == CurrencyOf(rows[i], i)
    {
      submitCurrencies := submitCurrencies + [CurrencyOf(rows[index], index)];
    }
  }

  /** The first four quick prices, padded with zeros. */
  function Padded(quickPrices: seq<int>): (r: seq<int>)
    ensures |r| == 4
    ensures forall k :: 0 <= k < 4 ==> r[k] == if k < |quickPrices| then quickPrices[k] else 0
  {
    [Slot(quickPrices, 1), Slot(quickPrices, 2), Slot(quickPrices, 3), Slot(quickPrices, 4)]
  }

  /**
    * Loading a currency and handing it back keeps its name and rates, pads
    * its quick prices to four (a currency with exactly four comes back
    * unchanged in them), clears company, id and event, and makes only the
    * first currency the default.
    */
  lemma LoadThenGetValues(e: Currency, index: nat)
    ensures var c := CurrencyOf(RowOf(e, index), index);
      c.currency == e.currency && c.rate == e.rate && c.marketRate == e.marketRate
      && c.quickPrices == Padded(e.quickPrices)
      && (|e.quickPrices| == 4 ==> c.quickPrices == e.quickPrices)
      && (c.isDefault <==> index == 0)
  {
  }

  function Names(rows: seq<FormRow>): (r: seq<string>)
    ensures |r| == |rows|
    ensures forall i :: 0 <= i < |rows| ==> r[i] == rows[i].currency
  {
    if rows == [] then [] else [rows[0].currency] + Names(rows[1..])
  }

  /** `isValid()`: false when fewer distinct names than rows, otherwise the form's own validity. */
  function IsValid(rows: seq<FormRow>, formValid: bool): (r: bool)
  {
    if |Elems(Names(rows))| < |rows| then false else formValid
  }

  /** The step is valid exactly when the form is and no two rows share a name. */
  lemma IsValidIffNamesDistinct(rows: seq<FormRow>, formValid: bool)
    ensures IsValid(rows, formValid) <==>
      formValid && forall i, j :: 0 <= i < j < |rows| ==> rows[i].currency != rows[j].currency
  {
    ElemsCard(Names(rows));
    var names := Names(rows);
    if NoRepeats(names) {
      forall i, j | 0 <= i < j < |rows| ensures rows[i].currency != rows[j].currency {
        assert names[i] != names[j];
      }
    }
  }
}

=== FILE: event_form.dfy ===
/**
  * The event form: a two-step dialog (event information, then currencies).
  * The last step turns the event and the currency rows into the records
  * sent to the API, editing the event when it already has an id and
  * creating it otherwise.
  */
module EventForm {
  import opened Js
  import opened Lists
  import opened EventCurrenciesInfo

  datatype Step = Info | Currencies

  /** What the view of the current step hands back: event fields or currencies. */
  datatype Output = EventOut(values: Record) | CurrenciesOut(currencies: seq<Currency>)

  /** The child view of the current step: its `isValid()` answer and its getter's value. */
  datatype View = View(valid: bool, output: Output)

  /** The event and currencies the form saves; `edit` tells an edit from a create. */
  datatype Request = SaveEvent(edit: bool, event: Record, currencies: seq<Currency>)

  datatype FormState = FormState(step: Step, event: Record, currencies: seq<Currency>, eventId: string)

  /** The rendered view is always the one of the current step. */
  predicate Shows(step: Step, out: Output)
  {
    if step == Info then out.EventOut? else out.CurrenciesOut?
  }

  const EmptyEvent: Record := map["eventStatus" := Str("inactive")]

  const EmptyCurrency: Currency := Currency("", 0, 0, [0, 0, 0, 0], "", "", "", false)

  /** `s || ""` on an optional string field. */
  function StrOr(r: Record, k: string, otherwise: string): (t: string)
    ensures StrOf(r, k).Some? && StrOf(r, k).value != "" ==> t == StrOf(r, k).value
    ensures StrOf(r, k).None? || StrOf(r, k).value == "" ==> t == otherwise
  {
    OrElse(StrOf(r, k), Some(otherwise)).value
  }

  /** The numeric fields of an event, passed through `Number(...)`. */
  const NumericFields: set<string> := {"cardPrice", "ticketPrice", "tagPrice", "activationMinimum"}

  /** The numeric fields of the event that hold a number. */
  function Numbers(event: Record): (r: Record)
    ensures forall k :: k in r <==> k in NumericFields && NumOf(event, k).Some?
    ensures forall k :: k in r ==> r[k] == Num(NumOf(event, k).value)
  {
    map k | k in NumericFields && NumOf(event, k).Some? :: Num(NumOf(event, k).value)
  }

  /** The text fields of the event record sent to the API. */
  function TextFields(event: Record, eventId: string, now: string): (r: Record)
    ensures r.Keys == {"eventId", "eventName", "startDate", "eventDescription"}
    ensures r["eventId"] == Str(eventId)
    ensures r["eventName"] == Str(StrOr(event, "eventName", ""))
    ensures r["startDate"] == Str(StrOr(event, "startDate", now))
    ensures r["eventDescription"] == Str(StrOr(event, "eventDescription", ""))
  {
    map["eventId" := Str(eventId), "eventName" := Str(StrOr(event, "eventName", "")),
        "startDate" := Str(StrOr(event, "startDate", now)),
        "eventDescription" := Str(StrOr(event, "eventDescription", ""))]
  }

  /** The event record sent to the API; `now` is the current time, used when no start date was given. */
  function NormalizedEvent(event: Record, eventId: string, now: string): (r: Record)
    ensures r.Keys == {"eventId", "eventName", "startDate", "eventDescription"} + Numbers(event).Keys
    ensures r["eventId"] == Str(eventId)
    ensures r["eventName"] == Str(StrOr(event, "eventName", ""))
    ensures r["startDate"] == Str(StrOr(event, "startDate", now))
    ensures r["eventDescription"] == Str(StrOr(event, "eventDescription", ""))
    ensures forall k :: k in NumericFields ==> (k in r <==> NumOf(event, k).Some?) && (k in r ==> r[k] == Num(NumOf(event, k).value))
  {
    var text, nums := TextFields(event, eventId, now), Numbers(event);
    assert text.Keys !! NumericFields;
    text + nums
  }

  /** `quickPrices.map(Number).filter(Boolean)`: the non-zero prices, in order. */
  function NonZero(quickPrices: seq<int>): (r: seq<int>)
    ensures 0 !in r
    ensures forall p :: p != 0 ==> (p in r <==> p in quickPrices)
  {
    Filter(quickPrices, (p: int) => p != 0)
  }

  /** Quick prices without a zero are kept as they are. */
  lemma NonZeroKeepsPrices(quickPrices: seq<int>)
    requires 0 !in quickPrices
    ensures NonZero(quickPrices) == quickPrices
  {
    FilterKeepsAll(quickPrices, (p: int) => p != 0);
  }

  /** The id a currency row keeps: the original currency's at the same position, and only when editing. */
  function KeptId(index: nat, editing: bool, original: Option<seq<Currency>>): (r: string)
    ensures !editing ==> r == ""
    ensures editing && original.Some? && index < |original.value| ==> r == original.value[index].currencyId
    ensures editing && (original.None? || index >= |original.value|) ==> r == ""
  {
    if !editing then ""
    else if original.Some? && index < |original.value| then original.value[index].currencyId
    else ""
  }

  /** The currency sent to the API for the form currency at `index`. */
  function NormalizedCurrency(c: Currency, index: nat, company: string, eventId: string, editing: bool, original: Option<seq<Currency>>): (r: Currency)
    ensures r.currency == c.currency && r.rate == c.rate && r.marketRate == c.marketRate
    ensures r.company == company && r.eventId == eventId
    ensures r.currencyId == KeptId(index, editing, original)
    ensures r.quickPrices == NonZero(c.quickPrices)
    ensures r.isDefault <==> index == 0
  {
    Currency(c.currency, c.rate, c.marketRate, NonZero(c.quickPrices), company, KeptId(index, editing, original), eventId, index == 0)
  }

  /** The normalisation loop: one currency per form currency, in order. */
  method NormalizeCurrencies(formCurrencies: seq<Currency>, company: string, eventId: string, editing: bool, original: Option<seq<Currency>>)
    returns (normalizedCurrencies: seq<Currency>)
    ensures |normalizedCurrencies| == |formCurrencies|
    ensures forall i :: 0 <= i < |formCurrencies| ==>
              normalizedCurrencies[i] == NormalizedCurrency(formCurrencies[i], i, company, eventId, editing, original)
  {
    normalizedCurrencies := [];
    for index := 0 to |formCurrencies|
      invariant |normalizedCurrencies| == index
      invariant forall i :: 0 <= i < index ==>
                  normalizedCurrencies[i] == NormalizedCurrency(formCurrencies[i], i, company, eventId, editing, original)
    {
      var currency := formCurrencies[index];
      normalizedCurrencies := normalizedCurrencies + [NormalizedCurrency(currency, index, company, eventId, editing, original)];
    }
  }

  function Normalized(formCurrencies: seq<Currency>, company: string, eventId: string, editing: bool, original: Option<seq<Currency>>): (r: seq<Currency>)
    ensures |r| == |formCurrencies|
    ensures forall i :: 0 <= i < |r| ==> r[i] == NormalizedCurrency(formCurrencies[i], i, company, eventId, editing, original)
  {
    seq(|formCurrencies|, i requires 0 <= i < |formCurrencies| => NormalizedCurrency(formCurrencies[i], i, company, eventId, editing, original))
  }

  /** Exactly the first normalised currency is the default one. */
  lemma OnlyFirstIsDefault(formCurrencies: seq<Currency>, company: string, eventId: string, editing: bool, original: Option<seq<Currency>>)
    requires formCurrencies != []
    ensures var r := Normalized(formCurrencies, company, eventId, editing, original);
      r[0].isDefault && forall i :: 0 < i < |r| ==> !r[i].isDefault
  {
  }

  /** The state after a click on the tab of `target`. */
  function AfterClick(s: FormState, target: Step, view: View): (r: FormState)
    requires Shows(s.step, view.output)
    ensures target == s.step || !view.valid ==> r == s
    ensures target != s.step && view.valid && s.step == Info ==> r == s.(event := Merge(s.event, view.output.values), step := Currencies)
    ensures target != s.step && view.valid && s.step == Currencies ==> r == s.(currencies := view.output.currencies, step := Info)
  {
    if target == s.step || !view.valid then s
    else match view.output
      case EventOut(values) => s.(event := Merge(s.event, values), step := target)
      case CurrenciesOut(cs) => s.(currencies := cs, step := target)
  }

  /**
    * The state and request after the current step's view submits. On a
    * create, `createdId` is the id the server answers with, which the form
    * keeps as its event id; the records sent still carry the id held before.
    */
  function AfterSubmit(s: FormState, editing: bool, original: Option<seq<Currency>>, view: View, now: string, createdId: string): (r: (FormState, Option<Request>))
    requires Shows(s.step, view.output)
    ensures !view.valid ==> r == (s, None)
    ensures r.1.Some? <==> view.valid && s.step == Currencies
    ensures r.0.eventId == if r.1.Some? && !editing then createdId else s.eventId
    ensures view.valid && s.step == Info ==>
      r.0 == s.(event := Merge(s.event, view.output.values), step := Currencies)
    ensures r.1.Some? ==>
      r.0 == s.(currencies := view.output.currencies, eventId := r.0.eventId)
      && r.1.value == SaveEvent(editing, NormalizedEvent(s.event, s.eventId, now),
                                Normalized(view.output.currencies, StrOr(s.event, "company", ""), s.eventId, editing, original))
  {
    if !view.valid then (s, None)
    else match view.output
      case EventOut(values) => (s.(event := Merge(s.event, values), step := Currencies), None)
      case CurrenciesOut(cs) =>
        (s.(currencies := cs, eventId := if editing then s.eventId else createdId),
         Some(SaveEvent(editing, NormalizedEvent(s.event, s.eventId, now),
                        Normalized(cs, StrOr(s.event, "company", ""), s.eventId, editing, original))))
  }

  /** The event form's state, updated in place by its handlers. */
  class Form {
    const editing: bool
    const original: Option<seq<Currency>>
    var step: Step
    var event: Record
    var currencies: seq<Currency>
    var eventId: string

    function State(): FormState
      reads this
    {
      FormState(step, event, currencies, eventId)
    }

    /** The form opened on an event (or none) and its currencies (or none). */
    constructor(ev: Option<Record>, cs: Option<seq<Currency>>)
      ensures editing <==> ev.Some? && StrOf(ev.value, "eventId").Some? && StrOf(ev.value, "eventId").value != ""
      ensures original == cs
      ensures step == Info
      ensures event == if ev.Some? then ev.value else EmptyEvent
      ensures currencies == if cs.Some? then cs.value else [EmptyCurrency]
      ensures eventId == if ev.Some? then StrOr(ev.value, "eventId", "") else ""
    {
      editing := ev.Some? && StrOr(ev.value, "eventId", "") != "";
      original := cs;
      step := Info;
      event := if ev.Some? then ev.value else EmptyEvent;
      currencies := if cs.Some? then cs.value else [EmptyCurrency];
      eventId := if ev.Some? then StrOr(ev.value, "eventId", "") else "";
    }

    method ClickTab(target: Step, view: View)
      requires Shows(step, view.output)
      modifies this
      ensures State() == AfterClick(old(State()), target, view)
    {
      if target == step || !view.valid {
        return;
      }
      match view.output {
        case EventOut(values) =>
          event := Merge(event, values);
        case CurrenciesOut(cs) =>
          currencies := cs;
      }
      step := target;
    }

    /** `onSubmit`: move to the currencies step, or build the records to save. */
    method Submit(view: View, now: string, createdId: string) returns (request: Option<Request>)
      requires Shows(step, view.output)
      modifies this
      ensures (State(), request) == AfterSubmit(old(State()), editing, original, view, now, createdId)
    {
      if !view.valid {
        return None;
      }
      match view.output
      case EventOut(values) =>
        event := Merge(event, values);
        step := Currencies;
        request := None;
      case CurrenciesOut(formCurrencies) =>
        currencies := formCurrencies;
        var normalizedEvent := NormalizedEvent(event, eventId, now);
        var normalizedCurrencies := NormalizeCurrencies(formCurrencies, StrOr(event, "company", ""), eventId, editing, original);
        assert normalizedCurrencies == Normalized(formCurrencies, StrOr(event, "company", ""), eventId, editing, original);
        request := Some(SaveEvent(editing, normalizedEvent, normalizedCurrencies));
        if !editing {
          eventId := createdId;
        }
    }

    /** `closeDialog`: the next opening starts from the information step. */
    method CloseDialog()
      modifies this
      ensures State() == old(State()).(step := Info)
    {
      step := Info;
    }
  }

  /**
    * Two valid submits from the first step save the event with the
    * information of step one and the currencies of step two, normalised;
    * the save is an edit exactly when the form was opened on an event with
    * an id.
    */
  lemma TwoStepSave(s: FormState, editing: bool, original: Option<seq<Currency>>, values: Record, cs: seq<Currency>, now: string, createdId: string)
    requires s.step == Info
    ensures var (s1, r1) := AfterSubmit(s, editing, original, View(true, EventOut(values)), now, createdId);
      var (s2, r2) := AfterSubmit(s1, editing, original, View(true, CurrenciesOut(cs)), now, createdId);
      r1.None? && s1.step == Currencies && r2.Some?
      && r2.value.edit == editing
      && r2.value.event == NormalizedEvent(Merge(s.event, values), s.eventId, now)
      && s2.eventId == (if editing then s.eventId else createdId)
      && |r2.value.currencies| == |cs|
      && (forall i :: 0 <= i < |cs| ==>
            r2.value.currencies[i].currency == cs[i].currency && (r2.value.currencies[i].isDefault <==> i == 0))
  {
    var (s1, r1) := AfterSubmit(s, editing, original, View(true, EventOut(values)), now, createdId);
    assert s1 == s.(event := Merge(s.event, values), step := Currencies);
  }

  /** An invalid step never moves and never saves. */
  lemma InvalidStepBlocks(s: FormState, editing: bool, original: Option<seq<Currency>>, out: Output, target: Step, now: string, createdId: string)
    requires Shows(s.step, out)
    ensures AfterSubmit(s, editing, original, View(false, out), now, createdId) == (s, None)
    ensures AfterClick(s, target, View(false, out)) == s
  {
  }
}

=== FILE: event_tabs_provider.dfy ===
/**
  * The event page's tab frame: the selected tab is the last component of
  * the path, and a path that names no tab (it ends with "/" or with the
  * event id) is redirected to the event's overview tab.
  */
module EventTabsProvider {
  import opened Js

  /** `pathname.split("/").at(-1)`: the text after the last "/", or the whole path when it has none. */
  function LastComponent(path: string): (r: string)
    ensures '/' !in r
    ensures |r| <= |path| && path[|path| - |r|..] == r
    ensures |r| < |path| ==> path[|path| - |r| - 1] == '/'
    decreases |path|
  {
    if path == [] then []
    else if path[|path| - 1] == '/' then []
    else
      var init := path[..|path| - 1];
      var rest := LastComponent(init);
      assert path[|path| - |rest| - 1..] == init[|init| - |rest|..] + [path[|path| - 1]];
      assert |rest| < |init| ==> path[|path| - |rest| - 2] == init[|init| - |rest| - 1];
      rest + [path[|path| - 1]]
  }

  /** Whatever precedes the last "/" does not matter. */
  lemma {:induction false} LastComponentOfJoin(prefix: string, c: string)
    requires '/' !in c
    ensures LastComponent(prefix + "/" + c) == c
    decreases |c|
  {
    var p := prefix + "/" + c;
    if c == [] {
      assert p[|p| - 1] == '/';
    } else {
      var c' := c[..|c| - 1];
      LastComponentOfJoin(prefix, c');
      assert p[..|p| - 1] == prefix + "/" + c';
      assert p[|p| - 1] == c[|c| - 1];
      assert c' + [c[|c| - 1]] == c;
    }
  }

  /** `params?.eventId || ""`. */
  function EventIdOf(param: Option<string>): (r: string)
    ensures Truthy(OptStr(param)) ==> r == param.value
    ensures !Truthy(OptStr(param)) ==> r == ""
  {
    match OrElse(param, Some(""))
    case Some(e) => e
    case None => ""
  }

  /** `selectedTab`: the last path component, unless it is empty or the event id, then "overview". */
  function SelectedTab(pathname: string, eventId: string): (tab: string)
    ensures LastComponent(pathname) != eventId && LastComponent(pathname) != "" ==> tab == LastComponent(pathname)
    ensures LastComponent(pathname) == eventId || LastComponent(pathname) == "" ==> tab == "overview"
  {
    var last := LastComponent(pathname);
    if last != eventId && last != "" then last else "overview"
  }

  /** The `<Navigate>` target rendered in place of the tabs, if any. */
  function Redirect(pathname: string, eventId: string): (r: Option<string>)
    ensures r.Some? <==> LastComponent(pathname) == "" || LastComponent(pathname) == eventId
    ensures r.Some? ==> r.value == "/events/" + eventId + "/overview"
  {
    var last := LastComponent(pathname);
    if last == "" || last == eventId then Some("/events/" + eventId + "/overview") else None
  }

  /** Whenever the tabs are shown, the selected tab is the last path component. */
  lemma ShownTabIsLastComponent(pathname: string, eventId: string)
    ensures Redirect(pathname, eventId).None? ==> SelectedTab(pathname, eventId) == LastComponent(pathname)
    ensures Redirect(pathname, eventId).Some? ==> SelectedTab(pathname, eventId) == "overview"
  {
  }

  /** Following the redirect lands on the overview tab with no further redirect, for any event id other than "overview". */
  lemma RedirectSettles(pathname: string, eventId: string)
    requires Redirect(pathname, eventId).Some?
    requires eventId != "overview"
    ensures Redirect(Redirect(pathname, eventId).value, eventId).None?
    ensures SelectedTab(Redirect(pathname, eventId).value, eventId) == "overview"
  {
    LastComponentOfJoin("/events/" + eventId, "overview");
    assert "/events/" + eventId + "/overview" == ("/events/" + eventId) + "/" + "overview";
    assert LastComponent("/events/" + eventId + "/overview") == "overview";
  }

  /** A path of the form `/events/{eventId}/{tab}` selects `tab`. */
  lemma TabFromPath(eventId: string, tab: string)
    requires '/' !in tab && tab != "" && tab != eventId
    ensures Redirect("/events/" + eventId + "/" + tab, eventId).None?
    ensures SelectedTab("/events/" + eventId + "/" + tab, eventId) == tab
  {
    LastComponentOfJoin("/events/" + eventId, tab);
  }
}

=== FILE: events_api.dfy ===
/**
  * The events hook: the shape of a created event, and the cache updaters
  * run after a status change, a create, an edit or a delete. A delete also
  * forgets every cached query that belongs to the event.
  */
module EventsApi {
  import opened Js
  import opened Lists
  import opened Cache

  /** `post`'s result: the request data, inactive, with the id the server gave it. */
  function Posted(eventData: Record, eventId: string): (r: Record)
    ensures r.Keys == eventData.Keys + {"eventStatus", "eventId"}
    ensures r["eventStatus"] == Str("inactive") && r["eventId"] == Str(eventId)
    ensures forall k :: k in eventData && k !in {"eventStatus", "eventId"} ==> r[k] == eventData[k]
  {
    Merge(eventData, map["eventStatus" := Str("inactive"), "eventId" := Str(eventId)])
  }

  /** `create.onSuccess`: the request spread with the response is put first. */
  function OnCreateSuccess(events: Option<seq<Record>>, variables: Record, response: Record): (r: seq<Record>)
    ensures |r| == |RowsOf(events)| + 1 && r[1..] == RowsOf(events)
    ensures r[0].Keys == variables.Keys + response.Keys
    ensures forall k :: k in response ==> r[0][k] == response[k]
    ensures forall k :: k in variables && k !in response ==> r[0][k] == variables[k]
  {
    Prepended(events, Merge(variables, response))
  }

  /** The event an update targets: `variables.eventId || param.eventId`. */
  function UpdateTarget(variables: Record, paramEventId: Option<string>): (id: Option<string>)
    ensures Truthy(OptStr(StrOf(variables, "eventId"))) ==> id == StrOf(variables, "eventId")
    ensures !Truthy(OptStr(StrOf(variables, "eventId"))) ==> id == paramEventId
  {
    OrElse(StrOf(variables, "eventId"), paramEventId)
  }

  /** The two caches an update touches: the events list and the single event under `["events", eventId]`. */
  datatype EventCaches = EventCaches(list: Option<seq<Record>>, single: Option<Record>)

  /**
    * `changeEventStatus.onSuccess`: with no resolvable id nothing changes;
    * otherwise the first listed event with that id takes the new fields, and
    * so does the single-event cache if it holds anything.
    */
  function OnChangeStatusSuccess(caches: EventCaches, variables: Record, paramEventId: Option<string>): (r: EventCaches)
    ensures !Truthy(OptStr(UpdateTarget(variables, paramEventId))) ==> r == caches
    ensures Truthy(OptStr(UpdateTarget(variables, paramEventId))) ==>
      r.list == UpdateFirst(caches.list, "eventId", OptStr(UpdateTarget(variables, paramEventId)), variables)
    ensures caches.single.None? ==> r.single.None?
    ensures Truthy(OptStr(UpdateTarget(variables, paramEventId))) && caches.single.Some? ==>
      r.single == Some(Merge(caches.single.value, variables))
  {
    var eventId := UpdateTarget(variables, paramEventId);
    if eventId.None? || eventId.value == "" then caches
    else
      var list := UpdateFirst(caches.list, "eventId", Some(Str(eventId.value)), variables);
      var single := match caches.single
        case None => None
        case Some(e) => Some(Merge(e, variables));
      EventCaches(list, single)
  }

  /** `edit.onSuccess` runs the same two updaters as a status change, with the edited fields. */
  function OnEditSuccess(caches: EventCaches, variables: Record, paramEventId: Option<string>): (r: EventCaches)
    ensures !Truthy(OptStr(UpdateTarget(variables, paramEventId))) ==> r == caches
    ensures r.list.Some? ==> |r.list.value| == |RowsOf(caches.list)|
    ensures caches.single.None? ==> r.single.None?
    ensures Truthy(OptStr(UpdateTarget(variables, paramEventId))) && caches.single.Some? ==>
      r.single.Some? && r.single.value.Keys >= variables.Keys && forall k :: k in variables ==> r.single.value[k] == variables[k]
    ensures Truthy(OptStr(UpdateTarget(variables, paramEventId))) ==>
      r.list == UpdateFirst(caches.list, "eventId", OptStr(UpdateTarget(variables, paramEventId)), variables)
    ensures Truthy(OptStr(UpdateTarget(variables, paramEventId))) && caches.single.Some? ==>
      r.single == Some(Merge(caches.single.value, variables))
    ensures r == OnChangeStatusSuccess(caches, variables, paramEventId)
  {
    OnChangeStatusSuccess(caches, variables, paramEventId)
  }

  /** The query keys a delete forgets, in the order it forgets them. */
  function DroppedPrefixes(eventId: string): (r: seq<QueryKey>)
    ensures |r| == 9
    ensures forall p :: p in r ==> |p| == 2 && p[1] == eventId
  {
    [["events", eventId], ["currencies", eventId], ["analytics", eventId], ["staff", eventId], ["menu", eventId],
     ["stands", eventId], ["balances", eventId], ["topUps", eventId], ["transactions", eventId]]
  }

  /** Whether a cached query survives `removeQueries` for every dropped key. */
  predicate Kept(prefixes: seq<QueryKey>, e: Entry)
  {
    forall p :: p in prefixes ==> !KeyMatches(p, e.key)
  }

  /** `remove.onSuccess`: with no `eventId` nothing changes; otherwise the event leaves the list and its queries are forgotten. */
  function OnRemoveSuccess(list: Option<seq<Record>>, queries: seq<Entry>, eventId: Option<string>): (r: (Option<seq<Record>>, seq<Entry>))
    ensures eventId.None? || eventId.value == "" ==> r == (list, queries)
    ensures eventId.Some? && eventId.value != "" ==>
      r.0 == Some(Without(RowsOf(list), "eventId", Some(Str(eventId.value))))
      && forall e :: e in r.1 <==> e in queries && Kept(DroppedPrefixes(eventId.value), e)
  {
    if eventId.None? || eventId.value == "" then (list, queries)
    else
      var prefixes := DroppedPrefixes(eventId.value);
      (Some(Without(RowsOf(list), "eventId", Some(Str(eventId.value)))), Filter(queries, (e: Entry) => Kept(prefixes, e)))
  }

  /** The forgotten queries are exactly the event's own: the events list and other events' queries survive. */
  lemma RemoveKeepsOtherQueries(list: Option<seq<Record>>, queries: seq<Entry>, eventId: string, e: Entry)
    requires eventId != "" && e in queries
    requires |e.key| < 2 || e.key[1] != eventId
    ensures e in OnRemoveSuccess(list, queries, Some(eventId)).1
  {
    forall p | p in DroppedPrefixes(eventId)
      ensures !KeyMatches(p, e.key)
    {
      assert |p| == 2 && p[1] == eventId;
      assert |e.key| >= 2 ==> e.key[..2][1] == e.key[1];
    }
  }
}

=== FILE: filter_fields.dfy ===
/**
  * The field descriptions the filter panels of the data views are built
  * from: a caption, the name of the filtered field, an input or a select,
  * and, for a select, its options.
  */
module FilterFields {
  import opened Js
  import opened Lists

  /** One select option. */
  datatype SelectOption = SelectOption(caption: Option<Value>, value: Option<Value>)

  datatype FieldType = Input | Select

  /** One field of a filter panel; `options` is `undefined` for an input and may be for a select. */
  datatype Field = Field(caption: string, name: string, fieldType: FieldType, placeholder: Option<string>, options: Option<seq<SelectOption>>)

  /** The names of a panel's fields, in order. */
  function Names(fields: seq<Field>): (r: seq<string>)
    ensures |r| == |fields|
    ensures forall i :: 0 <= i < |fields| ==> r[i] == fields[i].name
  {
    seq(|fields|, i requires 0 <= i < |fields| => fields[i].name)
  }

  /** Whether a staff record has the given `userClass` (strict equality). */
  predicate OfClass(member: Record, userClass: int)
  {
    Get(member, "userClass") == Some(Num(userClass))
  }

  /** The option a staff member gives: labelled with the name, valued by `valueField`. */
  function MemberOption(member: Record, valueField: string): SelectOption
  {
    SelectOption(Get(member, "memberName"), Get(member, valueField))
  }

  /**
    * `staff.flatMap((e) => e.userClass === c ? {label: e.memberName, value: e[valueField]} : [])`:
    * one option per member of the class, in staff order.
    */
  function ClassOptions(staff: seq<Record>, userClass: int, valueField: string): (r: seq<SelectOption>)
    ensures |r| <= |staff|
    ensures forall o :: o in r ==> exists m :: m in staff && OfClass(m, userClass) && o == MemberOption(m, valueField)
    ensures forall m :: m in staff && OfClass(m, userClass) ==> MemberOption(m, valueField) in r
  {
    if staff == [] then []
    else
      var rest := ClassOptions(staff[1..], userClass, valueField);
      if OfClass(staff[0], userClass) then [MemberOption(staff[0], valueField)] + rest else rest
  }

  /** The options of a list of members, one per member, in order. */
  function MemberOptions(staff: seq<Record>, valueField: string): (r: seq<SelectOption>)
    ensures |r| == |staff|
    ensures forall i :: 0 <= i < |staff| ==> r[i] == MemberOption(staff[i], valueField)
  {
    seq(|staff|, i requires 0 <= i < |staff| => MemberOption(staff[i], valueField))
  }

  /** The class options are the options of the class's members, in staff order: filter, then map. */
  lemma {:induction false} ClassOptionsAreFiltered(staff: seq<Record>, userClass: int, valueField: string)
    ensures ClassOptions(staff, userClass, valueField) == MemberOptions(Filter(staff, (m: Record) => OfClass(m, userClass)), valueField)
  {
    if staff != [] {
      var keep := (m: Record) => OfClass(m, userClass);
      ClassOptionsAreFiltered(staff[1..], userClass, valueField);
      FilterCons(staff, keep);
      if OfClass(staff[0], userClass) {
        MemberOptionsCons(staff[0], Filter(staff[1..], keep), valueField);
      }
    }
  }

  lemma MemberOptionsCons(member: Record, rest: seq<Record>, valueField: string)
    ensures MemberOptions([member] + rest, valueField) == [MemberOption(member, valueField)] + MemberOptions(rest, valueField)
  {
    var l, r := MemberOptions([member] + rest, valueField), [MemberOption(member, valueField)] + MemberOptions(rest, valueField);
    assert forall i :: 0 <= i < |l| ==> l[i] == r[i] by {
      forall i | 0 <= i < |l| ensures l[i] == r[i] {
        if i > 0 { assert ([member] + rest)[i] == rest[i - 1]; }
      }
    }
  }

  /** Options whose label and value are both the given value, one per value, in order. */
  function SameOptions(values: seq<Option<Value>>): (r: seq<SelectOption>)
    ensures |r| == |values|
    ensures forall i :: 0 <= i < |values| ==> r[i] == SelectOption(values[i], values[i])
  {
    seq(|values|, i requires 0 <= i < |values| => SelectOption(values[i], values[i]))
  }

  /** The values the options submit, in order. */
  function OptionValues(options: seq<SelectOption>): (r: seq<Option<Value>>)
    ensures |r| == |options|
    ensures forall i :: 0 <= i < |options| ==> r[i] == options[i].value
  {
    seq(|options|, i requires 0 <= i < |options| => options[i].value)
  }

  /** The options built from some values submit exactly those values. */
  lemma SameOptionsValues(values: seq<Option<Value>>)
    ensures OptionValues(SameOptions(values)) == values
  {
    assert forall i :: 0 <= i < |values| ==> OptionValues(SameOptions(values))[i] == values[i];
  }

  /** The values of field `f` of each row, in order. */
  function FieldValues(rows: seq<Record>, f: string): (r: seq<Option<Value>>)
    ensures |r| == |rows|
    ensures forall i :: 0 <= i < |rows| ==> r[i] == Get(rows[i], f)
  {
    seq(|rows|, i requires 0 <= i < |rows| => Get(rows[i], f))
  }
}

=== FILE: filter_slice.dfy ===
/**
  * The store slice that keeps the active filter values of each view, keyed
  * by the view's filter key.
  */
module FilterSlice {
  import opened Js

  /** The map after `setFilter(key, f)`: the whole record for `key` is `f`, nothing is merged. */
  function WithFilter(m: map<string, Record>, key: string, f: Record): (r: map<string, Record>)
    ensures r.Keys == m.Keys + {key}
    ensures r[key] == f
    ensures forall k :: k in m && k != key ==> r[k] == m[k]
  {
    m[key := f]
  }

  /** A later `setFilter` on the same key discards the earlier record entirely. */
  lemma SetFilterOverwrites(m: map<string, Record>, key: string, f: Record, g: Record)
    ensures WithFilter(WithFilter(m, key, f), key, g) == WithFilter(m, key, g)
  {
    assert WithFilter(WithFilter(m, key, f), key, g).Keys == WithFilter(m, key, g).Keys;
  }

  /** Removing a key just set leaves the map as removing it would have. */
  lemma RemoveUndoesSetFilter(m: map<string, Record>, key: string, f: Record)
    ensures Omit(WithFilter(m, key, f), key) == Omit(m, key)
  {
    assert Omit(WithFilter(m, key, f), key).Keys == Omit(m, key).Keys;
  }

  class FilterStore {
    var filters: map<string, Record>

    /** No view starts with a filter. */
    constructor ()
      ensures filters == map[]
    {
      filters := map[];
    }

    method SetFilter(key: string, f: Record)
      modifies this
      ensures filters == WithFilter(old(filters), key, f)
    {
      filters := filters[key := f];
    }

    method RemoveFilter(key: string)
      modifies this
      ensures key !in old(filters) ==> filters == old(filters)
      ensures filters == Omit(old(filters), key)
    {
      if key !in filters {
        return;
      }
      filters := Omit(filters, key);
    }
  }
}

=== FILE: items_chart.dfy ===
/**
  * The items chart's `chartData`: the per-bartender analytics rows (one row
  * per bartender, one numeric field per item sold) are pivoted into one row
  * per item whose fields are the bartenders that sold it, each holding the
  * summed count, under the item's title-cased name.
  */
module ItemsChart {
  import opened Js
  import opened Lists
  import opened TitleCase

  /** One analytics row: the bartender and its numeric fields in key order (`total`, `totalSold` and the items). */
  datatype Analytic = Analytic(bartender: string, counts: seq<(string, int)>)

  /** The fields the destructuring `{bartender, total, totalSold, ...rest}` takes out. */
  const Excluded: set<string> := {"bartender", "total", "totalSold"}

  /** `rest`: the item fields of a row, in order. */
  function Rest(a: Analytic): (r: seq<(string, int)>)
    ensures forall p :: p in r <==> p in a.counts && p.0 !in Excluded
  {
    Filter(a.counts, (p: (string, int)) => p.0 !in Excluded)
  }

  /** The item names of a list of fields. */
  function Keys(counts: seq<(string, int)>): (r: seq<string>)
    ensures |r| == |counts|
    ensures forall i :: 0 <= i < |counts| ==> r[i] == counts[i].0
  {
    seq(|counts|, i requires 0 <= i < |counts| => counts[i].0)
  }

  /** `groupedItems`: item name to bartender to count. */
  type Grid = map<string, map<string, int>>

  /** A cell of the grid, 0 where it is missing. */
  function Cell(g: Grid, item: string, b: string): int
  {
    if item in g && b in g[item] then g[item][b] else 0
  }

  /** One step of the inner loop: create the item's row and the bartender's cell at 0 if missing, then add the count. */
  function AddEntry(g: Grid, b: string, item: string, count: int): (r: Grid)
    ensures r.Keys == g.Keys + {item}
    ensures r[item].Keys == (if item in g then g[item].Keys else {}) + {b}
    ensures forall k :: k in g && k != item ==> r[k] == g[k]
    ensures forall c :: c != b ==> Cell(r, item, c) == Cell(g, item, c)
    ensures Cell(r, item, b) == Cell(g, item, b) + count
  {
    var row := if item in g then g[item] else map[b := 0];
    var row' := if b in row then row else row[b := 0];
    g[item := row'[b := row'[b] + count]]
  }

  /** The grid after the inner loop has added the fields `counts` of bartender `b`. */
  function AddCounts(g: Grid, b: string, counts: seq<(string, int)>): Grid
    decreases |counts|
  {
    if counts == [] then g
    else
      var last := counts[|counts| - 1];
      AddEntry(AddCounts(g, b, counts[..|counts| - 1]), b, last.0, last.1)
  }

  /** The grid after the outer loop has gone through the rows `data`. */
  function Grouped(data: seq<Analytic>): (r: Grid)
    ensures forall item, c :: item in r && c in r[item] ==> c in Bartenders(data)
    decreases |data|
  {
    if data == [] then map[]
    else
      var init, last := data[..|data| - 1], data[|data| - 1];
      AddCountsColumns(Grouped(init), last.bartender, Rest(last));
      BartendersSnoc(data);
      AddCounts(Grouped(init), last.bartender, Rest(last))
  }

  /** The bartenders that have a row in `data`. */
  function Bartenders(data: seq<Analytic>): set<string>
  {
    set a | a in data :: a.bartender
  }

  lemma BartendersSnoc(data: seq<Analytic>)
    requires data != []
    ensures Bartenders(data) == Bartenders(data[..|data| - 1]) + {data[|data| - 1].bartender}
  {
    assert data == data[..|data| - 1] + [data[|data| - 1]];
  }

  /** The grid's keys in insertion order, after adding the names of `counts`. */
  function AddOrder(order: seq<string>, counts: seq<(string, int)>): seq<string>
    decreases |counts|
  {
    if counts == [] then order
    else
      var o := AddOrder(order, counts[..|counts| - 1]);
      var item := counts[|counts| - 1].0;
      if item in o then o else o + [item]
  }

  /** `Object.keys(groupedItems)`: every item name, in the order it was first met. */
  function ItemOrder(data: seq<Analytic>): (r: seq<string>)
    ensures NoRepeats(r)
    decreases |data|
  {
    if data == [] then []
    else
      var init, last := data[..|data| - 1], data[|data| - 1];
      AddOrderNoRepeats(ItemOrder(init), Rest(last));
      AddOrder(ItemOrder(init), Rest(last))
  }

  /** Adding names never repeats one. */
  lemma {:induction false} AddOrderNoRepeats(order: seq<string>, counts: seq<(string, int)>)
    requires NoRepeats(order)
    ensures NoRepeats(AddOrder(order, counts))
    decreases |counts|
  {
    if counts != [] {
      AddOrderNoRepeats(order, counts[..|counts| - 1]);
      var o := AddOrder(order, counts[..|counts| - 1]);
      var item := counts[|counts| - 1].0;
      if item !in o {
        forall i, j | 0 <= i < j < |o + [item]| ensures (o + [item])[i] != (o + [item])[j] {
          if j == |o| { assert (o + [item])[i] == o[i]; }
        }
      }
    }
  }

  /** The total count of `item` in a list of fields. */
  function CountOf(counts: seq<(string, int)>, item: string): int
    decreases |counts|
  {
    if counts == [] then 0
    else CountOf(counts[..|counts| - 1], item) + (if counts[|counts| - 1].0 == item then counts[|counts| - 1].1 else 0)
  }

  /** The sum of the counts of `item` over every row of bartender `b`. */
  function SumFor(data: seq<Analytic>, b: string, item: string): int
    decreases |data|
  {
    if data == [] then 0
    else
      var last := data[|data| - 1];
      SumFor(data[..|data| - 1], b, item) + (if last.bartender == b then CountOf(Rest(last), item) else 0)
  }

  /** Whether some row of bartender `b` has a field for `item`. */
  predicate Reported(data: seq<Analytic>, b: string, item: string)
  {
    exists a :: a in data && a.bartender == b && item in Keys(Rest(a))
  }

  /** Whether some row has a field for `item`. */
  predicate Sold(data: seq<Analytic>, item: string)
  {
    exists a :: a in data && item in Keys(Rest(a))
  }

  lemma KeysSnoc(counts: seq<(string, int)>)
    requires counts != []
    ensures Keys(counts) == Keys(counts[..|counts| - 1]) + [counts[|counts| - 1].0]
  {
  }

  /** The inner loop adds the fields of one bartender: new items get a row, the bartender's cells gain the counts, nothing else changes. */
  lemma AddCountsEffect(g: Grid, b: string, counts: seq<(string, int)>, item: string, c: string)
    ensures item in AddCounts(g, b, counts) <==> item in g || item in Keys(counts)
    ensures item in AddCounts(g, b, counts) ==>
      (c in AddCounts(g, b, counts)[item] <==> (item in g && c in g[item]) || (c == b && item in Keys(counts)))
    ensures Cell(AddCounts(g, b, counts), item, c) == Cell(g, item, c) + (if c == b then CountOf(counts, item) else 0)
  {
    AddCountsItems(g, b, counts, item);
    AddCountsRow(g, b, counts, item, c);
    AddCountsCell(g, b, counts, item, c);
  }

  lemma {:induction false} AddCountsItems(g: Grid, b: string, counts: seq<(string, int)>, item: string)
    ensures item in AddCounts(g, b, counts) <==> item in g || item in Keys(counts)
    decreases |counts|
  {
    if counts != [] {
      var init := counts[..|counts| - 1];
      AddCountsItems(g, b, init, item);
      KeysSnoc(counts);
    }
  }

  /** The inner loop adds no bartender but `b` to any row. */
  lemma AddCountsColumns(g: Grid, b: string, counts: seq<(string, int)>)
    ensures forall item, c :: item in AddCounts(g, b, counts) && c in AddCounts(g, b, counts)[item] ==>
              (item in g && c in g[item]) || c == b
  {
    forall item, c | item in AddCounts(g, b, counts) && c in AddCounts(g, b, counts)[item]
      ensures (item in g && c in g[item]) || c == b
    {
      AddCountsRow(g, b, counts, item, c);
    }
  }

  lemma {:induction false} AddCountsRow(g: Grid, b: string, counts: seq<(string, int)>, item: string, c: string)
    ensures item in AddCounts(g, b, counts) ==>
      (c in AddCounts(g, b, counts)[item] <==> (item in g && c in g[item]) || (c == b && item in Keys(counts)))
    decreases |counts|
  {
    if counts != [] {
      var init := counts[..|counts| - 1];
      AddCountsRow(g, b, init, item, c);
      AddCountsItems(g, b, init, item);
      KeysSnoc(counts);
    }
  }

  lemma {:induction false} AddCountsCell(g: Grid, b: string, counts: seq<(string, int)>, item: string, c: string)
    ensures Cell(AddCounts(g, b, counts), item, c) == Cell(g, item, c) + (if c == b then CountOf(counts, item) else 0)
    decreases |counts|
  {
    if counts != [] {
      AddCountsCell(g, b, counts[..|counts| - 1], item, c);
    }
  }

  /** What one more row adds to `Sold`. */
  lemma SoldSnoc(data: seq<Analytic>, item: string)
    requires data != []
    ensures Sold(data, item) <==> Sold(data[..|data| - 1], item) || item in Keys(Rest(data[|data| - 1]))
  {
    var init, last := data[..|data| - 1], data[|data| - 1];
    assert data == init + [last];
    if Sold(data, item) && item !in Keys(Rest(last)) {
      var a :| a in data && item in Keys(Rest(a));
      assert a in init;
    }
    if Sold(init, item) {
      var a :| a in init && item in Keys(Rest(a));
      assert a in data;
    }
  }

  /** What one more row adds to `Reported`. */
  lemma ReportedSnoc(data: seq<Analytic>, item: string, b: string)
    requires data != []
    ensures Reported(data, b, item) <==>
      Reported(data[..|data| - 1], b, item) || (data[|data| - 1].bartender == b && item in Keys(Rest(data[|data| - 1])))
  {
    var init, last := data[..|data| - 1], data[|data| - 1];
    assert data == init + [last];
    if Reported(data, b, item) && !(last.bartender == b && item in Keys(Rest(last))) {
      var a :| a in data && a.bartender == b && item in Keys(Rest(a));
      assert a in init;
    }
    if Reported(init, b, item) {
      var a :| a in init && a.bartender == b && item in Keys(Rest(a));
      assert a in data;
    }
  }

  lemma ReportedSold(data: seq<Analytic>, item: string, b: string)
    ensures Reported(data, b, item) ==> Sold(data, item)
  {
    if Reported(data, b, item) {
      var a :| a in data && a.bartender == b && item in Keys(Rest(a));
    }
  }

  /** Each cell is the sum over the bartender's rows, and a row holds exactly the bartenders that reported the item. */
  lemma GroupedCells(data: seq<Analytic>, item: string, b: string)
    ensures item in Grouped(data) <==> Sold(data, item)
    ensures item in Grouped(data) ==> (b in Grouped(data)[item] <==> Reported(data, b, item))
    ensures Cell(Grouped(data), item, b) == SumFor(data, b, item)
  {
    GroupedItems(data, item);
    GroupedRow(data, item, b);
    GroupedCell(data, item, b);
  }

  lemma {:induction false} GroupedItems(data: seq<Analytic>, item: string)
    ensures item in Grouped(data) <==> Sold(data, item)
    decreases |data|
  {
    if data != [] {
      var init, last := data[..|data| - 1], data[|data| - 1];
      GroupedItems(init, item);
      AddCountsItems(Grouped(init), last.bartender, Rest(last), item);
      SoldSnoc(data, item);
    }
  }

  lemma {:induction false} GroupedRow(data: seq<Analytic>, item: string, b: string)
    ensures item in Grouped(data) ==> (b in Grouped(data)[item] <==> Reported(data, b, item))
    decreases |data|
  {
    if data != [] {
      var init, last := data[..|data| - 1], data[|data| - 1];
      GroupedRow(init, item, b);
      GroupedItems(init, item);
      ReportedSold(init, item, b);
      AddCountsRow(Grouped(init), last.bartender, Rest(last), item, b);
      ReportedSnoc(data, item, b);
    }
  }

  lemma {:induction false} GroupedCell(data: seq<Analytic>, item: string, b: string)
    ensures Cell(Grouped(data), item, b) == SumFor(data, b, item)
    decreases |data|
  {
    if data != [] {
      var init, last := data[..|data| - 1], data[|data| - 1];
      GroupedCell(init, item, b);
      AddCountsCell(Grouped(init), last.bartender, Rest(last), item, b);
    }
  }

  /** Adding names keeps the order free of repeats and in step with the grid's keys. */
  lemma {:induction false} AddOrderKeys(order: seq<string>, g: Grid, b: string, counts: seq<(string, int)>)
    requires forall k :: k in order <==> k in g
    ensures forall k :: k in AddOrder(order, counts) <==> k in AddCounts(g, b, counts)
    decreases |counts|
  {
    if counts != [] {
      var init := counts[..|counts| - 1];
      AddOrderKeys(order, g, b, init);
    }
  }

  /** The chart has one row per distinct item name: the order has no repeats and lists exactly the grid's items. */
  lemma {:induction false} ItemOrderKeys(data: seq<Analytic>)
    ensures NoRepeats(ItemOrder(data))
    ensures forall k :: k in ItemOrder(data) <==> k in Grouped(data)
    decreases |data|
  {
    if data != [] {
      var init := data[..|data| - 1];
      var last := data[|data| - 1];
      ItemOrderKeys(init);
      AddOrderKeys(ItemOrder(init), Grouped(init), last.bartender, Rest(last));
    }
  }

  lemma AddOrderStep(order: seq<string>, counts: seq<(string, int)>, j: nat)
    requires j < |counts|
    ensures AddOrder(order, counts[..j + 1]) ==
      var o := AddOrder(order, counts[..j]);
      if counts[j].0 in o then o else o + [counts[j].0]
  {
    assert counts[..j + 1][..j] == counts[..j];
  }

  lemma AddCountsStep(g: Grid, b: string, counts: seq<(string, int)>, j: nat)
    requires j < |counts|
    ensures AddCounts(g, b, counts[..j + 1]) == AddEntry(AddCounts(g, b, counts[..j]), b, counts[j].0, counts[j].1)
  {
    assert counts[..j + 1][..j] == counts[..j];
  }

  /** The body of the inner loop: one item field of a bartender added to the grid. */
  method AddField(grouped0: Grid, order0: seq<string>, bartender: string, itemName: string, count: int)
    returns (grouped: Grid, order: seq<string>)
    requires forall k :: k in order0 <==> k in grouped0
    ensures grouped == AddEntry(grouped0, bartender, itemName, count)
    ensures order == if itemName in order0 then order0 else order0 + [itemName]
    ensures forall k :: k in order <==> k in grouped
  {
    grouped, order := grouped0, order0;
    if itemName !in grouped {
      grouped := grouped[itemName := map[bartender := 0]];
      order := order + [itemName];
    }
    var row := grouped[itemName];
    if bartender !in row {
      row := row[bartender := 0];
    }
    grouped := grouped[itemName := row[bartender := row[bartender] + count]];
  }

  /** The inner loop of `chartData`: the item fields of one bartender's row added to the grid. */
  method AddFields(grouped0: Grid, order0: seq<string>, bartender: string, rest: seq<(string, int)>)
    returns (grouped: Grid, order: seq<string>)
    requires forall k :: k in order0 <==> k in grouped0
    ensures grouped == AddCounts(grouped0, bartender, rest)
    ensures order == AddOrder(order0, rest)
    ensures forall k :: k in order <==> k in grouped
  {
    grouped, order := grouped0, order0;
    for j := 0 to |rest|
      invariant grouped == AddCounts(grouped0, bartender, rest[..j])
      invariant order == AddOrder(order0, rest[..j])
      invariant forall k :: k in order <==> k in grouped
    {
      var (itemName, count) := rest[j];
      AddOrderStep(order0, rest, j);
      AddCountsStep(grouped0, bartender, rest, j);
      grouped, order := AddField(grouped, order, bartender, itemName, count);
    }
    assert rest[..|rest|] == rest;
  }

  /** The two loops of `chartData`: the grid and its keys in insertion order. */
  method GroupItems(data: seq<Analytic>) returns (order: seq<string>, grouped: Grid)
    ensures grouped == Grouped(data)
    ensures order == ItemOrder(data)
  {
    grouped := map[];
    order := [];
    for i := 0 to |data|
      invariant grouped == Grouped(data[..i])
      invariant order == ItemOrder(data[..i])
      invariant forall k :: k in order <==> k in grouped
    {
      assert data[..i + 1][..i] == data[..i];
      grouped, order := AddFields(grouped, order, data[i].bartender, Rest(data[i]));
    }
    assert data[..|data|] == data;
  }

  /** The row label: `toTitleCase(item) || ""`. */
  function Label(item: string): (r: string)
    ensures '_' !in r
    ensures r == [] || (!IsSpace(r[0]) && !IsSpace(r[|r| - 1]))
  {
    var title := OrElse(ToTitleCase(Some(Str(item))), Some(""));
    assert title == ToTitleCase(Some(Str(item)));
    TitleFacts(item);
    match title
    case Some(t) => t
    case None => ""
  }

  /** What the title-casing guarantees about a name. */
  lemma TitleFacts(item: string)
    ensures var t := ToTitleCase(Some(Str(item))).value;
      '_' !in t && (t == [] || (!IsSpace(t[0]) && !IsSpace(t[|t| - 1])))
  {
    TitleCaseNoUnderscore(item);
    TitleCaseTrimmed(item);
  }

  /** A chart row: the label under `item`, then every bartender's count spread over it. */
  function ChartRow(item: string, cells: map<string, int>): (r: Record)
    ensures r.Keys == cells.Keys + {"item"}
    ensures forall b :: b in cells ==> r[b] == Num(cells[b])
    ensures "item" !in cells ==> r["item"] == Str(Label(item))
  {
    var title := Str(Label(item));
    Merge(map["item" := title], Columns(cells))
  }

  /** The bartenders' counts as row fields. */
  function Columns(cells: map<string, int>): (m: Record)
    ensures m.Keys == cells.Keys
    ensures forall b :: b in cells ==> m[b] == Num(cells[b])
  {
    map b | b in cells :: Num(cells[b])
  }

  /** The chart rows, one per item in insertion order. */
  function Rows(data: seq<Analytic>): (r: seq<Record>)
    ensures |r| == |ItemOrder(data)|
  {
    var order := ItemOrder(data);
    var grouped := Grouped(data);
    ItemOrderKeys(data);
    seq(|order|, i requires 0 <= i < |order| => ChartRow(order[i], grouped[order[i]]))
  }

  /** `chartData`. */
  method ChartData(data: seq<Analytic>) returns (rows: seq<Record>)
    ensures rows == Rows(data)
  {
    var order, grouped := GroupItems(data);
    ItemOrderKeys(data);
    rows := seq(|order|, i requires 0 <= i < |order| => ChartRow(order[i], grouped[order[i]]));
  }

  /**
    * The row of each item: labelled with its title-cased name, holding a
    * field exactly for each bartender that reported it, with that
    * bartender's summed count.
    */
  lemma ChartRowCells(data: seq<Analytic>, i: nat, b: string)
    requires i < |Rows(data)|
    requires b != "item"
    ensures Sold(data, ItemOrder(data)[i])
    ensures (b in Rows(data)[i]) <==> Reported(data, b, ItemOrder(data)[i])
    ensures Reported(data, b, ItemOrder(data)[i]) ==> Rows(data)[i][b] == Num(SumFor(data, b, ItemOrder(data)[i]))
    ensures !Reported(data, "item", ItemOrder(data)[i]) ==> Rows(data)[i]["item"] == Str(Label(ItemOrder(data)[i]))
  {
    var item := ItemOrder(data)[i];
    ItemOrderKeys(data);
    GroupedCells(data, item, b);
    GroupedCells(data, item, "item");
  }
}

=== FILE: js.dfy ===
/**
  * The JavaScript values the dashboard's records are made of, and the few
  * language operations the rest of the model relies on: reading a field
  * (`r[k]`, `undefined` when absent), object spread (`{...a, ...b}`),
  * truthiness (`a || b`), ASCII lower-casing, `String.prototype.includes`
  * and template-literal rendering of a value.
  */
module Js {

  datatype Option<+T> = None | Some(value: T)

  /** A field value: a string, a number, a boolean, or an array of strings or numbers. */
  datatype Value = Str(s: string) | Num(n: int) | Bool(b: bool) | Strs(strs: seq<string>) | Nums(nums: seq<int>)

  /** A plain object: field name to value. */
  type Record = map<string, Value>

  /** `r[k]`, with `None` standing for `undefined`. */
  function Get(r: Record, k: string): Option<Value>
  {
    if k in r then Some(r[k]) else None
  }

  /** `{...a, ...b}`: every field of `b` wins, every other field of `a` is kept. */
  function Merge(a: Record, b: Record): (r: Record)
    ensures r.Keys == a.Keys + b.Keys
    ensures forall k :: k in b ==> r[k] == b[k]
    ensures forall k :: k in a && k !in b ==> r[k] == a[k]
  {
    a + b
  }

  /** A copy of `m` without key `k` (`delete tmp[k]` on a spread copy). */
  function Omit<V>(m: map<string, V>, k: string): (r: map<string, V>)
    ensures r.Keys == m.Keys - {k}
    ensures forall j :: j in r ==> r[j] == m[j]
  {
    m - {k}
  }

  /** An optional string as a field value: `undefined` or the string. */
  function OptStr(s: Option<string>): Option<Value>
  {
    match s
    case None => None
    case Some(x) => Some(Str(x))
  }

  /** JavaScript truthiness of a field value (arrays are always truthy). */
  predicate Truthy(v: Option<Value>)
  {
    match v
    case None => false
    case Some(Str(s)) => s != ""
    case Some(Num(n)) => n != 0
    case Some(Bool(b)) => b
    case Some(Strs(_)) => true
    case Some(Nums(_)) => true
  }

  /** `a || b` on two optional strings. */
  function OrElse(a: Option<string>, b: Option<string>): (r: Option<string>)
    ensures Truthy(OptStr(a)) ==> r == a
    ensures !Truthy(OptStr(a)) ==> r == b
  {
    if a.Some? && a.value != "" then a else b
  }

  /** The string array held by `r[k]`; an absent or non-array field reads as empty. */
  function StrsOf(r: Record, k: string): seq<string>
  {
    if k in r && r[k].Strs? then r[k].strs else []
  }

  /** The string held by `r[k]`, if it holds one. */
  function StrOf(r: Record, k: string): Option<string>
  {
    if k in r && r[k].Str? then Some(r[k].s) else None
  }

  /** The number held by `r[k]`; an absent or non-numeric field reads as absent. */
  function NumOf(r: Record, k: string): Option<int>
  {
    if k in r && r[k].Num? then Some(r[k].n) else None
  }

  /** ASCII lower-casing of one character. */
  function LowerChar(c: char): char
  {
    if 'A' <= c <= 'Z' then (c as int + 32) as char else c
  }

  /** `s.toLocaleLowerCase()`, for the ASCII letters. */
  function Lower(s: string): (r: string)
    ensures |r| == |s|
    ensures forall i :: 0 <= i < |s| ==> r[i] == LowerChar(s[i])
  {
    if s == [] then [] else [LowerChar(s[0])] + Lower(s[1..])
  }

  /** `hay.startsWith(needle)`. */
  predicate StartsWith(hay: string, needle: string)
  {
    |needle| <= |hay| && hay[..|needle|] == needle
  }

  /** `hay.includes(needle)`. */
  predicate Includes(hay: string, needle: string)
    decreases |hay|
  {
    StartsWith(hay, needle) || (|hay| > 0 && Includes(hay[1..], needle))
  }

  function DigitChar(d: nat): char
    requires d < 10
  {
    "0123456789"[d]
  }

  /** The decimal rendering of a natural number. */
  function NatText(n: nat): (r: string)
    ensures |r| >= 1
    ensures forall i :: 0 <= i < |r| ==> '0' <= r[i] <= '9'
  {
    if n < 10 then [DigitChar(n)] else NatText(n / 10) + [DigitChar(n % 10)]
  }

  /** The decimal rendering of an integer, as `${n}` gives it. */
  function IntText(n: int): string
  {
    if n < 0 then "-" + NatText(-n) else NatText(n)
  }

  /** `a.join(",")`. */
  function Join(parts: seq<string>): string
  {
    if parts == [] then "" else if |parts| == 1 then parts[0] else parts[0] + "," + Join(parts[1..])
  }

  function IntTexts(ns: seq<int>): (r: seq<string>)
    ensures |r| == |ns|
  {
    if ns == [] then [] else [IntText(ns[0])] + IntTexts(ns[1..])
  }

  /** What a template literal `${v}` renders for a field value. */
  function Text(v: Option<Value>): string
  {
    match v
    case None => "undefined"
    case Some(Str(s)) => s
    case Some(Num(n)) => IntText(n)
    case Some(Bool(b)) => if b then "true" else "false"
    case Some(Strs(ss)) => Join(ss)
    case Some(Nums(ns)) => Join(IntTexts(ns))
  }

  /** The search rule of the selection lists: an empty search shows everything, otherwise the lower-cased name must contain the search text as typed. */
  predicate SearchShows(name: string, search: string)
  {
    search == "" || Includes(Lower(name), search)
  }
}

=== FILE: lists.dfy ===
/**
  * The array operations the dashboard uses on its lists: `filter`, `findIndex`,
  * the checkbox toggle, replacing the first occurrence of a value, and the
  * insertion-ordered contents of a `Set`.
  */
module Lists {
  import opened Js

  /** `s.filter(keep)`. */
  function Filter<T(!new)>(s: seq<T>, keep: T -> bool): (r: seq<T>)
    ensures |r| <= |s|
    ensures forall x {:trigger x in r} :: x in r <==> x in s && keep(x)
  {
    if s == [] then [] else (if keep(s[0]) then [s[0]] else []) + Filter(s[1..], keep)
  }

  /** One step of `filter`: the head if it is kept, then the filtered tail. */
  lemma FilterCons<T(!new)>(s: seq<T>, keep: T -> bool)
    requires s != []
    ensures Filter(s, keep) == (if keep(s[0]) then [s[0]] else []) + Filter(s[1..], keep)
  {
  }

  /** Filtering a concatenation filters each part in turn: survivors keep their order. */
  lemma {:induction false} FilterConcat<T(!new)>(a: seq<T>, b: seq<T>, keep: T -> bool)
    ensures Filter(a + b, keep) == Filter(a, keep) + Filter(b, keep)
  {
    if a == [] {
      assert a + b == b;
    } else {
      var head := if keep(a[0]) then [a[0]] else [];
      assert (a + b)[0] == a[0];
      assert (a + b)[1..] == a[1..] + b;
      FilterCons(a + b, keep);
      FilterCons(a, keep);
      FilterConcat(a[1..], b, keep);
      var x, y := Filter(a[1..], keep), Filter(b, keep);
      assert head + (x + y) == (head + x) + y;
    }
  }

  /** A filter that drops nothing returns its input. */
  lemma {:induction false} FilterKeepsAll<T(!new)>(s: seq<T>, keep: T -> bool)
    requires forall x :: x in s ==> keep(x)
    ensures Filter(s, keep) == s
  {
    if s != [] {
      FilterKeepsAll(s[1..], keep);
    }
  }

  /** A sequence that agrees with a prefix of `e` still does after appending `e`'s next element. */
  lemma AgreeSnoc<T>(r: seq<T>, e: seq<T>, x: T)
    requires |r| < |e| && x == e[|r|]
    requires forall j :: 0 <= j < |r| ==> r[j] == e[j]
    ensures forall j :: 0 <= j < |r + [x]| ==> (r + [x])[j] == e[j]
  {
  }

  /** `s.findIndex(p)`, with `None` for -1. */
  function FindIndex<T>(s: seq<T>, p: T -> bool): (r: Option<nat>)
    ensures r.Some? ==> r.value < |s| && p(s[r.value]) && forall j :: 0 <= j < r.value ==> !p(s[j])
    ensures r.None? ==> forall j :: 0 <= j < |s| ==> !p(s[j])
  {
    if s == [] then None
    else if p(s[0]) then Some(0)
    else match FindIndex(s[1..], p)
      case None => None
      case Some(i) => Some(i + 1)
  }

  /** `s.filter((e) => e !== x)`. */
  function RemoveAll(s: seq<string>, x: string): (r: seq<string>)
    ensures |r| <= |s|
    ensures x !in r
    ensures forall y :: y != x ==> (y in r <==> y in s)
  {
    Filter(s, (e: string) => e != x)
  }

  /** The checkbox toggle: a checked value is removed (every occurrence), an unchecked one appended. */
  function Toggled(sel: seq<string>, x: string): (r: seq<string>)
    ensures x in sel ==> x !in r && forall y :: y != x ==> (y in r <==> y in sel)
    ensures x !in sel ==> r == sel + [x]
  {
    if x in sel then RemoveAll(sel, x) else sel + [x]
  }

  /** Toggling twice from unchecked restores the selection. */
  lemma ToggleTwice(sel: seq<string>, x: string)
    requires x !in sel
    ensures Toggled(Toggled(sel, x), x) == sel
  {
    var t := sel + [x];
    FilterConcat(sel, [x], (e: string) => e != x);
    FilterKeepsAll(sel, (e: string) => e != x);
  }

  /** `s.indexOf(x)` for a value that occurs: its first position. */
  function IndexOf<T(==)>(s: seq<T>, x: T): (i: nat)
    requires x in s
    ensures i < |s| && s[i] == x && x !in s[..i]
  {
    if s[0] == x then 0 else 1 + IndexOf(s[1..], x)
  }

  /** The array with its first occurrence of `from` set to `to`. */
  function ReplaceFirst(s: seq<string>, from: string, to: string): (r: seq<string>)
    ensures |r| == |s|
    ensures from !in s ==> r == s
    ensures from in s ==> r == s[IndexOf(s, from) := to]
  {
    if s == [] then []
    else if s[0] == from then [to] + s[1..]
    else [s[0]] + ReplaceFirst(s[1..], from, to)
  }

  /** Renaming `from` to a fresh name and back restores the array. */
  lemma {:induction false} ReplaceFirstRoundTrip(s: seq<string>, from: string, to: string)
    requires to !in s
    ensures ReplaceFirst(ReplaceFirst(s, from, to), to, from) == s
  {
    if s != [] && s[0] != from {
      ReplaceFirstRoundTrip(s[1..], from, to);
    }
  }

  /** The contents of `new Set(s)`, in insertion order. */
  function Distinct<T(==,!new)>(s: seq<T>): (r: seq<T>)
    ensures forall x :: x in r <==> x in s
    ensures forall i, j :: 0 <= i < j < |r| ==> r[i] != r[j]
    ensures FirstAppearanceOrder(r, s)
  {
    DistinctAfterOrder(s, []);
    DistinctAfter(s, [])
  }

  /** The values of `s` not already in `seen`, without repeats, in first-appearance order. */
  function DistinctAfter<T(==,!new)>(s: seq<T>, seen: seq<T>): (r: seq<T>)
    ensures forall x :: x in r <==> x in s && x !in seen
    ensures forall i, j :: 0 <= i < j < |r| ==> r[i] != r[j]
  {
    if s == [] then []
    else if s[0] in seen then DistinctAfter(s[1..], seen)
    else
      var rest := DistinctAfter(s[1..], seen + [s[0]]);
      assert s[0] !in rest;
      [s[0]] + rest
  }

  /**
    * Every value of `r` occurs in `s`, and `r` lists them in the order of
    * their first appearance in `s`.
    */
  predicate FirstAppearanceOrder<T(==)>(r: seq<T>, s: seq<T>)
  {
    (forall x :: x in r ==> x in s)
    && forall i, j :: 0 <= i < j < |r| ==> IndexOf(s, r[i]) < IndexOf(s, r[j])
  }

  /** Past a different head, a value's first position is one more than in the tail. */
  lemma IndexOfTail<T>(s: seq<T>, x: T)
    requires x in s && s[0] != x
    ensures x in s[1..] && IndexOf(s, x) == 1 + IndexOf(s[1..], x)
  {
  }

  /** A list ordered against the tail of `s`, and without `s`'s head, is ordered against `s` and placed after the head. */
  lemma ShiftOrder<T>(r: seq<T>, s: seq<T>)
    requires s != [] && s[0] !in r && FirstAppearanceOrder(r, s[1..])
    ensures FirstAppearanceOrder(r, s)
    ensures forall x :: x in r ==> 0 < IndexOf(s, x)
  {
    forall x | x in r
      ensures x in s && IndexOf(s, x) == 1 + IndexOf(s[1..], x)
    {
      IndexOfTail(s, x);
    }
  }

  /** A value of `s` may lead an ordered list whose values all first appear after it. */
  lemma ConsOrder<T>(x: T, rest: seq<T>, s: seq<T>)
    requires x in s && FirstAppearanceOrder(rest, s)
    requires forall y :: y in rest ==> IndexOf(s, x) < IndexOf(s, y)
    ensures FirstAppearanceOrder([x] + rest, s)
  {
    var r := [x] + rest;
    forall i, j | 0 <= i < j < |r|
      ensures IndexOf(s, r[i]) < IndexOf(s, r[j])
    {
      assert r[j] == rest[j - 1];
      if i > 0 {
        assert r[i] == rest[i - 1];
      }
    }
  }

  /** The tail of an ordered list is ordered, and its head comes before every value of the tail. */
  lemma TailOrder<T>(r: seq<T>, s: seq<T>)
    requires r != [] && FirstAppearanceOrder(r, s)
    ensures FirstAppearanceOrder(r[1..], s)
    ensures forall y :: y in r[1..] ==> IndexOf(s, r[0]) < IndexOf(s, y)
  {
    forall i, j | 0 <= i < j < |r[1..]|
      ensures IndexOf(s, r[1..][i]) < IndexOf(s, r[1..][j])
    {
      assert r[1..][i] == r[i + 1] && r[1..][j] == r[j + 1];
    }
    forall y | y in r[1..]
      ensures IndexOf(s, r[0]) < IndexOf(s, y)
    {
      var k :| 0 <= k < |r[1..]| && r[1..][k] == y;
      assert r[k + 1] == y;
    }
  }

  /** `DistinctAfter` lists its values in the order they first appear. */
  lemma {:induction false} DistinctAfterOrder<T(!new)>(s: seq<T>, seen: seq<T>)
    ensures FirstAppearanceOrder(DistinctAfter(s, seen), s)
  {
    if s != [] {
      if s[0] in seen {
        DistinctAfterOrder(s[1..], seen);
        ShiftOrder(DistinctAfter(s[1..], seen), s);
      } else {
        var rest := DistinctAfter(s[1..], seen + [s[0]]);
        DistinctAfterOrder(s[1..], seen + [s[0]]);
        ShiftOrder(rest, s);
        ConsOrder(s[0], rest, s);
      }
    }
  }

  /** `new Set(s)` keeps the first appearance: the first element always leads. */
  lemma DistinctHead<T(!new)>(s: seq<T>)
    requires s != []
    ensures Distinct(s)[0] == s[0]
  {
  }

  /** Filtering keeps a first-appearance order. */
  lemma {:induction false} FilterKeepsOrder<T(!new)>(r: seq<T>, s: seq<T>, keep: T -> bool)
    requires FirstAppearanceOrder(r, s)
    ensures FirstAppearanceOrder(Filter(r, keep), s)
  {
    if r != [] {
      TailOrder(r, s);
      FilterKeepsOrder(r[1..], s, keep);
      FilterCons(r, keep);
      if keep(r[0]) {
        ConsOrder(r[0], Filter(r[1..], keep), s);
      }
    }
  }

  /** The values of `s` as a set (`new Set(s)`). */
  function Elems<T>(s: seq<T>): set<T>
  {
    set x | x in s
  }

  /** Whether a list has no repeated entry. */
  predicate NoRepeats<T(==)>(s: seq<T>)
  {
    forall i, j :: 0 <= i < j < |s| ==> s[i] != s[j]
  }

  /** `new Set(s).size` never exceeds `s.length`, and equals it exactly when `s` has no repeated value. */
  lemma {:induction false} ElemsCard<T>(s: seq<T>)
    ensures |Elems(s)| <= |s|
    ensures |Elems(s)| == |s| <==> NoRepeats(s)
  {
    if s != [] {
      var rest := s[1..];
      ElemsCard(rest);
      assert Elems(s) == {s[0]} + Elems(rest) by {
        forall x | x in Elems(s) ensures x in {s[0]} + Elems(rest) {
          var k :| 0 <= k < |s| && s[k] == x;
          if k > 0 { assert rest[k - 1] == x; }
        }
      }
      if s[0] in rest {
        var k :| 0 <= k < |rest| && rest[k] == s[0];
        assert s[k + 1] == s[0];
        assert Elems(s) == Elems(rest);
      } else {
        assert s[0] !in Elems(rest);
        assert NoRepeats(s) <==> NoRepeats(rest) by {
          if NoRepeats(rest) {
            forall i, j | 0 <= i < j < |s| ensures s[i] != s[j] {
              if i == 0 { assert s[j] == rest[j - 1]; } else { assert s[i] == rest[i - 1] && s[j] == rest[j - 1]; }
            }
          }
          if NoRepeats(s) {
            forall i, j | 0 <= i < j < |rest| ensures rest[i] != rest[j] {
              assert rest[i] == s[i + 1] && rest[j] == s[j + 1];
            }
          }
        }
      }
    }
  }
}

=== FILE: menu_items_api.dfy ===
/**
  * The menu-items hook: the guard run before deleting an item, and the
  * cache updaters run after a successful create, edit or delete, on the
  * event's menu list and on its stands.
  */
module MenuItemsApi {
  import opened Js
  import opened Lists
  import opened Cache
  import opened StandLists

  /** The object key an item is stored under: its name, as a string. */
  function ItemKey(item: Record): string
  {
    KeyOf(item, "itemName")
  }

  function ItemKeys(items: seq<Record>): (r: seq<string>)
    ensures |r| == |items|
    ensures forall i :: 0 <= i < |items| ==> r[i] == ItemKey(items[i])
  {
    seq(|items|, i requires 0 <= i < |items| => ItemKey(items[i]))
  }

  /** The refusal message naming the stand that would be left without items. */
  function SoleItemMessage(stand: Record): string
  {
    var name := Text(Get(stand, "standName"));
    "Stand \"" + name + "\" only has this one item. Please delete \"" + name + "\" before this item"
  }

  /** `remove` refuses, before any request, while some stand's only item is this one. */
  function RemoveGuard(stands: Option<seq<Record>>, itemName: Option<string>): (r: Outcome)
    ensures r.Proceed? <==>
      forall i :: 0 <= i < |RowsOf(stands)| ==> !(itemName.Some? && StrsOf(RowsOf(stands)[i], "menuItems") == [itemName.value])
    ensures r.Refused? ==> exists s :: s in RowsOf(stands) && r.message == SoleItemMessage(s)
    ensures r.Refused? ==> exists i :: FirstSole(RowsOf(stands), "menuItems", itemName, i) && r.message == SoleItemMessage(RowsOf(stands)[i])
  {
    match SoleHolder(RowsOf(stands), "menuItems", itemName)
    case None => Proceed
    case Some(s) => Refused(SoleItemMessage(s))
  }

  /** The posted items not yet cached, one per distinct name in first-posted order, tagged with the event. */
  function NewItems(order: seq<string>, pm: map<string, Record>, present: set<Option<Value>>, eventId: string): (r: seq<Record>)
    requires forall n :: n in order ==> n in pm
    requires forall n :: n in pm ==> ItemKey(pm[n]) == n
    ensures |r| <= |order|
    ensures forall x :: x in r ==> Get(x, "eventId") == Some(Str(eventId))
    ensures forall x :: x in r ==> ItemKey(x) in order && x == Merge(pm[ItemKey(x)], map["eventId" := Str(eventId)])
    ensures forall n :: n in order && Get(pm[n], "itemName") !in present ==> Merge(pm[n], map["eventId" := Str(eventId)]) in r
  {
    if order == [] then []
    else
      var n := order[0];
      var rest := NewItems(order[1..], pm, present, eventId);
      var x := Merge(pm[n], map["eventId" := Str(eventId)]);
      assert Get(x, "itemName") == Get(pm[n], "itemName");
      assert ItemKey(x) == n;
      if Get(pm[n], "itemName") in present then rest
      else [x] + rest
  }

  /** Whether a posted name still needs appending: its record's `itemName` is not among the cached ones. */
  function IsNew(pm: map<string, Record>, present: set<Option<Value>>): string -> bool
  {
    n => n in pm && Get(pm[n], "itemName") !in present
  }

  /** The names the new items carry are exactly the new names of `order`, in `order`'s order. */
  lemma {:induction false} NewItemsOrder(order: seq<string>, pm: map<string, Record>, present: set<Option<Value>>, eventId: string)
    requires forall n :: n in order ==> n in pm
    requires forall n :: n in pm ==> ItemKey(pm[n]) == n
    ensures ItemKeys(NewItems(order, pm, present, eventId)) == Filter(order, IsNew(pm, present))
  {
    if order != [] {
      var n := order[0];
      var rest := NewItems(order[1..], pm, present, eventId);
      NewItemsOrder(order[1..], pm, present, eventId);
      FilterCons(order, IsNew(pm, present));
      if Get(pm[n], "itemName") !in present {
        var x := Merge(pm[n], map["eventId" := Str(eventId)]);
        assert Get(x, "itemName") == Get(pm[n], "itemName");
        assert ItemKey(x) == n;
        ItemKeysCons(x, rest);
      }
    }
  }

  lemma ItemKeysCons(x: Record, rest: seq<Record>)
    ensures ItemKeys([x] + rest) == [ItemKey(x)] + ItemKeys(rest)
  {
    assert forall i :: 0 < i < |[x] + rest| ==> ([x] + rest)[i] == rest[i - 1];
  }

  /** The `itemName` values of the cached items (`presentItems`). */
  function CachedNames(rows: seq<Record>): (r: set<Option<Value>>)
    ensures forall e :: e in rows ==> Get(e, "itemName") in r
    ensures forall v :: v in r ==> exists e :: e in rows && Get(e, "itemName") == v
  {
    set e | e in rows :: Get(e, "itemName")
  }

  /** The cached items, each with the posted record of its name spread over it. */
  function MergedCached(rows: seq<Record>, pm: map<string, Record>): (r: seq<Record>)
    ensures |r| == |rows|
    ensures forall i :: 0 <= i < |rows| && ItemKey(rows[i]) !in pm ==> r[i] == rows[i]
    ensures forall i :: 0 <= i < |rows| && ItemKey(rows[i]) in pm ==> r[i] == Merge(rows[i], pm[ItemKey(rows[i])])
  {
    seq(|rows|, i requires 0 <= i < |rows| => if ItemKey(rows[i]) in pm then Merge(rows[i], pm[ItemKey(rows[i])]) else rows[i])
  }

  /** Every distinct posted name has its record in the map. */
  lemma PostedNamesInMap(posted: seq<Record>)
    ensures forall n :: n in Distinct(ItemKeys(posted)) ==> n in IndexBy(posted, "itemName")
  {
    forall n | n in Distinct(ItemKeys(posted))
      ensures n in IndexBy(posted, "itemName")
    {
      var i :| 0 <= i < |posted| && ItemKeys(posted)[i] == n;
      assert posted[i] in posted;
    }
  }

  /** The menu after a create: posted fields spread over cached items of the same name, new names appended. */
  function Created(data: Option<seq<Record>>, posted: seq<Record>, eventId: string): (r: seq<Record>)
    ensures |r| >= |RowsOf(data)|
    ensures r[..|RowsOf(data)|] == MergedCached(RowsOf(data), IndexBy(posted, "itemName"))
    ensures forall x :: x in r[|RowsOf(data)|..] ==> Get(x, "eventId") == Some(Str(eventId)) && ItemKey(x) in IndexBy(posted, "itemName")
    ensures forall n :: (n in Distinct(ItemKeys(posted)) && n in IndexBy(posted, "itemName") &&
                         Get(IndexBy(posted, "itemName")[n], "itemName") !in CachedNames(RowsOf(data))) ==>
              Merge(IndexBy(posted, "itemName")[n], map["eventId" := Str(eventId)]) in r[|RowsOf(data)|..]
    ensures ItemKeys(r[|RowsOf(data)|..]) == Filter(Distinct(ItemKeys(posted)), IsNew(IndexBy(posted, "itemName"), CachedNames(RowsOf(data))))
    ensures FirstAppearanceOrder(ItemKeys(r[|RowsOf(data)|..]), ItemKeys(posted))
  {
    var rows := RowsOf(data);
    var pm := IndexBy(posted, "itemName");
    var present := CachedNames(rows);
    var order := Distinct(ItemKeys(posted));
    PostedNamesInMap(posted);
    var added := NewItems(order, pm, present, eventId);
    NewItemsOrder(order, pm, present, eventId);
    FilterKeepsOrder(order, ItemKeys(posted), IsNew(pm, present));
    assert (MergedCached(rows, pm) + added)[|rows|..] == added;
    assert (MergedCached(rows, pm) + added)[..|rows|] == MergedCached(rows, pm);
    MergedCached(rows, pm) + added
  }

  /** A new item is appended only for a name no cached item carries, and at most once per name. */
  lemma NewItemsAreNew(order: seq<string>, pm: map<string, Record>, present: set<Option<Value>>, eventId: string)
    requires forall n :: n in order ==> n in pm
    requires forall n :: n in pm ==> ItemKey(pm[n]) == n
    requires forall i, j :: 0 <= i < j < |order| ==> order[i] != order[j]
    ensures forall x :: x in NewItems(order, pm, present, eventId) ==> Get(x, "itemName") !in present
    ensures forall i, j :: 0 <= i < j < |NewItems(order, pm, present, eventId)| ==>
              ItemKey(NewItems(order, pm, present, eventId)[i]) != ItemKey(NewItems(order, pm, present, eventId)[j])
  {
    NewItemsNotPresent(order, pm, present, eventId);
    NewItemsDistinct(order, pm, present, eventId);
  }

  lemma {:induction false} NewItemsNotPresent(order: seq<string>, pm: map<string, Record>, present: set<Option<Value>>, eventId: string)
    requires forall n :: n in order ==> n in pm
    requires forall n :: n in pm ==> ItemKey(pm[n]) == n
    ensures forall x :: x in NewItems(order, pm, present, eventId) ==> Get(x, "itemName") !in present
  {
    if order != [] {
      var n := order[0];
      NewItemsNotPresent(order[1..], pm, present, eventId);
      var x := Merge(pm[n], map["eventId" := Str(eventId)]);
      assert Get(x, "itemName") == Get(pm[n], "itemName");
    }
  }

  lemma {:induction false} NewItemsDistinct(order: seq<string>, pm: map<string, Record>, present: set<Option<Value>>, eventId: string)
    requires forall n :: n in order ==> n in pm
    requires forall n :: n in pm ==> ItemKey(pm[n]) == n
    requires forall i, j :: 0 <= i < j < |order| ==> order[i] != order[j]
    ensures forall i, j :: 0 <= i < j < |NewItems(order, pm, present, eventId)| ==>
              ItemKey(NewItems(order, pm, present, eventId)[i]) != ItemKey(NewItems(order, pm, present, eventId)[j])
  {
    if order != [] {
      var n := order[0];
      NewItemsDistinct(order[1..], pm, present, eventId);
      var rest := NewItems(order[1..], pm, present, eventId);
      var x := Merge(pm[n], map["eventId" := Str(eventId)]);
      if Get(pm[n], "itemName") !in present {
        assert n !in order[1..] by {
          forall j | 0 <= j < |order[1..]| ensures order[1..][j] != n { assert order[1..][j] == order[j + 1]; }
        }
        assert ItemKey(x) == n;
        ConsDistinctKeys(x, rest);
      }
    }
  }

  /** A record whose key no later record has keeps the keys distinct. */
  lemma ConsDistinctKeys(x: Record, rest: seq<Record>)
    requires forall y :: y in rest ==> ItemKey(y) != ItemKey(x)
    requires forall i, j :: 0 <= i < j < |rest| ==> ItemKey(rest[i]) != ItemKey(rest[j])
    ensures forall i, j :: 0 <= i < j < |[x] + rest| ==> ItemKey(([x] + rest)[i]) != ItemKey(([x] + rest)[j])
  {
    var r := [x] + rest;
    forall i, j | 0 <= i < j < |r| ensures ItemKey(r[i]) != ItemKey(r[j]) {
      assert r[j] == rest[j - 1];
      if i > 0 { assert r[i] == rest[i - 1]; } else { assert rest[j - 1] in rest; }
    }
  }

  /** The new name a rename gives to stands: `updateBody.itemName || itemName`. */
  function NewName(itemName: string, updateBody: Record): (r: string)
    ensures Truthy(Get(updateBody, "itemName")) && updateBody["itemName"].Str? ==> r == updateBody["itemName"].s
    ensures !(updateBody.Keys >= {"itemName"} && updateBody["itemName"].Str? && updateBody["itemName"].s != "") ==> r == itemName
  {
    match OrElse(StrOf(updateBody, "itemName"), Some(itemName))
    case Some(n) => n
    case None => itemName
  }

  /**
    * `edit.onSuccess`: the first cached item with the old name takes the new
    * fields; when the name changes, stands listing the old name list the new
    * one in its place.
    */
  method OnEditSuccess(menu: Option<seq<Record>>, stands: Option<seq<Record>>, itemName: string, updateBody: Record)
    returns (newMenu: Option<seq<Record>>, newStands: Option<seq<Record>>)
    ensures newMenu == UpdateFirst(menu, "itemName", Some(Str(itemName)), updateBody)
    ensures Get(updateBody, "itemName") == Some(Str(itemName)) ==> newStands == stands
    ensures Get(updateBody, "itemName") != Some(Str(itemName)) && AnyHolds(RowsOf(stands), "menuItems", Some(itemName)) ==>
              newStands == Some(RenamedAll(RowsOf(stands), "menuItems", itemName, NewName(itemName, updateBody)))
    ensures !AnyHolds(RowsOf(stands), "menuItems", Some(itemName)) ==> newStands == stands
  {
    newMenu := UpdateFirst(menu, "itemName", Some(Str(itemName)), updateBody);
    if Get(updateBody, "itemName") == Some(Str(itemName)) {
      newStands := stands;
      return;
    }
    newStands := RenameInStands(stands, "menuItems", itemName, NewName(itemName, updateBody));
  }

  /** `remove.onSuccess`: the item leaves the menu and every stand's item list. */
  method OnRemoveSuccess(menu: Option<seq<Record>>, stands: Option<seq<Record>>, itemName: Option<string>)
    returns (newMenu: Option<seq<Record>>, newStands: Option<seq<Record>>)
    ensures newMenu.Some? && forall x :: x in newMenu.value <==> x in RowsOf(menu) && Get(x, "itemName") != OptStr(itemName)
    ensures newMenu == Some(Without(RowsOf(menu), "itemName", OptStr(itemName)))
    ensures !AnyHolds(RowsOf(stands), "menuItems", itemName) ==> newStands == stands
    ensures AnyHolds(RowsOf(stands), "menuItems", itemName) ==>
              newStands.Some? && forall i :: 0 <= i < |newStands.value| ==> itemName.value !in StrsOf(newStands.value[i], "menuItems")
    ensures AnyHolds(RowsOf(stands), "menuItems", itemName) ==> newStands == Some(StrippedAll(RowsOf(stands), "menuItems", itemName.value))
  {
    newMenu := Some(Without(RowsOf(menu), "itemName", OptStr(itemName)));
    newStands := StripFromStands(stands, "menuItems", itemName);
  }
}

=== FILE: pagination_slice.dfy ===
/**
  * The store slice that keeps one paging record (page, pageSize, pages, ...)
  * per table, keyed by the table's pagination key.
  */
module PaginationSlice {
  import opened Js

  /** The map after `setPagination(id, info)`: the entry for `id` (or `{}`) with `info` spread over it. */
  function WithPagination(m: map<string, Record>, id: string, info: Record): (r: map<string, Record>)
    ensures r.Keys == m.Keys + {id}
    ensures forall k :: k in m && k != id ==> r[k] == m[k]
    ensures id !in m ==> r[id] == info
    ensures id in m ==> r[id].Keys == m[id].Keys + info.Keys
    ensures forall f :: f in info ==> r[id][f] == info[f]
    ensures id in m ==> forall f :: f in m[id] && f !in info ==> r[id][f] == m[id][f]
  {
    var previous := if id in m then m[id] else map[];
    m[id := Merge(previous, info)]
  }

  /** Writing the same fields twice is the same as writing them once. */
  lemma SetPaginationIdempotent(m: map<string, Record>, id: string, info: Record)
    ensures WithPagination(WithPagination(m, id, info), id, info) == WithPagination(m, id, info)
  {
    var once := WithPagination(m, id, info);
    var twice := WithPagination(once, id, info);
    assert twice[id] == once[id];
    assert twice.Keys == once.Keys;
  }

  /** Removing an entry just written leaves the map as removing it would have. */
  lemma RemoveUndoesSet(m: map<string, Record>, id: string, info: Record)
    ensures Omit(WithPagination(m, id, info), id) == Omit(m, id)
  {
    var lhs := Omit(WithPagination(m, id, info), id);
    assert lhs.Keys == Omit(m, id).Keys;
  }

  class PaginationStore {
    var pagination: map<string, Record>

    /** The slice starts with no entries. */
    constructor ()
      ensures pagination == map[]
    {
      pagination := map[];
    }

    method SetPagination(id: string, info: Record)
      modifies this
      ensures pagination == WithPagination(old(pagination), id, info)
    {
      var previous := if id in pagination then pagination[id] else map[];
      pagination := pagination[id := Merge(previous, info)];
    }

    method RemovePagination(id: string)
      modifies this
      ensures id !in old(pagination) ==> pagination == old(pagination)
      ensures pagination == Omit(old(pagination), id)
    {
      if id !in pagination {
        return;
      }
      pagination := Omit(pagination, id);
    }
  }
}

=== FILE: singularize.dfy ===
/**
  * `singularize`: the English plural ending of a word, looked up in a fixed
  * table, is replaced by its singular form. The ending is found the way the
  * anchored regular expression finds it: the earliest start position whose
  * suffix is a listed ending, which makes it the longest listed ending.
  */
module Singularize {
  import opened Js

  /** The endings table: plural ending to singular replacement. */
  const Endings: map<string, string> :=
    map["ves" := "fe", "ies" := "y", "i" := "us", "zes" := "ze", "ses" := "s", "es" := "e", "s" := ""]

  predicate EndsWith(w: string, e: string)
  {
    |e| <= |w| && w[|w| - |e|..] == e
  }

  /** The first position at or after `p` where the rest of the word is a listed ending. */
  function EarliestMatch(w: string, p: nat): (r: Option<nat>)
    requires p <= |w|
    ensures r.Some? ==> p <= r.value <= |w| && w[r.value..] in Endings
    ensures forall k :: p <= k <= |w| && (r.None? || k < r.value) ==> w[k..] !in Endings
    decreases |w| - p
  {
    if w[p..] in Endings then Some(p)
    else if p == |w| then None
    else EarliestMatch(w, p + 1)
  }

  /** `word.replace(/(ves|ies|i|zes|ses|es|s)$/, (r) => endings[r])`. */
  function Singularize(word: string): (r: string)
    ensures EarliestMatch(word, 0).None? ==> r == word
    ensures EarliestMatch(word, 0).Some? ==>
      var q := EarliestMatch(word, 0).value;
      r == word[..q] + Endings[word[q..]]
  {
    match EarliestMatch(word, 0)
    case None => word
    case Some(q) => word[..q] + Endings[word[q..]]
  }

  /**
    * The rewrite keeps everything before the ending, the ending it replaces
    * is the longest listed one the word ends with, and a word with none of
    * the endings is returned unchanged.
    */
  lemma SingularizeLongestEnding(word: string)
    ensures (forall e :: e in Endings ==> !EndsWith(word, e)) ==> Singularize(word) == word
    ensures (exists e :: e in Endings && EndsWith(word, e)) ==>
      exists e :: e in Endings && EndsWith(word, e)
        && Singularize(word) == word[..|word| - |e|] + Endings[e]
        && forall e2 :: e2 in Endings && EndsWith(word, e2) ==> |e2| <= |e|
  {
    var m := EarliestMatch(word, 0);
    if m.Some? {
      var q := m.value;
      var e := word[q..];
      assert EndsWith(word, e);
      forall e2 | e2 in Endings && EndsWith(word, e2) ensures |e2| <= |e| {
        assert word[|word| - |e2|..] in Endings;
      }
    }
  }

  /** No listed ending is longer than three letters. */
  lemma EndingsShort(w: string, k: nat)
    requires k + 3 < |w|
    ensures w[k..] !in Endings
  {
    assert |w[k..]| > 3;
  }

  /** The rewrite at a known earliest ending `w[q..]`. */
  lemma SingularizeAt(w: string, q: nat)
    requires q <= |w| && w[q..] in Endings
    requires forall k :: 0 <= k < q ==> w[k..] !in Endings
    ensures Singularize(w) == w[..q] + Endings[w[q..]]
  {
    assert EarliestMatch(w, 0) == Some(q);
  }

  lemma SingularizeCategories()
    ensures Singularize("Categories") == "Category"
  {
    var w := "Categories";
    assert w[7..] == "ies";
    forall k | 0 <= k < 7 ensures w[k..] !in Endings { EndingsShort(w, k); }
    SingularizeAt(w, 7);
    assert w[..7] + "y" == "Category";
  }

  lemma SingularizeBalances()
    ensures Singularize("Balances") == "Balance"
  {
    var w := "Balances";
    assert w[6..] == "es";
    assert w[5..] == "ces";
    forall k | 0 <= k < 6 ensures w[k..] !in Endings { if k < 5 { EndingsShort(w, k); } }
    SingularizeAt(w, 6);
    assert w[..6] + "e" == "Balance";
  }

  lemma SingularizeStands()
    ensures Singularize("Stands") == "Stand"
  {
    var w := "Stands";
    assert w[5..] == "s";
    assert w[4..] == "ds";
    assert w[3..] == "nds";
    forall k | 0 <= k < 5 ensures w[k..] !in Endings { if k < 3 { EndingsShort(w, k); } }
    SingularizeAt(w, 5);
    assert w[..5] + "" == "Stand";
  }

  lemma SingularizeStaff()
    ensures Singularize("Staff") == "Staff"
  {
    var w := "Staff";
    assert w[2..] == "aff";
    assert w[3..] == "ff";
    assert w[4..] == "f";
    assert w[5..] == "";
    forall k | 0 <= k <= 5 ensures w[k..] !in Endings { if k < 2 { EndingsShort(w, k); } }
    assert EarliestMatch(w, 0).None?;
  }

  /** Worked examples: the longest ending wins. */
  lemma SingularizeExamples()
    ensures Singularize("Categories") == "Category"
    ensures Singularize("Balances") == "Balance"
    ensures Singularize("Stands") == "Stand"
    ensures Singularize("Staff") == "Staff"
  {
    SingularizeCategories();
    SingularizeBalances();
    SingularizeStands();
    SingularizeStaff();
  }
}

=== FILE: staff_api.dfy ===
/**
  * The staff hook: which member a delete targets, the guard run before the
  * delete, and the cache updaters run after a successful create, edit or
  * delete, on the event's staff list and on its stands.
  */
module StaffApi {
  import opened Js
  import opened Lists
  import opened Cache
  import opened StandLists

  /** The member a delete targets: `query?.memberId || param.memberId`. */
  function RemoveTarget(queryMemberId: Option<string>, paramMemberId: Option<string>): (id: Option<string>)
    ensures queryMemberId.Some? && queryMemberId.value != "" ==> id == queryMemberId
    ensures (queryMemberId.None? || queryMemberId.value == "") ==> id == paramMemberId
  {
    OrElse(queryMemberId, paramMemberId)
  }

  /** The refusal message naming the stand that would be left without members. */
  function SoleMemberMessage(stand: Record): string
  {
    var name := Text(Get(stand, "standName"));
    "Stand \"" + name + "\" only has this one member. Please delete \"" + name + "\" before this staff"
  }

  /** `remove` refuses, before any request, while some stand's only member is the target. */
  function RemoveGuard(stands: Option<seq<Record>>, queryMemberId: Option<string>, paramMemberId: Option<string>): (r: Outcome)
    ensures var id := RemoveTarget(queryMemberId, paramMemberId);
      r.Proceed? <==> forall i :: 0 <= i < |RowsOf(stands)| ==> !(id.Some? && StrsOf(RowsOf(stands)[i], "staffMembers") == [id.value])
    ensures r.Refused? ==> exists s :: s in RowsOf(stands) && r.message == SoleMemberMessage(s)
    ensures r.Refused? ==> exists i :: FirstSole(RowsOf(stands), "staffMembers", RemoveTarget(queryMemberId, paramMemberId), i)
                                       && r.message == SoleMemberMessage(RowsOf(stands)[i])
  {
    match SoleHolder(RowsOf(stands), "staffMembers", RemoveTarget(queryMemberId, paramMemberId))
    case None => Proceed
    case Some(s) => Refused(SoleMemberMessage(s))
  }

  /** `create.onSuccess`: the request spread with the response is put first; response fields win. */
  function OnCreateSuccess(staff: Option<seq<Record>>, variables: Record, response: Record): (r: seq<Record>)
    ensures |r| == |RowsOf(staff)| + 1 && r[1..] == RowsOf(staff)
    ensures r[0].Keys == variables.Keys + response.Keys
    ensures forall k :: k in response ==> r[0][k] == response[k]
    ensures forall k :: k in variables && k !in response ==> r[0][k] == variables[k]
  {
    Prepended(staff, Merge(variables, response))
  }

  /** `edit.onSuccess`: the first member with the hook's `memberId` takes the new fields. */
  function OnEditSuccess(staff: Option<seq<Record>>, paramMemberId: Option<string>, variables: Record): (r: Option<seq<Record>>)
    ensures FirstWith(RowsOf(staff), "memberId", OptStr(paramMemberId)).None? ==> r == staff
    ensures r.Some? ==> |r.value| == |RowsOf(staff)|
    ensures r.Some? ==> forall i :: 0 <= i < |r.value| && !HasField(RowsOf(staff)[i], "memberId", OptStr(paramMemberId)) ==>
              r.value[i] == RowsOf(staff)[i]
    ensures FirstWith(RowsOf(staff), "memberId", OptStr(paramMemberId)).Some? ==>
      var k := FirstWith(RowsOf(staff), "memberId", OptStr(paramMemberId)).value;
      r.Some? && r.value[k].Keys == RowsOf(staff)[k].Keys + variables.Keys
      && (forall g :: g in variables ==> r.value[k][g] == variables[g])
      && (forall g :: g in RowsOf(staff)[k] && g !in variables ==> r.value[k][g] == RowsOf(staff)[k][g])
      && forall j :: 0 <= j < |r.value| && j != k ==> r.value[j] == RowsOf(staff)[j]
  {
    UpdateFirst(staff, "memberId", OptStr(paramMemberId), variables)
  }

  /** `remove.onSuccess`: the member leaves the staff list and every stand's member list. */
  method OnRemoveSuccess(staff: Option<seq<Record>>, stands: Option<seq<Record>>,
                         variablesMemberId: Option<string>, paramMemberId: Option<string>)
    returns (newStaff: Option<seq<Record>>, newStands: Option<seq<Record>>)
    ensures var id := RemoveTarget(variablesMemberId, paramMemberId);
      newStaff == Some(Without(RowsOf(staff), "memberId", OptStr(id)))
    ensures var id := RemoveTarget(variablesMemberId, paramMemberId);
      !AnyHolds(RowsOf(stands), "staffMembers", id) ==> newStands == stands
    ensures var id := RemoveTarget(variablesMemberId, paramMemberId);
      AnyHolds(RowsOf(stands), "staffMembers", id) ==>
        newStands == Some(StrippedAll(RowsOf(stands), "staffMembers", id.value))
        && forall i :: 0 <= i < |newStands.value| ==> id.value !in StrsOf(newStands.value[i], "staffMembers")
  {
    var id := RemoveTarget(variablesMemberId, paramMemberId);
    newStaff := Some(Without(RowsOf(staff), "memberId", OptStr(id)));
    newStands := StripFromStands(stands, "staffMembers", id);
  }
}

=== FILE: stand_form.dfy ===
/**
  * The stand form: a three-step dialog (information, staff, menu) whose
  * menu step exists only for Bartender stands. Each step is shown by a
  * child view that reports whether it is valid and what it holds; leaving
  * a step stores what that view holds, and the last step assembles the
  * stand that is created or edited.
  */
module StandForm {
  import opened Js
  import opened Cache

  datatype StandType = Cashier | Bartender | Door

  datatype Step = Info | Staff | Items

  /** What the view of the current step hands back: the stand information, the selected members or the selected items. */
  datatype Output = InfoOut(info: Record) | MembersOut(members: seq<string>) | ItemsOut(items: seq<string>)

  /** The child view of the current step: its `isValid()` answer and its getter's value. */
  datatype View = View(valid: bool, output: Output)

  /** The request the form ends with. */
  datatype Request = CreateStand(stand: Record) | EditStand(stand: Record)

  /** The form's state: current step, stand type, stand information and the two selections. */
  datatype FormState = FormState(step: Step, standType: StandType, info: Record, staffMembers: seq<string>, menuItems: seq<string>)

  /** The rendered view is always the one of the current step. */
  predicate Shows(step: Step, out: Output)
  {
    match step
    case Info => out.InfoOut?
    case Staff => out.MembersOut?
    case Items => out.ItemsOut?
  }

  /** The information a new stand starts from. */
  const EmptyInformation: Record := map["company" := Str(""), "eventId" := Str(""), "standName" := Str("")]

  /** `stand.staffMembers.at(0)`: `undefined` for a stand without members. */
  function FirstMemberId(stand: Record): Option<Value>
  {
    var members := StrsOf(stand, "staffMembers");
    if members == [] then None else Some(Str(members[0]))
  }

  /** The staff record of the stand's first member (`staff.find(e => e.memberId === stand.staffMembers.at(0))`). */
  function FirstMember(stand: Record, staff: seq<Record>): (r: Option<Record>)
    ensures r.Some? ==> r.value in staff && Get(r.value, "memberId") == FirstMemberId(stand)
    ensures r.None? ==> forall m :: m in staff ==> Get(m, "memberId") != FirstMemberId(stand)
  {
    match FirstWith(staff, "memberId", FirstMemberId(stand))
    case None => None
    case Some(k) => Some(staff[k])
  }

  /** The stand type the form opens with. */
  function InitialType(stand: Option<Record>, staff: Option<seq<Record>>): (r: StandType)
    ensures stand.None? ==> r == Bartender
    ensures stand.Some? && StrsOf(stand.value, "menuItems") != [] ==> r == Bartender
    ensures r == Door <==>
      stand.Some? && StrsOf(stand.value, "menuItems") == [] && staff.Some?
      && FirstMember(stand.value, staff.value).Some? && Get(FirstMember(stand.value, staff.value).value, "userClass") == Some(Num(3))
    ensures stand.Some? && StrsOf(stand.value, "menuItems") == [] && r != Door ==> r == Cashier
  {
    match stand
    case None => Bartender
    case Some(s) =>
      if StrsOf(s, "menuItems") != [] then Bartender
      else if staff.Some? && staff.value != [] then
        match FirstMember(s, staff.value)
        case Some(m) => if Get(m, "userClass") == Some(Num(3)) then Door else Cashier
        case None => Cashier
      else Cashier
  }

  /** `tabList`: the steps offered as tabs, in order. */
  function Tabs(standType: StandType): (r: seq<Step>)
    ensures |r| >= 2 && r[0] == Info && r[1] == Staff
    ensures Items in r <==> standType == Bartender
    ensures forall i, j :: 0 <= i < j < |r| ==> r[i] != r[j]
  {
    if standType == Bartender then [Info, Staff, Items] else [Info, Staff]
  }

  /** The state after the current step's view hands back what it holds. */
  function Commit(s: FormState, out: Output): (r: FormState)
    requires Shows(s.step, out)
    ensures r.step == s.step && r.standType == s.standType
    ensures s.step == Info ==> r == s.(info := out.info)
    ensures s.step == Staff ==> r == s.(staffMembers := out.members)
    ensures s.step == Items ==> r == s.(menuItems := out.items)
  {
    match out
    case InfoOut(i) => s.(info := i)
    case MembersOut(m) => s.(staffMembers := m)
    case ItemsOut(it) => s.(menuItems := it)
  }

  /** The state after a click on the tab of `target`. */
  function AfterClick(s: FormState, target: Step, view: View): (r: FormState)
    requires Shows(s.step, view.output)
    ensures r.standType == s.standType
    ensures r.info != s.info ==> view.valid && s.step == Info && r.info == view.output.info
    ensures r.staffMembers != s.staffMembers ==> view.valid && s.step == Staff && r.staffMembers == view.output.members
    ensures r.menuItems != s.menuItems ==> view.valid && s.step == Items && r.menuItems == view.output.items
  {
    if target == s.step || !view.valid then s else Commit(s, view.output).(step := target)
  }

  /** The stand handed to the API: the information, then the two lists the stand type calls for. */
  function SavedStand(info: Record, standType: StandType, staffMembers: seq<string>, values: seq<string>): (r: Record)
    ensures r.Keys == info.Keys + {"menuItems", "staffMembers"}
    ensures forall k :: k in info && k != "menuItems" && k != "staffMembers" ==> r[k] == info[k]
    ensures standType != Bartender ==> r["menuItems"] == Strs([]) && r["staffMembers"] == Strs(values)
    ensures standType == Bartender ==> r["menuItems"] == Strs(values) && r["staffMembers"] == Strs(staffMembers)
  {
    var base := Merge(info, map["menuItems" := Strs([]), "staffMembers" := Strs([])]);
    var cashierOrDoor := standType == Cashier || standType == Door;
    base["menuItems" := Strs(if cashierOrDoor then [] else values)]["staffMembers" := Strs(if cashierOrDoor then values else staffMembers)]
  }

  /** The request for a stand: an edit when the form was opened on an existing stand. */
  function RequestFor(editing: bool, stand: Record): (r: Request)
    ensures r.stand == stand
    ensures r.EditStand? <==> editing
  {
    if editing then EditStand(stand) else CreateStand(stand)
  }

  /** The state and request after the current step's view submits `values`. */
  function AfterSubmit(s: FormState, editing: bool, values: seq<string>, view: View): (r: (FormState, Option<Request>))
    requires Shows(s.step, view.output)
    ensures !view.valid ==> r == (s, None)
    ensures r.0.standType == s.standType
    ensures r.0.info != s.info ==> s.step == Info && r.0.info == view.output.info
    ensures r.0.staffMembers != s.staffMembers ==> s.step == Staff && r.0.staffMembers == view.output.members
    ensures r.0.menuItems == s.menuItems
    ensures r.1.Some? ==> r.1.value.stand == SavedStand(s.info, s.standType, s.staffMembers, values) && (r.1.value.EditStand? <==> editing)
  {
    if !view.valid then (s, None)
    else match s.step
      case Info => (Commit(s, view.output).(step := Staff), None)
      case Staff =>
        if s.standType == Bartender then (Commit(s, view.output).(step := Items), None)
        else (Commit(s, view.output), Some(RequestFor(editing, SavedStand(s.info, s.standType, s.staffMembers, values))))
      case Items => (s, Some(RequestFor(editing, SavedStand(s.info, s.standType, s.staffMembers, values))))
  }

  /** The stand form's state, updated in place by its handlers. */
  class Form {
    const editing: bool
    var step: Step
    var standType: StandType
    var standInformation: Record
    var staffMembers: seq<string>
    var menuItems: seq<string>

    function State(): FormState
      reads this
    {
      FormState(step, standType, standInformation, staffMembers, menuItems)
    }

    /** The form opened on `stand` (or on nothing, for a new stand), with the event's staff list if loaded. */
    constructor(stand: Option<Record>, staff: Option<seq<Record>>)
      ensures editing == stand.Some?
      ensures step == Info
      ensures standType == InitialType(stand, staff)
      ensures standInformation == if stand.Some? then stand.value else EmptyInformation
      ensures staffMembers == if stand.Some? then StrsOf(stand.value, "staffMembers") else []
      ensures menuItems == if stand.Some? then StrsOf(stand.value, "menuItems") else []
    {
      editing := stand.Some?;
      step := Info;
      standType := InitialType(stand, staff);
      standInformation := if stand.Some? then stand.value else EmptyInformation;
      staffMembers := if stand.Some? then StrsOf(stand.value, "staffMembers") else [];
      menuItems := if stand.Some? then StrsOf(stand.value, "menuItems") else [];
    }

    /** Stores what the current step's view holds. */
    method CommitView(out: Output)
      requires Shows(step, out)
      modifies this
      ensures State() == Commit(old(State()), out)
    {
      match out
      case InfoOut(i) => standInformation := i;
      case MembersOut(m) => staffMembers := m;
      case ItemsOut(it) => menuItems := it;
    }

    /** A click on the tab of `target`. */
    method ClickTab(target: Step, view: View)
      requires Shows(step, view.output)
      modifies this
      ensures State() == AfterClick(old(State()), target, view)
    {
      if target == step || !view.valid {
        return;
      }
      CommitView(view.output);
      step := target;
    }

    /** `onSubmit`: advance a step or assemble the stand and return its request. */
    method Submit(values: seq<string>, view: View) returns (request: Option<Request>)
      requires Shows(step, view.output)
      modifies this
      ensures (State(), request) == AfterSubmit(old(State()), editing, values, view)
    {
      if !view.valid {
        return None;
      }
      var info, members := standInformation, staffMembers;
      var save := false;
      if step == Info {
        CommitView(view.output);
        step := Staff;
      } else if step == Staff {
        CommitView(view.output);
        if standType == Bartender {
          step := Items;
        } else {
          save := true;
        }
      } else {
        save := true;
      }
      if !save {
        return None;
      }
      var standInfo := SavedStand(info, standType, members, values);
      request := Some(RequestFor(editing, standInfo));
    }

    /** `onChangeStandType`: a new type clears both selections. */
    method ChangeStandType(t: StandType)
      modifies this
      ensures State() == old(State()).(standType := t, staffMembers := [], menuItems := [])
    {
      staffMembers := [];
      menuItems := [];
      standType := t;
    }
  }

  /** A tab click stays put when the target is the current step or the view is invalid; otherwise it moves and stores the view. */
  lemma ClickMovesOnlyWhenValid(s: FormState, target: Step, view: View)
    requires Shows(s.step, view.output)
    ensures AfterClick(s, target, view).step == (if view.valid then target else s.step)
    ensures !view.valid || target == s.step ==> AfterClick(s, target, view) == s
    ensures view.valid && target != s.step ==> AfterClick(s, target, view) == Commit(s, view.output).(step := target)
  {
  }

  /** Submitting never skips a step, and reaches the menu step only for a Bartender stand coming from the staff step. */
  lemma {:induction false} SubmitOrder(s: FormState, editing: bool, values: seq<string>, view: View)
    requires Shows(s.step, view.output)
    ensures var (t, req) := AfterSubmit(s, editing, values, view);
      (t.step == Items && s.step != Items ==> s.step == Staff && s.standType == Bartender)
      && (t.step == Staff ==> s.step in {Info, Staff})
      && (req.Some? <==> view.valid && (s.step == Items || (s.step == Staff && s.standType != Bartender)))
      && (req.Some? ==> req.value.EditStand? == editing)
  {
  }

  /**
    * A Bartender stand filled in from the first step: after three valid
    * submits the stand carries the information of step one, the members of
    * step two and the items of step three.
    */
  lemma BartenderWizard(s: FormState, editing: bool, info: Record, members: seq<string>, items: seq<string>, v1: seq<string>, v2: seq<string>)
    requires s.step == Info && s.standType == Bartender
    ensures var (s1, r1) := AfterSubmit(s, editing, v1, View(true, InfoOut(info)));
      var (s2, r2) := AfterSubmit(s1, editing, v2, View(true, MembersOut(members)));
      var (s3, r3) := AfterSubmit(s2, editing, items, View(true, ItemsOut(items)));
      r1.None? && r2.None? && s3 == s2 && r3.Some?
      && r3.value.stand["menuItems"] == Strs(items)
      && r3.value.stand["staffMembers"] == Strs(members)
      && (forall k :: k in info && k != "menuItems" && k != "staffMembers" ==> k in r3.value.stand && r3.value.stand[k] == info[k])
  {
    var (s1, r1) := AfterSubmit(s, editing, v1, View(true, InfoOut(info)));
    assert s1 == s.(info := info, step := Staff);
    var (s2, r2) := AfterSubmit(s1, editing, v2, View(true, MembersOut(members)));
    assert s2 == s1.(staffMembers := members, step := Items);
  }

  /** A Cashier or Door stand is saved from the staff step, with the submitted members and no menu. */
  lemma CashierOrDoorWizard(s: FormState, editing: bool, info: Record, members: seq<string>, v1: seq<string>)
    requires s.step == Info && s.standType != Bartender
    ensures var (s1, r1) := AfterSubmit(s, editing, v1, View(true, InfoOut(info)));
      var (s2, r2) := AfterSubmit(s1, editing, members, View(true, MembersOut(members)));
      r1.None? && s2.step == Staff && r2.Some?
      && r2.value.stand["menuItems"] == Strs([])
      && r2.value.stand["staffMembers"] == Strs(members)
      && (forall k :: k in info && k != "menuItems" && k != "staffMembers" ==> k in r2.value.stand && r2.value.stand[k] == info[k])
  {
    var (s1, r1) := AfterSubmit(s, editing, v1, View(true, InfoOut(info)));
    assert s1 == s.(info := info, step := Staff);
  }
}

=== FILE: stand_form_info.dfy ===
/**
  * The information step of the stand form: the case-insensitive check that
  * the stand name is not already used by another stand of the event, and
  * the stand information the step hands back.
  */
module StandFormInfo {
  import opened Js

  function StandName(e: Record): string
  {
    Text(Get(e, "standName"))
  }

  /** The lower-cased original name of the edited stand, or "" for a new stand. */
  function LowerOriginal(proppedStandName: Option<string>): (r: string)
    ensures proppedStandName.None? || proppedStandName.value == "" ==> r == ""
    ensures proppedStandName.Some? ==> r == Lower(proppedStandName.value)
  {
    if proppedStandName.Some? && proppedStandName.value != "" then Lower(proppedStandName.value) else ""
  }

  /** The lower-cased names a new name may not take: every cached stand's, except the edited stand's own. */
  function TakenNames(eventStands: Option<seq<Record>>, proppedStandName: Option<string>): (r: set<string>)
    ensures forall n :: n in r <==>
      eventStands.Some? && n != LowerOriginal(proppedStandName)
      && exists s :: s in eventStands.value && Lower(StandName(s)) == n
  {
    var stands := if eventStands.Some? then eventStands.value else [];
    set s | s in stands && Lower(StandName(s)) != LowerOriginal(proppedStandName) :: Lower(StandName(s))
  }

  /** `isValid()`: the form's own validity, unless the lower-cased name is taken. */
  function IsValid(eventStands: Option<seq<Record>>, proppedStandName: Option<string>, newName: Option<string>, formValid: bool): (r: bool)
    ensures r <==> formValid && !(newName.Some? && Lower(newName.value) in TakenNames(eventStands, proppedStandName))
  {
    if newName.Some? && Lower(newName.value) in TakenNames(eventStands, proppedStandName) then false else formValid
  }

  /** A name that differs only in case from another stand's name is refused. */
  lemma DuplicateNameRefused(eventStands: seq<Record>, proppedStandName: Option<string>, newName: string, formValid: bool, s: Record)
    requires s in eventStands && Lower(StandName(s)) == Lower(newName)
    requires Lower(newName) != LowerOriginal(proppedStandName)
    ensures !IsValid(Some(eventStands), proppedStandName, Some(newName), formValid)
  {
  }

  /** Keeping the edited stand's own name, in any case, is never refused as a duplicate. */
  lemma OwnNameAccepted(eventStands: Option<seq<Record>>, standName: string, newName: string, formValid: bool)
    requires standName != "" && Lower(newName) == Lower(standName)
    ensures IsValid(eventStands, Some(standName), Some(newName), formValid) == formValid
  {
  }

  /** `getStandInfo()`: the current information with the typed name. */
  function GetStandInfo(info: Record, newName: string): (r: Record)
    ensures r.Keys == info.Keys + {"standName"}
    ensures r["standName"] == Str(newName)
    ensures forall k :: k in info && k != "standName" ==> r[k] == info[k]
  {
    info["standName" := Str(newName)]
  }

  /** `onSubmit`: the form's values spread over the current information. */
  function OnSubmit(info: Record, values: Record): (r: Record)
    ensures r.Keys == info.Keys + values.Keys
    ensures forall k :: k in values ==> r[k] == values[k]
    ensures forall k :: k in info && k !in values ==> r[k] == info[k]
  {
    Merge(info, values)
  }

  /** Submitting only a name gives the same information as `getStandInfo()` with that name. */
  lemma SubmitNameIsGetStandInfo(info: Record, newName: string)
    ensures OnSubmit(info, map["standName" := Str(newName)]) == GetStandInfo(info, newName)
  {
  }
}

=== FILE: stand_items.dfy ===
/**
  * The menu step of the stand form: the checkbox selection over the
  * event's menu items, "Select All", the search box and the step's validity.
  */
module StandItems {
  import opened Js
  import opened Lists

  function ItemName(e: Record): string
  {
    Text(Get(e, "itemName"))
  }

  function ItemNames(menu: seq<Record>): (r: seq<string>)
    ensures |r| == |menu|
    ensures forall i :: 0 <= i < |menu| ==> r[i] == ItemName(menu[i])
  {
    if menu == [] then [] else [ItemName(menu[0])] + ItemNames(menu[1..])
  }

  /** The menu items the search box lets through, in menu order (no menu loaded shows none). */
  function Shown(data: Option<seq<Record>>, search: string): (r: seq<Record>)
    ensures data.None? ==> r == []
    ensures forall e :: e in r <==> data.Some? && e in data.value && SearchShows(ItemName(e), search)
  {
    match data
    case None => []
    case Some(menu) => Filter(menu, (e: Record) => SearchShows(ItemName(e), search))
  }

  /** The selected item names of the menu step. */
  class Selection {
    var selectedItems: seq<string>

    /** The selection starts as the stand's current menu. */
    constructor(menuItems: seq<string>)
      ensures selectedItems == menuItems
    {
      selectedItems := menuItems;
    }

    /** `isValid()`: at least one item is selected. */
    function IsValid(): (r: bool)
      reads this
      ensures r <==> |selectedItems| > 0
    {
      |selectedItems| > 0
    }

    /** An item's checkbox: a checked name leaves the selection, an unchecked one joins at the end. */
    method Toggle(itemName: string)
      modifies this
      ensures selectedItems == Toggled(old(selectedItems), itemName)
      ensures itemName in selectedItems <==> itemName !in old(selectedItems)
      ensures forall n :: n != itemName ==> (n in selectedItems <==> n in old(selectedItems))
    {
      if itemName in selectedItems {
        selectedItems := RemoveAll(selectedItems, itemName);
      } else {
        selectedItems := selectedItems + [itemName];
      }
    }

    /** "Select All": the selection becomes every menu item name, in menu order. */
    method SelectAll(menu: seq<Record>)
      modifies this
      ensures selectedItems == ItemNames(menu)
      ensures IsValid() <==> menu != []
    {
      selectedItems := ItemNames(menu);
    }
  }
}

=== FILE: stand_lists.dfy ===
/**
  * What the menu-item and staff hooks do to the cached stands: each stand
  * lists its menu items (`menuItems`) and its members (`staffMembers`) by
  * name or id. Deleting an item or a member is refused while some stand
  * lists nothing else; after a delete the id is stripped from every stand,
  * and after an item rename the first occurrence of the old name is
  * replaced. The stand loops below are the source's `for ... of` loops.
  */
module StandLists {
  import opened Js
  import opened Lists
  import opened Cache

  /** Stand `i` is the first whose list `f` is exactly `[id]`. */
  predicate FirstSole(stands: seq<Record>, f: string, id: Option<string>, i: int)
  {
    0 <= i < |stands| && id.Some? && StrsOf(stands[i], f) == [id.value]
    && forall j :: 0 <= j < i ==> StrsOf(stands[j], f) != [id.value]
  }

  /** The first stand whose list `f` is exactly `[id]`: `stands.find(s => length === 1 && at(0) === id)`. */
  function SoleHolder(stands: seq<Record>, f: string, id: Option<string>): (r: Option<Record>)
    ensures r.None? <==> forall i :: 0 <= i < |stands| ==> !(id.Some? && StrsOf(stands[i], f) == [id.value])
    ensures r.Some? ==> r.value in stands && id.Some? && StrsOf(r.value, f) == [id.value]
    ensures r.Some? ==> exists i :: FirstSole(stands, f, id, i) && r.value == stands[i]
  {
    match FirstSoleIndex(stands, f, id)
    case None => None
    case Some(i) => assert FirstSole(stands, f, id, i); Some(stands[i])
  }

  /** The index `findIndex` would give for `SoleHolder`'s test. */
  function FirstSoleIndex(stands: seq<Record>, f: string, id: Option<string>): (r: Option<nat>)
    ensures r.None? <==> forall i :: 0 <= i < |stands| ==> !(id.Some? && StrsOf(stands[i], f) == [id.value])
    ensures r.Some? ==> FirstSole(stands, f, id, r.value)
  {
    if stands == [] then None
    else if id.Some? && StrsOf(stands[0], f) == [id.value] then Some(0)
    else
      var rest := FirstSoleIndex(stands[1..], f, id);
      assert forall i :: 1 <= i < |stands| ==> stands[i] == stands[1..][i - 1];
      match rest
      case None => None
      case Some(k) => Some(k + 1)
  }

  /** Whether some stand's list `f` includes `id` (`includes(undefined)` is false on a list of strings). */
  predicate AnyHolds(stands: seq<Record>, f: string, id: Option<string>)
  {
    id.Some? && exists i :: 0 <= i < |stands| && id.value in StrsOf(stands[i], f)
  }

  /** One stand with every occurrence of `id` filtered out of its list `f`; untouched when absent. */
  function Stripped(stand: Record, f: string, id: string): Record
  {
    if id in StrsOf(stand, f) then stand[f := Strs(RemoveAll(StrsOf(stand, f), id))] else stand
  }

  /** Every stand stripped of `id`. */
  function StrippedAll(stands: seq<Record>, f: string, id: string): (r: seq<Record>)
    ensures |r| == |stands|
    ensures forall i :: 0 <= i < |r| ==> id !in StrsOf(r[i], f)
    ensures forall i, x :: 0 <= i < |r| && x != id ==> (x in StrsOf(r[i], f) <==> x in StrsOf(stands[i], f))
    ensures forall i, g :: 0 <= i < |r| && g != f ==> Get(r[i], g) == Get(stands[i], g)
    ensures forall i :: 0 <= i < |r| && id !in StrsOf(stands[i], f) ==> r[i] == stands[i]
  {
    seq(|stands|, i requires 0 <= i < |stands| => Stripped(stands[i], f, id))
  }

  /** The stands updater after a delete: unchanged when no stand lists `id`, every stand stripped otherwise. */
  method StripFromStands(oldData: Option<seq<Record>>, f: string, id: Option<string>) returns (r: Option<seq<Record>>)
    ensures !AnyHolds(RowsOf(oldData), f, id) ==> r == oldData
    ensures AnyHolds(RowsOf(oldData), f, id) ==> r == Some(StrippedAll(RowsOf(oldData), f, id.value))
  {
    var stands := RowsOf(oldData);
    if !AnyHolds(stands, f, id) {
      return oldData;
    }
    var tmp := stands;
    var i := 0;
    while i < |tmp|
      invariant |tmp| == |stands| && 0 <= i <= |tmp|
      invariant forall j :: 0 <= j < i ==> tmp[j] == Stripped(stands[j], f, id.value)
      invariant forall j :: i <= j < |tmp| ==> tmp[j] == stands[j]
    {
      var list := StrsOf(tmp[i], f);
      if id.value in list {
        tmp := tmp[i := tmp[i][f := Strs(RemoveAll(list, id.value))]];
      }
      i := i + 1;
    }
    assert tmp == StrippedAll(stands, f, id.value);
    r := Some(tmp);
  }

  /**
    * The guard is what keeps the cascade safe: when no stand lists only `id`,
    * and no stand lists a name twice, no stand that listed something is left
    * with an empty list.
    */
  lemma GuardKeepsStandsNonEmpty(stands: seq<Record>, f: string, id: string)
    requires SoleHolder(stands, f, Some(id)).None?
    requires forall i :: 0 <= i < |stands| ==> NoRepeats(StrsOf(stands[i], f))
    ensures forall i :: 0 <= i < |stands| && StrsOf(stands[i], f) != [] ==> StrsOf(StrippedAll(stands, f, id)[i], f) != []
  {
    var r := StrippedAll(stands, f, id);
    forall i | 0 <= i < |stands| && StrsOf(stands[i], f) != []
      ensures StrsOf(r[i], f) != []
    {
      var list := StrsOf(stands[i], f);
      var other := if list[0] != id then list[0] else list[1];
      assert other in list && other != id;
      assert other in StrsOf(r[i], f);
    }
  }

  /** One stand with the first occurrence of `from` in its list `f` replaced by `to`; untouched when absent. */
  function Renamed(stand: Record, f: string, from: string, to: string): Record
  {
    if from in StrsOf(stand, f) then stand[f := Strs(ReplaceFirst(StrsOf(stand, f), from, to))] else stand
  }

  /** Every stand renamed. */
  function RenamedAll(stands: seq<Record>, f: string, from: string, to: string): (r: seq<Record>)
    ensures |r| == |stands|
    ensures forall i :: 0 <= i < |r| && from !in StrsOf(stands[i], f) ==> r[i] == stands[i]
    ensures forall i, g :: 0 <= i < |r| && g != f ==> Get(r[i], g) == Get(stands[i], g)
  {
    seq(|stands|, i requires 0 <= i < |stands| => Renamed(stands[i], f, from, to))
  }

  /** A stand that listed `from` lists `to` in its place, at the same position, with every other entry kept. */
  lemma RenameLists(stands: seq<Record>, f: string, from: string, to: string, i: nat)
    requires i < |stands| && from in StrsOf(stands[i], f)
    ensures var list := StrsOf(stands[i], f);
      var k := IndexOf(list, from);
      StrsOf(RenamedAll(stands, f, from, to)[i], f) == list[k := to]
  {
  }

  /** Renaming one stand to a name it does not use, then back, restores it. */
  lemma RenameRoundTripOne(stand: Record, f: string, from: string, to: string)
    requires to !in StrsOf(stand, f)
    ensures Renamed(Renamed(stand, f, from, to), f, to, from) == stand
  {
    var list := StrsOf(stand, f);
    if from in list {
      var list2 := ReplaceFirst(list, from, to);
      var once := stand[f := Strs(list2)];
      assert to in list2 by {
        assert list2[IndexOf(list, from)] == to;
      }
      ReplaceFirstRoundTrip(list, from, to);
      assert StrsOf(once, f) == list2;
      assert Renamed(once, f, to, from) == once[f := Strs(list)];
      assert stand[f] == Strs(list);
      assert once[f := Strs(list)] == stand;
    }
  }

  /** Renaming to a name no stand uses, then back, restores every stand. */
  lemma RenameRoundTrip(stands: seq<Record>, f: string, from: string, to: string)
    requires forall i :: 0 <= i < |stands| ==> to !in StrsOf(stands[i], f)
    ensures RenamedAll(RenamedAll(stands, f, from, to), f, to, from) == stands
  {
    var once := RenamedAll(stands, f, from, to);
    var twice := RenamedAll(once, f, to, from);
    forall i | 0 <= i < |stands|
      ensures twice[i] == stands[i]
    {
      RenameRoundTripOne(stands[i], f, from, to);
    }
  }

  /** The stands updater after an item rename: unchanged when no stand lists `from`, every stand renamed otherwise. */
  method RenameInStands(oldData: Option<seq<Record>>, f: string, from: string, to: string) returns (r: Option<seq<Record>>)
    ensures !AnyHolds(RowsOf(oldData), f, Some(from)) ==> r == oldData
    ensures AnyHolds(RowsOf(oldData), f, Some(from)) ==> r == Some(RenamedAll(RowsOf(oldData), f, from, to))
  {
    var stands := RowsOf(oldData);
    if !AnyHolds(stands, f, Some(from)) {
      return oldData;
    }
    var tmp := stands;
    var i := 0;
    while i < |tmp|
      invariant |tmp| == |stands| && 0 <= i <= |tmp|
      invariant forall j :: 0 <= j < i ==> tmp[j] == Renamed(stands[j], f, from, to)
      invariant forall j :: i <= j < |tmp| ==> tmp[j] == stands[j]
    {
      var list := StrsOf(tmp[i], f);
      if from in list {
        var index := IndexOf(list, from);
        tmp := tmp[i := tmp[i][f := Strs(list[index := to])]];
      }
      i := i + 1;
    }
    assert tmp == RenamedAll(stands, f, from, to);
    r := Some(tmp);
  }
}

=== FILE: stand_members.dfy ===
/**
  * The staff step of the stand form: which members may be put on the
  * stand, the checkbox selection over them, "Select All", the search box,
  * and the step's validity.
  */
module StandMembers {
  import opened Js
  import opened Lists
  import opened StandForm

  /** The `userClass` a member must have to work on a stand of the given type. */
  function UserClassFor(t: StandType): (c: int)
    ensures t == Cashier ==> c == 2
    ensures t == Bartender ==> c == 1
    ensures t == Door ==> c == 3
  {
    match t
    case Cashier => 2
    case Bartender => 1
    case Door => 3
  }

  function MemberId(e: Record): string
  {
    Text(Get(e, "memberId"))
  }

  /** The ids held by every stand other than the one being edited (matched by name). */
  function TakenIds(stands: seq<Record>, proppedStandName: Option<string>): (r: set<string>)
    ensures forall m :: m in r <==>
      exists s :: s in stands && Get(s, "standName") != OptStr(proppedStandName) && m in StrsOf(s, "staffMembers")
  {
    set s, m | s in stands && Get(s, "standName") != OptStr(proppedStandName) && m in StrsOf(s, "staffMembers") :: m
  }

  predicate Eligible(e: Record, t: StandType, taken: set<string>)
  {
    Get(e, "userClass") == Some(Num(UserClassFor(t))) && MemberId(e) !in taken
  }

  /** `eligibleStaff`: the members of the right class that no other stand holds, in staff order. */
  function EligibleStaff(data: Option<seq<Record>>, stands: Option<seq<Record>>, t: StandType, proppedStandName: Option<string>): (r: seq<Record>)
    ensures data.None? || stands.None? ==> r == []
    ensures forall e :: e in r <==>
      data.Some? && stands.Some? && e in data.value
      && Get(e, "userClass") == Some(Num(UserClassFor(t)))
      && !(exists s :: s in stands.value && Get(s, "standName") != OptStr(proppedStandName) && MemberId(e) in StrsOf(s, "staffMembers"))
  {
    if data.None? || stands.None? then []
    else
      var taken := TakenIds(stands.value, proppedStandName);
      Filter(data.value, (e: Record) => Eligible(e, t, taken))
  }

  /** The members of the edited stand stay eligible for it when no other stand holds them. */
  lemma OwnMembersStayEligible(data: seq<Record>, stands: seq<Record>, t: StandType, standName: string, e: Record)
    requires e in data && Get(e, "userClass") == Some(Num(UserClassFor(t)))
    requires forall s :: s in stands && MemberId(e) in StrsOf(s, "staffMembers") ==> Get(s, "standName") == Some(Str(standName))
    ensures e in EligibleStaff(Some(data), Some(stands), t, Some(standName))
  {
  }

  function MemberIds(staff: seq<Record>): (r: seq<string>)
    ensures |r| == |staff|
    ensures forall i :: 0 <= i < |staff| ==> r[i] == MemberId(staff[i])
  {
    if staff == [] then [] else [MemberId(staff[0])] + MemberIds(staff[1..])
  }

  /** The members the search box lets through, in order. */
  function Shown(eligible: seq<Record>, search: string): (r: seq<Record>)
    ensures forall e :: e in r <==> e in eligible && SearchShows(Text(Get(e, "memberName")), search)
  {
    Filter(eligible, (e: Record) => SearchShows(Text(Get(e, "memberName")), search))
  }

  /** An empty search shows every eligible member. */
  lemma EmptySearchShowsAll(eligible: seq<Record>)
    ensures Shown(eligible, "") == eligible
  {
    FilterKeepsAll(eligible, (e: Record) => SearchShows(Text(Get(e, "memberName")), ""));
  }

  /** The selected member ids of the staff step. */
  class Selection {
    var selectedStaff: seq<string>

    constructor(staffMembers: seq<string>)
      ensures selectedStaff == staffMembers
    {
      selectedStaff := staffMembers;
    }

    /** `isValid()`: at least one member is selected. */
    function IsValid(): (r: bool)
      reads this
      ensures r <==> |selectedStaff| > 0
    {
      |selectedStaff| > 0
    }

    /** `getMembers()`. */
    function Members(): (r: seq<string>)
      reads this
      ensures r == selectedStaff
    {
      selectedStaff
    }

    /** A member's checkbox: a checked id leaves the selection, an unchecked one joins at the end. */
    method Toggle(memberId: string)
      modifies this
      ensures selectedStaff == Toggled(old(selectedStaff), memberId)
      ensures memberId in selectedStaff <==> memberId !in old(selectedStaff)
      ensures forall m :: m != memberId ==> (m in selectedStaff <==> m in old(selectedStaff))
    {
      if memberId in selectedStaff {
        selectedStaff := RemoveAll(selectedStaff, memberId);
      } else {
        selectedStaff := selectedStaff + [memberId];
      }
    }

    /** "Select All": the selection becomes the eligible ids, in order. */
    method SelectAll(eligible: seq<Record>)
      modifies this
      ensures selectedStaff == MemberIds(eligible)
      ensures IsValid() <==> eligible != []
    {
      selectedStaff := MemberIds(eligible);
    }
  }
}

=== FILE: stands_api.dfy ===
/**
  * The stands hook: the cache updaters run after a successful create, edit
  * or delete of a stand.
  */
module StandsApi {
  import opened Js
  import opened Cache

  /** `create.onSuccess`: the posted stand is put first. */
  function OnCreateSuccess(stands: Option<seq<Record>>, variables: Record): (r: seq<Record>)
    ensures |r| == |RowsOf(stands)| + 1 && r[0] == variables && r[1..] == RowsOf(stands)
  {
    Prepended(stands, variables)
  }

  /**
    * `edit.onSuccess`: the first stand named by the hook's original `standName`
    * takes the new fields, so a rename finds the stand by its old name.
    */
  function OnEditSuccess(stands: Option<seq<Record>>, paramStandName: Option<string>, variables: Record): (r: Option<seq<Record>>)
    ensures FirstWith(RowsOf(stands), "standName", OptStr(paramStandName)).None? ==> r == stands
    ensures r.Some? ==> |r.value| == |RowsOf(stands)|
    ensures r.Some? ==> forall i :: 0 <= i < |r.value| && !HasField(RowsOf(stands)[i], "standName", OptStr(paramStandName)) ==>
              r.value[i] == RowsOf(stands)[i]
    ensures FirstWith(RowsOf(stands), "standName", OptStr(paramStandName)).Some? ==>
      var k := FirstWith(RowsOf(stands), "standName", OptStr(paramStandName)).value;
      r.Some? && r.value[k].Keys == RowsOf(stands)[k].Keys + variables.Keys
      && (forall g :: g in variables ==> r.value[k][g] == variables[g])
      && (forall g :: g in RowsOf(stands)[k] && g !in variables ==> r.value[k][g] == RowsOf(stands)[k][g])
      && Get(r.value[k], "standName") == (if "standName" in variables then Some(variables["standName"]) else OptStr(paramStandName))
      && forall j :: 0 <= j < |r.value| && j != k ==> r.value[j] == RowsOf(stands)[j]
  {
    UpdateFirst(stands, "standName", OptStr(paramStandName), variables)
  }

  /** A rename takes effect: the edited stand carries the new name. */
  lemma EditRenames(stands: Option<seq<Record>>, paramStandName: Option<string>, variables: Record)
    requires FirstWith(RowsOf(stands), "standName", OptStr(paramStandName)).Some?
    requires "standName" in variables
    ensures var k := FirstWith(RowsOf(stands), "standName", OptStr(paramStandName)).value;
      OnEditSuccess(stands, paramStandName, variables).value[k]["standName"] == variables["standName"]
  {
    UpdateFirstFields(stands, "standName", OptStr(paramStandName), variables);
  }

  /** The stand a delete drops: `variables?.standName || param.standName`. */
  function RemoveTarget(variablesStandName: Option<string>, paramStandName: Option<string>): (id: Option<string>)
    ensures variablesStandName.Some? && variablesStandName.value != "" ==> id == variablesStandName
    ensures (variablesStandName.None? || variablesStandName.value == "") ==> id == paramStandName
  {
    OrElse(variablesStandName, paramStandName)
  }

  /** `remove.onSuccess`: every stand with the target name is dropped, the rest keep their order. */
  function OnRemoveSuccess(stands: Option<seq<Record>>, variablesStandName: Option<string>, paramStandName: Option<string>): (r: seq<Record>)
    ensures forall s :: s in r <==> s in RowsOf(stands) && Get(s, "standName") != OptStr(RemoveTarget(variablesStandName, paramStandName))
  {
    Without(RowsOf(stands), "standName", OptStr(RemoveTarget(variablesStandName, paramStandName)))
  }

  /** Deleting a stand just created, by its name, leaves the cache as deleting that name from the old cache would. */
  lemma RemoveUndoesCreate(stands: Option<seq<Record>>, name: string, variables: Record)
    requires Get(variables, "standName") == Some(Str(name)) && name != ""
    ensures OnRemoveSuccess(Some(OnCreateSuccess(stands, variables)), Some(name), None)
            == OnRemoveSuccess(stands, Some(name), None)
  {
    WithoutConcat([variables], RowsOf(stands), "standName", Some(Str(name)));
    assert Without([variables], "standName", Some(Str(name))) == [];
  }
}

=== FILE: stands_columns.dfy ===
/**
  * The stands table's columns: the Stand Type cell, which classifies a stand
  * from its items and its first member, and the View Staff / View Menu
  * buttons, each disabled while the list it opens is empty.
  */
module StandsColumns {
  import opened Js
  import opened StandForm

  /** The text shown for a stand type. */
  function TypeName(t: StandType): string
  {
    match t
    case Cashier => "Cashier"
    case Bartender => "Bartender"
    case Door => "Door"
  }

  /** The cells of one row of the stands table that are computed from the stand. */
  datatype Row = Row(standType: string, staffDisabled: bool, menuDisabled: bool)

  /** The Stand Type cell: Bartender with items, otherwise the class of the first member, or nothing if that member is unknown. */
  function StandTypeCell(stand: Record, staff: seq<Record>): (r: string)
    ensures StrsOf(stand, "menuItems") != [] ==> r == "Bartender"
    ensures StrsOf(stand, "menuItems") == [] ==> (r == "" <==> FirstMember(stand, staff).None?)
    ensures r == "Door" <==>
      StrsOf(stand, "menuItems") == [] && FirstMember(stand, staff).Some?
      && Get(FirstMember(stand, staff).value, "userClass") == Some(Num(3))
    ensures r == "Cashier" <==>
      StrsOf(stand, "menuItems") == [] && FirstMember(stand, staff).Some?
      && Get(FirstMember(stand, staff).value, "userClass") != Some(Num(3))
  {
    if StrsOf(stand, "menuItems") != [] then "Bartender"
    else match FirstMember(stand, staff)
      case None => ""
      case Some(m) => if Get(m, "userClass") == Some(Num(3)) then "Door" else "Cashier"
  }

  /** The computed cells of a stand's row. */
  function RowOf(stand: Record, staff: seq<Record>): (r: Row)
    ensures r.staffDisabled <==> |StrsOf(stand, "staffMembers")| == 0
    ensures r.menuDisabled <==> |StrsOf(stand, "menuItems")| == 0
    ensures r.standType == StandTypeCell(stand, staff)
  {
    Row(StandTypeCell(stand, staff), StrsOf(stand, "staffMembers") == [], StrsOf(stand, "menuItems") == [])
  }

  /** A row says Bartender exactly when its View Menu button is enabled. */
  lemma BartenderIffMenuEnabled(stand: Record, staff: seq<Record>)
    ensures RowOf(stand, staff).standType == "Bartender" <==> !RowOf(stand, staff).menuDisabled
  {
  }

  /**
    * When every staff record has an id, a Cashier or Door row has members, so
    * its View Staff button is enabled.
    */
  lemma ClassifiedRowHasStaff(stand: Record, staff: seq<Record>)
    requires forall m :: m in staff ==> "memberId" in m
    requires RowOf(stand, staff).standType in {"Cashier", "Door"}
    ensures !RowOf(stand, staff).staffDisabled
  {
    var m := FirstMember(stand, staff).value;
    assert Get(m, "memberId") != None;
  }

  /**
    * The cell agrees with the type the stand form opens with; where the cell
    * is empty (first member unknown) the form falls back to Cashier.
    */
  lemma CellAgreesWithForm(stand: Record, staff: seq<Record>)
    ensures StandTypeCell(stand, staff) != "" ==> StandTypeCell(stand, staff) == TypeName(InitialType(Some(stand), Some(staff)))
    ensures StandTypeCell(stand, staff) == "" ==> InitialType(Some(stand), Some(staff)) == Cashier
  {
    if StrsOf(stand, "menuItems") == [] && staff == [] {
      assert FirstMember(stand, staff).None?;
    }
  }
}

=== FILE: stands_view.dfy ===
/**
  * The stands view's `calcListItems`: the rows of the list a stand's View
  * Staff or View Menu button opens. Staff rows show each member's name and
  * email looked up by id; menu rows show each item still on the menu with
  * its price in the event's default currency.
  */
module StandsView {
  import opened Js
  import opened Lists
  import opened Cache

  /** One row of the list dialog. */
  datatype ListItem = ListItem(title: Option<Value>, value: Option<Value>)

  /** The staff rows: one per stand member, in order; an unknown id gives an empty row. */
  function StaffItems(stand: Record, staff: Option<seq<Record>>): (r: seq<ListItem>)
    ensures |r| == |StrsOf(stand, "staffMembers")|
    ensures forall i :: 0 <= i < |r| ==>
      var id := StrsOf(stand, "staffMembers")[i];
      (exists m :: m in RowsOf(staff) && KeyOf(m, "memberId") == id) ==>
        exists m :: m in RowsOf(staff) && KeyOf(m, "memberId") == id
          && r[i] == ListItem(Get(m, "memberName"), Get(m, "memberEmail"))
    ensures forall i :: 0 <= i < |r| ==>
      (forall m :: m in RowsOf(staff) ==> KeyOf(m, "memberId") != StrsOf(stand, "staffMembers")[i]) ==>
        r[i] == ListItem(None, None)
  {
    var staffMap := IndexBy(RowsOf(staff), "memberId");
    var ids := StrsOf(stand, "staffMembers");
    seq(|ids|, i requires 0 <= i < |ids| =>
      if ids[i] in staffMap then ListItem(Get(staffMap[ids[i]], "memberName"), Get(staffMap[ids[i]], "memberEmail"))
      else ListItem(None, None))
  }

  /** A member listed by a stand is shown with the last staff record carrying that id. */
  lemma StaffItemIsLastRecord(stand: Record, staff: Option<seq<Record>>, i: nat, k: nat)
    requires i < |StrsOf(stand, "staffMembers")| && k < |RowsOf(staff)|
    requires KeyOf(RowsOf(staff)[k], "memberId") == StrsOf(stand, "staffMembers")[i]
    requires forall j :: k < j < |RowsOf(staff)| ==> KeyOf(RowsOf(staff)[j], "memberId") != KeyOf(RowsOf(staff)[k], "memberId")
    ensures StaffItems(stand, staff)[i] == ListItem(Get(RowsOf(staff)[k], "memberName"), Get(RowsOf(staff)[k], "memberEmail"))
  {
    IndexByLastWins(RowsOf(staff), "memberId", k);
  }

  /** `(currencies || []).find((e) => e.isDefault)?.currency`. */
  function DefaultCurrency(currencies: Option<seq<Record>>): (r: Option<Value>)
    ensures r != None ==> exists c :: c in RowsOf(currencies) && Truthy(Get(c, "isDefault")) && Get(c, "currency") == r
    ensures (forall c :: c in RowsOf(currencies) ==> !Truthy(Get(c, "isDefault"))) ==> r == None
    ensures forall k :: (0 <= k < |RowsOf(currencies)| && Truthy(Get(RowsOf(currencies)[k], "isDefault"))
                         && forall j :: 0 <= j < k ==> !Truthy(Get(RowsOf(currencies)[j], "isDefault")))
                        ==> r == Get(RowsOf(currencies)[k], "currency")
  {
    var rows := RowsOf(currencies);
    match FindIndex(rows, (e: Record) => Truthy(Get(e, "isDefault")))
    case None => None
    case Some(k) => Get(rows[k], "currency")
  }

  /** The text of a menu row: the price, a space, and the default currency. */
  function PriceText(item: Record, currency: Option<Value>): string
  {
    Text(Get(item, "itemPrice")) + " " + Text(currency)
  }

  /** The menu rows for the names `names`: those on the menu, in order, each with its price. */
  function MenuItemsOf(names: seq<string>, menuMap: map<string, Record>, currency: Option<Value>): (r: seq<ListItem>)
    ensures |r| <= |names|
    ensures forall x :: x in r ==>
      (x.title.Some? && x.title.value.Str? && x.title.value.s in names
       && x.title.value.s in menuMap && x.value == Some(Str(PriceText(menuMap[x.title.value.s], currency))))
  {
    if names == [] then []
    else
      var e := names[0];
      var rest := MenuItemsOf(names[1..], menuMap, currency);
      if e in menuMap then [ListItem(Some(Str(e)), Some(Str(PriceText(menuMap[e], currency))))] + rest else rest
  }

  /** The titles of menu rows. */
  function Titles(items: seq<ListItem>): seq<string>
  {
    if items == [] then []
    else (if items[0].title.Some? && items[0].title.value.Str? then [items[0].title.value.s] else []) + Titles(items[1..])
  }

  /** The menu rows name exactly the stand's items that are on the menu, in the stand's order. */
  lemma {:induction false} MenuTitlesAreFilter(names: seq<string>, menuMap: map<string, Record>, currency: Option<Value>)
    ensures Titles(MenuItemsOf(names, menuMap, currency)) == Filter(names, (e: string) => e in menuMap)
  {
    if names != [] {
      MenuTitlesAreFilter(names[1..], menuMap, currency);
      var rest := MenuItemsOf(names[1..], menuMap, currency);
      if names[0] in menuMap {
        var x := ListItem(Some(Str(names[0])), Some(Str(PriceText(menuMap[names[0]], currency))));
        assert ([x] + rest)[0] == x;
        assert ([x] + rest)[1..] == rest;
      }
    }
  }

  /** The menu rows of a stand. */
  function MenuItems(stand: Record, menu: Option<seq<Record>>, currencies: Option<seq<Record>>): (r: seq<ListItem>)
    ensures Titles(r) == Filter(StrsOf(stand, "menuItems"), (e: string) => e in IndexBy(RowsOf(menu), "itemName"))
    ensures forall x :: x in r ==>
      (x.title.Some? && x.title.value.Str?
       && exists item :: (item in RowsOf(menu) && KeyOf(item, "itemName") == x.title.value.s
                          && x.value == Some(Str(PriceText(item, DefaultCurrency(currencies))))))
  {
    var menuMap := IndexBy(RowsOf(menu), "itemName");
    MenuTitlesAreFilter(StrsOf(stand, "menuItems"), menuMap, DefaultCurrency(currencies));
    MenuItemsOf(StrsOf(stand, "menuItems"), menuMap, DefaultCurrency(currencies))
  }

  /** `calcListItems(stand, type)`: staff rows, menu rows, or nothing for any other list. */
  function ListItems(stand: Record, listType: string, staff: Option<seq<Record>>, menu: Option<seq<Record>>, currencies: Option<seq<Record>>): (r: seq<ListItem>)
    ensures listType == "staff" ==> |r| == |StrsOf(stand, "staffMembers")|
    ensures listType == "menu" ==> Titles(r) == Filter(StrsOf(stand, "menuItems"), (e: string) => e in IndexBy(RowsOf(menu), "itemName"))
    ensures listType != "staff" && listType != "menu" ==> r == []
  {
    if listType == "staff" then StaffItems(stand, staff)
    else if listType == "menu" then MenuItems(stand, menu, currencies)
    else []
  }
}

=== FILE: to_title_case.dfy ===
/**
  * `toTitleCase`: underscores become spaces, a leading lower-case letter is
  * capitalised, nine global regular-expression replacements insert a space
  * between two adjacent groups of letters and digits (camelCase and
  * acronym boundaries), and the result is trimmed. A non-string input
  * gives `null`.
  *
  * Each global replacement is modelled as the regular-expression engine
  * runs it: scanning left to right, at each position trying the pattern
  * (greedy runs, with the backtracking the pattern needs), and resuming
  * after each match.
  */
module TitleCase {
  import opened Js

  predicate IsLower(c: char) { 'a' <= c <= 'z' }
  predicate IsUpper(c: char) { 'A' <= c <= 'Z' }
  predicate IsDigit(c: char) { '0' <= c <= '9' }

  /** The character classes the patterns use. */
  datatype CharClass = Lower | Upper | Digit | UpperOrDigit | LowerNotS | Underscore

  predicate In(c: char, cls: CharClass)
  {
    match cls
    case Lower => IsLower(c)
    case Upper => IsUpper(c)
    case Digit => IsDigit(c)
    case UpperOrDigit => IsUpper(c) || IsDigit(c)
    case LowerNotS => IsLower(c) && c != 's'
    case Underscore => c == '_'
  }

  /** Whether position `k` holds a character of the class. */
  predicate At(s: string, k: nat, cls: CharClass)
  {
    k < |s| && In(s[k], cls)
  }

  /** The length of the longest run of the class starting at `i` (what a greedy `+` or `*` takes). */
  function Run(s: string, i: nat, cls: CharClass): (r: nat)
    requires i <= |s|
    ensures i + r <= |s|
    ensures forall k :: i <= k < i + r ==> In(s[k], cls)
    ensures !At(s, i + r, cls)
    decreases |s| - i
  {
    if i < |s| && In(s[i], cls) then 1 + Run(s, i + 1, cls) else 0
  }

  /** The nine space-inserting replacements, in the order they are applied. */
  datatype Rule =
    | LowerUpperLower        // ([a-z])([A-Z][a-z])
    | UpperLowerUpper        // ([A-Z][a-z])([A-Z])
    | LowerUppersLower       // ([a-z])([A-Z]+[a-z])
    | UppersUpperLowerLower  // ([A-Z]+)([A-Z][a-z][a-z])
    | LowersUppersOrDigits   // ([a-z]+)([A-Z0-9]+)
    | UppersUpperNotS        // ([A-Z]+)([A-Z][a-rt-z][a-z]*)
    | DigitUpperLowers       // ([0-9])([A-Z][a-z]+)
    | UppersDigits           // ([A-Z]{2,})([0-9]{2,})
    | DigitsUppers           // ([0-9]{2,})([A-Z]{2,})

  /** A match: the lengths of the two captured groups. */
  datatype Split = Split(first: nat, second: nat)

  /** A match whose groups lie inside the string after position `i`. */
  predicate Fits(r: Option<Split>, s: string, i: nat)
  {
    r.Some? ==> r.value.first >= 1 && r.value.second >= 1 && i + r.value.first + r.value.second <= |s|
  }

  /** `([a-z])([A-Z]+[a-z])` at `i`: the upper-case run is taken whole, since a shorter one leaves an upper-case letter where `[a-z]` is needed. */
  function LowerUppersLowerAt(s: string, i: nat): (r: Option<Split>)
    requires i < |s|
    ensures Fits(r, s, i)
  {
    if !At(s, i, Lower) then None
    else
      var k := Run(s, i + 1, Upper);
      if k >= 1 && At(s, i + 1 + k, Lower) then Some(Split(1, k + 1)) else None
  }

  /** `([A-Z]+)([A-Z][a-z][a-z])` at `i`: the first group gives back one letter of the upper-case run. */
  function UppersUpperLowerLowerAt(s: string, i: nat): (r: Option<Split>)
    requires i < |s|
    ensures Fits(r, s, i)
  {
    var k := Run(s, i, Upper);
    if k >= 2 && At(s, i + k, Lower) && At(s, i + k + 1, Lower) then Some(Split(k - 1, 3)) else None
  }

  /** `([a-z]+)([A-Z0-9]+)` at `i`. */
  function LowersUppersOrDigitsAt(s: string, i: nat): (r: Option<Split>)
    requires i < |s|
    ensures Fits(r, s, i)
  {
    var k := Run(s, i, Lower);
    if k == 0 then None
    else
      var m := Run(s, i + k, UpperOrDigit);
      if m >= 1 then Some(Split(k, m)) else None
  }

  /** `([A-Z]+)([A-Z][a-rt-z][a-z]*)` at `i`. */
  function UppersUpperNotSAt(s: string, i: nat): (r: Option<Split>)
    requires i < |s|
    ensures Fits(r, s, i)
  {
    var k := Run(s, i, Upper);
    if k >= 2 && At(s, i + k, LowerNotS) then Some(Split(k - 1, 2 + Run(s, i + k + 1, Lower))) else None
  }

  /** `([0-9])([A-Z][a-z]+)` at `i`. */
  function DigitUpperLowersAt(s: string, i: nat): (r: Option<Split>)
    requires i < |s|
    ensures Fits(r, s, i)
  {
    if At(s, i, Digit) && At(s, i + 1, Upper) then
      var l := Run(s, i + 2, Lower);
      if l >= 1 then Some(Split(1, 1 + l)) else None
    else None
  }

  /** `([A-Z]{2,})([0-9]{2,})` at `i`. */
  function UppersDigitsAt(s: string, i: nat): (r: Option<Split>)
    requires i < |s|
    ensures Fits(r, s, i)
  {
    var k := Run(s, i, Upper);
    if k < 2 then None
    else
      var d := Run(s, i + k, Digit);
      if d >= 2 then Some(Split(k, d)) else None
  }

  /** `([0-9]{2,})([A-Z]{2,})` at `i`. */
  function DigitsUppersAt(s: string, i: nat): (r: Option<Split>)
    requires i < |s|
    ensures Fits(r, s, i)
  {
    var k := Run(s, i, Digit);
    if k < 2 then None
    else
      var u := Run(s, i + k, Upper);
      if u >= 2 then Some(Split(k, u)) else None
  }

  /** The match of a rule starting at position `i`, if the pattern matches there. */
  function MatchAt(rule: Rule, s: string, i: nat): (r: Option<Split>)
    requires i < |s|
    ensures Fits(r, s, i)
  {
    match rule
    case LowerUpperLower =>
      if At(s, i, Lower) && At(s, i + 1, Upper) && At(s, i + 2, Lower) then Some(Split(1, 2)) else None
    case UpperLowerUpper =>
      if At(s, i, Upper) && At(s, i + 1, Lower) && At(s, i + 2, Upper) then Some(Split(2, 1)) else None
    case LowerUppersLower => LowerUppersLowerAt(s, i)
    case UppersUpperLowerLower => UppersUpperLowerLowerAt(s, i)
    case LowersUppersOrDigits => LowersUppersOrDigitsAt(s, i)
    case UppersUpperNotS => UppersUpperNotSAt(s, i)
    case DigitUpperLowers => DigitUpperLowersAt(s, i)
    case UppersDigits => UppersDigitsAt(s, i)
    case DigitsUppers => DigitsUppersAt(s, i)
  }

  /** `s.replace(/(g1)(g2)/g, "$1 $2")` from position `i` on. */
  function Scan(rule: Rule, s: string, i: nat): string
    requires i <= |s|
    decreases |s| - i, 1
  {
    if i == |s| then [] else ScanFrom(rule, s, i, MatchAt(rule, s, i))
  }

  /** The replacement from position `i` on, given the rule's match `m` at `i`. */
  function ScanFrom(rule: Rule, s: string, i: nat, m: Option<Split>): string
    requires i < |s| && Fits(m, s, i)
    decreases |s| - i, 0
  {
    match m
    case None => [s[i]] + Scan(rule, s, i + 1)
    case Some(sp) => Pieces(s, i, sp, Scan(rule, s, i + sp.first + sp.second))
  }

  /** The replacement text `$1 $2` for match `m` at `i`, followed by `rest`. */
  function Pieces(s: string, i: nat, m: Split, rest: string): string
    requires i + m.first + m.second <= |s|
  {
    s[i..i + m.first] + " " + s[i + m.first..i + m.first + m.second] + rest
  }

  function Apply(rule: Rule, s: string): string
  {
    Scan(rule, s, 0)
  }

  /** `s.replace(/(_)+/g, " ")` from position `i` on. */
  function Collapse(s: string, i: nat): (r: string)
    requires i <= |s|
    ensures '_' !in r
    ensures forall c :: c in r && c != ' ' ==> c in s[i..]
    ensures i < |s| && s[i] != '_' ==> |r| > 0 && r[0] == s[i]
    decreases |s| - i
  {
    if i == |s| then []
    else if s[i] == '_' then
      var k := Run(s, i, Underscore);
      var rest := Collapse(s, i + k);
      assert forall c :: c in rest && c != ' ' ==> c in s[i..] by {
        forall c | c in rest && c != ' ' ensures c in s[i..] {
          var j :| 0 <= j < |s[i + k..]| && s[i + k..][j] == c;
          assert s[i..][k + j] == c;
        }
      }
      " " + rest
    else
      var rest := Collapse(s, i + 1);
      assert forall c :: c in rest && c != ' ' ==> c in s[i..] by {
        forall c | c in rest && c != ' ' ensures c in s[i..] {
          var j :| 0 <= j < |s[i + 1..]| && s[i + 1..][j] == c;
          assert s[i..][1 + j] == c;
        }
      }
      [s[i]] + rest
  }

  function UpperOf(c: char): char
  {
    if IsLower(c) then (c as int - 32) as char else c
  }

  /** `s.replace(/(^[a-z])/g, (_, g1) => g1.toUpperCase())`. */
  function Capitalize(s: string): (r: string)
    ensures |r| == |s|
    ensures s != [] ==> r[0] == UpperOf(s[0]) && r[1..] == s[1..]
  {
    if s != [] && IsLower(s[0]) then [UpperOf(s[0])] + s[1..] else s
  }

  /** The whitespace `trim` removes (the ASCII ones, no-break space, byte-order mark, line and paragraph separators). */
  predicate IsSpace(c: char)
  {
    c == ' ' || c == '\t' || c == '\n' || c == '\r' || c == '\U{000B}' || c == '\U{000C}'
    || c == '\U{00A0}' || c == '\U{FEFF}' || c == '\U{2028}' || c == '\U{2029}'
  }

  function TrimStart(s: string): (r: string)
    ensures |r| <= |s| && r == s[|s| - |r|..]
    ensures forall k :: 0 <= k < |s| - |r| ==> IsSpace(s[k])
    ensures r == [] || !IsSpace(r[0])
  {
    if s != [] && IsSpace(s[0]) then TrimStart(s[1..]) else s
  }

  function TrimEnd(s: string): (r: string)
    ensures |r| <= |s| && r == s[..|r|]
    ensures forall k :: |r| <= k < |s| ==> IsSpace(s[k])
    ensures r == [] || !IsSpace(r[|r| - 1])
  {
    if s != [] && IsSpace(s[|s| - 1]) then TrimEnd(s[..|s| - 1]) else s
  }

  /** `s.trim()`. */
  function Trim(s: string): (r: string)
    ensures r == [] || (!IsSpace(r[0]) && !IsSpace(r[|r| - 1]))
    ensures exists i, j :: 0 <= i <= j <= |s| && r == s[i..j]
  {
    var t := TrimStart(s);
    var u := TrimEnd(t);
    assert u == t[..|u|];
    assert t == s[|s| - |t|..];
    assert t[..|u|] == s[|s| - |t|..|s| - |t| + |u|];
    u
  }

  /** The nine space insertions, in the order they are applied. */
  const Rules: seq<Rule> := [LowerUpperLower, UpperLowerUpper, LowerUppersLower, UppersUpperLowerLower,
                             LowersUppersOrDigits, UppersUpperNotS, DigitUpperLowers, UppersDigits, DigitsUppers]

  /** The rules applied one after the other. */
  function ApplyAll(rules: seq<Rule>, s: string): string
  {
    if rules == [] then s else ApplyAll(rules[1..], Apply(rules[0], s))
  }

  function Spaces(s: string): string
  {
    ApplyAll(Rules, s)
  }

  /** `toTitleCase(str)`: `None` stands for the `null` a non-string input gives. */
  function ToTitleCase(str: Option<Value>): (r: Option<string>)
    ensures r.Some? <==> str.Some? && str.value.Str?
  {
    match str
    case Some(Str(s)) => Some(Trim(Spaces(Capitalize(Collapse(s, 0)))))
    case _ => None
  }

  /**
    * `out` is `s` with spaces inserted: dropping some of the spaces of `out`
    * gives back `s` exactly.
    */
  predicate Spaced(out: string, s: string)
    decreases |out|
  {
    if out == s then true
    else if out == [] then false
    else (out[0] == ' ' && Spaced(out[1..], s)) || (s != [] && out[0] == s[0] && Spaced(out[1..], s[1..]))
  }

  lemma {:induction false} SpacedPrefix(p: string, o: string, t: string)
    requires Spaced(o, t)
    ensures Spaced(p + o, p + t)
    decreases |p|
  {
    if p != [] {
      SpacedPrefix(p[1..], o, t);
      assert (p + o)[1..] == p[1..] + o;
      assert (p + t)[1..] == p[1..] + t;
      assert (p + o)[0] == p[0] == (p + t)[0];
      assert p + t != [] && p + o != [];
    } else {
      assert p + o == o && p + t == t;
    }
  }

  lemma {:induction false} SpacedTrans(a: string, b: string, c: string)
    requires Spaced(a, b) && Spaced(b, c)
    ensures Spaced(a, c)
    decreases |a| + |b|
  {
    if a == b || b == c {
    } else if a[0] == ' ' && Spaced(a[1..], b) {
      SpacedTrans(a[1..], b, c);
    } else {
      assert b != [] && a[0] == b[0] && Spaced(a[1..], b[1..]);
      if b[0] == ' ' && Spaced(b[1..], c) {
        SpacedTrans(a[1..], b[1..], c);
      } else {
        assert c != [] && b[0] == c[0] && Spaced(b[1..], c[1..]);
        SpacedTrans(a[1..], b[1..], c[1..]);
      }
    }
  }

  /** Inserting spaces never drops or changes a character: every non-space character of `out` is one of `s`. */
  lemma {:induction false} SpacedChars(out: string, s: string, c: char)
    requires Spaced(out, s) && c in out && c != ' '
    ensures c in s
    decreases |out|
  {
    if out != s {
      if out[0] == ' ' && Spaced(out[1..], s) {
        SpacedChars(out[1..], s, c);
      } else if out[0] != c {
        SpacedChars(out[1..], s[1..], c);
      }
    }
  }

  /** One match: a space between the two groups, the rest spaced as before. */
  lemma SpacedMatch(x: string, y: string, rest: string, z: string)
    requires Spaced(rest, z)
    ensures Spaced(x + " " + y + rest, x + y + z)
  {
    SpacedPrefix(y, rest, z);
    var mid := y + rest;
    assert Spaced([' '] + mid, y + z) by {
      assert ([' '] + mid)[1..] == mid;
      assert ([' '] + mid)[0] == ' ';
    }
    SpacedPrefix(x, [' '] + mid, y + z);
    assert x + " " + y + rest == x + ([' '] + mid);
    assert x + y + z == x + (y + z);
  }

  lemma ConsSpaced(s: string, i: nat, rest: string)
    requires i < |s| && Spaced(rest, s[i + 1..])
    ensures Spaced([s[i]] + rest, s[i..])
  {
    SpacedPrefix([s[i]], rest, s[i + 1..]);
    assert [s[i]] + s[i + 1..] == s[i..];
  }

  lemma MatchSpaced(s: string, i: nat, m: Split, rest: string)
    requires i + m.first + m.second <= |s| && Spaced(rest, s[i + m.first + m.second..])
    ensures Spaced(Pieces(s, i, m, rest), s[i..])
  {
    var x, y, z := s[i..i + m.first], s[i + m.first..i + m.first + m.second], s[i + m.first + m.second..];
    assert x + y + z == s[i..];
    SpacedMatchSame(x, y, z, rest, Pieces(s, i, m, rest), s[i..]);
  }

  lemma SpacedMatchSame(x: string, y: string, z: string, rest: string, o: string, t: string)
    requires o == x + " " + y + rest && t == x + y + z && Spaced(rest, z)
    ensures Spaced(o, t)
  {
    SpacedMatch(x, y, rest, z);
  }

  /** A global replacement only inserts spaces between the two groups of each match. */
  lemma {:induction false} ScanSpaced(rule: Rule, s: string, i: nat)
    requires i <= |s|
    ensures Spaced(Scan(rule, s, i), s[i..])
    decreases |s| - i, 1
  {
    if i == |s| {
      assert Scan(rule, s, i) == [] == s[i..];
    } else if MatchAt(rule, s, i).None? {
      SkipSpaced(rule, s, i);
    } else {
      MatchAtSpaced(rule, s, i, MatchAt(rule, s, i).value);
    }
  }

  /** No match at `i`: the character is copied. */
  lemma {:induction false} SkipSpaced(rule: Rule, s: string, i: nat)
    requires i < |s|
    ensures Spaced(ScanFrom(rule, s, i, None), s[i..])
    decreases |s| - i, 0
  {
    ScanSpaced(rule, s, i + 1);
    ConsSpaced(s, i, Scan(rule, s, i + 1));
  }

  /** A match at `i`: a space goes between its two groups. */
  lemma {:induction false} MatchAtSpaced(rule: Rule, s: string, i: nat, sp: Split)
    requires i < |s| && Fits(Some(sp), s, i)
    ensures Spaced(ScanFrom(rule, s, i, Some(sp)), s[i..])
    decreases |s| - i, 0
  {
    var rest := Scan(rule, s, i + sp.first + sp.second);
    assert ScanFrom(rule, s, i, Some(sp)) == Pieces(s, i, sp, rest);
    ScanSpaced(rule, s, i + sp.first + sp.second);
    MatchSpaced(s, i, sp, rest);
  }

  /** A global replacement keeps the first character (every match's first group is non-empty). */
  lemma ScanKeepsFirst(rule: Rule, s: string)
    requires s != []
    ensures Apply(rule, s) != [] && Apply(rule, s)[0] == s[0]
  {
    ScanFromKeepsFirst(rule, s, 0, MatchAt(rule, s, 0));
  }

  lemma ScanFromKeepsFirst(rule: Rule, s: string, i: nat, m: Option<Split>)
    requires i < |s| && Fits(m, s, i)
    ensures ScanFrom(rule, s, i, m) != [] && ScanFrom(rule, s, i, m)[0] == s[i]
  {
    if m.Some? {
      var sp := m.value;
      var rest := Scan(rule, s, i + sp.first + sp.second);
      assert Pieces(s, i, sp, rest)[0] == s[i..i + sp.first][0];
    }
  }

  /** Any chain of the replacements still only inserts spaces, and keeps the first character. */
  lemma {:induction false} ApplyAllOnlyInserts(rules: seq<Rule>, s: string)
    ensures Spaced(ApplyAll(rules, s), s)
    ensures s != [] ==> ApplyAll(rules, s) != [] && ApplyAll(rules, s)[0] == s[0]
    decreases |rules|
  {
    if rules == [] {
      assert Spaced(s, s);
    } else {
      var t := Apply(rules[0], s);
      assert s[0..] == s;
      ScanSpaced(rules[0], s, 0);
      ApplyAllOnlyInserts(rules[1..], t);
      SpacedTrans(ApplyAll(rules[1..], t), t, s);
      if s != [] {
        ScanKeepsFirst(rules[0], s);
      }
    }
  }

  lemma SpacesOnlyInsert(s: string)
    ensures Spaced(Spaces(s), s)
    ensures s != [] ==> Spaces(s) != [] && Spaces(s)[0] == s[0]
  {
    ApplyAllOnlyInserts(Rules, s);
  }

  /** Capitalising adds no underscore. */
  lemma CapitalizeNoUnderscore(s: string)
    requires '_' !in s
    ensures '_' !in Capitalize(s)
  {
    if s != [] && IsLower(s[0]) {
      assert Capitalize(s) == [UpperOf(s[0])] + s[1..];
    }
  }

  /** Trimming adds no character: a character absent from `s` is absent from its trim. */
  lemma TrimKeepsAbsent(s: string, c: char)
    requires c !in s
    ensures c !in Trim(s)
  {
    var i, j :| 0 <= i <= j <= |s| && Trim(s) == s[i..j];
    assert forall k :: 0 <= k < j - i ==> s[i..j][k] == s[i + k];
  }

  /** The title-cased string has no underscore: the first replacement removes them and the later ones only add spaces. */
  lemma TitleCaseNoUnderscore(str: string)
    ensures '_' !in ToTitleCase(Some(Str(str))).value
  {
    var cap := Capitalize(Collapse(str, 0));
    CapitalizeNoUnderscore(Collapse(str, 0));
    SpacesOnlyInsert(cap);
    var sp := Spaces(cap);
    if '_' in sp {
      SpacedChars(sp, cap, '_');
    }
    TrimKeepsAbsent(sp, '_');
  }

  /** A leading lower-case letter comes out as its capital, first in the result. */
  lemma TitleCaseCapitalizes(str: string)
    requires str != [] && IsLower(str[0])
    ensures var r := ToTitleCase(Some(Str(str))).value;
      r != [] && r[0] == UpperOf(str[0])
  {
    var c := Collapse(str, 0);
    var cap := Capitalize(c);
    SpacesOnlyInsert(cap);
    var sp := Spaces(cap);
    assert sp[0] == UpperOf(str[0]);
    assert TrimStart(sp) == sp;
  }

  /** The result is trimmed: it neither starts nor ends with whitespace. */
  lemma TitleCaseTrimmed(str: string)
    ensures var r := ToTitleCase(Some(Str(str))).value;
      r == [] || (!IsSpace(r[0]) && !IsSpace(r[|r| - 1]))
  {
  }
}

=== FILE: top_ups_filters.dfy ===
/** The filter panel of the top-ups view. */
module TopUpsFilters {
  import opened Js
  import opened Lists
  import opened FilterFields

  /**
    * `topUpsFilters({staff, currencies})`: a select of the members of class 2
    * by id, a scan-id input, and a select of the currencies by name.
    */
  function Fields(staff: seq<Record>, currencies: seq<Record>): (r: seq<Field>)
    ensures Names(r) == ["memberId", "scanId", "topUpCurrency"]
    ensures r[0].fieldType == Select && r[0].options == Some(MemberOptions(Filter(staff, (m: Record) => OfClass(m, 2)), "memberId"))
    ensures r[1].fieldType == Input && r[1].options == None
    ensures r[2].fieldType == Select && r[2].options.Some? && |r[2].options.value| == |currencies|
    ensures forall i :: 0 <= i < |currencies| ==>
      r[2].options.value[i] == SelectOption(Get(currencies[i], "currency"), Get(currencies[i], "currency"))
  {
    ClassOptionsAreFiltered(staff, 2, "memberId");
    var fields := [
      Field("Staff", "memberId", Select, None, Some(ClassOptions(staff, 2, "memberId"))),
      Field("Scan Id", "scanId", Input, None, None),
      Field("Currency", "topUpCurrency", Select, None, Some(SameOptions(FieldValues(currencies, "currency"))))
    ];
    assert Names(fields) == ["memberId", "scanId", "topUpCurrency"];
    fields
  }
}

=== FILE: transactions_filters.dfy ===
/** The filter panel of the transactions view. */
module TransactionsFilters {
  import opened Js
  import opened Lists
  import opened FilterFields

  /**
    * `transactionFilters({menu, staff})`: a select of the menu's items, a
    * select of their distinct categories in order of first appearance, a
    * scan-id input, and a select of the members of class 1 (`undefined`
    * options when staff is).
    */
  function Fields(menu: seq<Record>, staff: Option<seq<Record>>): (r: seq<Field>)
    ensures Names(r) == ["itemName", "itemCategory", "scanId", "memberId"]
    ensures r[0].fieldType == Select && r[0].options == Some(SameOptions(FieldValues(menu, "itemName")))
    ensures r[1].fieldType == Select && r[1].options == Some(SameOptions(Distinct(FieldValues(menu, "itemCategory"))))
    ensures forall c :: SelectOption(c, c) in r[1].options.value <==> c in FieldValues(menu, "itemCategory")
    ensures forall i, j :: 0 <= i < j < |r[1].options.value| ==> r[1].options.value[i] != r[1].options.value[j]
    ensures FirstAppearanceOrder(OptionValues(r[1].options.value), FieldValues(menu, "itemCategory"))
    ensures r[2].fieldType == Input && r[2].options == None
    ensures r[3].fieldType == Select
    ensures staff.None? ==> r[3].options == None
    ensures staff.Some? ==> r[3].options == Some(MemberOptions(Filter(staff.value, (m: Record) => OfClass(m, 1)), "memberId"))
  {
    var categories := Distinct(FieldValues(menu, "itemCategory"));
    SameOptionsValues(categories);
    var sold := match staff
      case None => None
      case Some(s) => Some(ClassOptions(s, 1, "memberId"));
    var fields := [
      Field("Menu item", "itemName", Select, None, Some(SameOptions(FieldValues(menu, "itemName")))),
      Field("Item category", "itemCategory", Select, None, Some(SameOptions(categories))),
      Field("Scan Id", "scanId", Input, None, None),
      Field("Sold by", "memberId", Select, None, sold)
    ];
    assert Names(fields) == ["itemName", "itemCategory", "scanId", "memberId"];
    if staff.Some? then ClassOptionsAreFiltered(staff.value, 1, "memberId"); fields else fields
  }
}
